=== FILE: README.md ===
# kbmd editing core in Dafny

This project models the data-handling core of kbmd. kbmd is a knowledge-base editor that keeps FAQs grouped into sections. Sections are grouped into phase groups. Each organisation also has a set of key/value variables and a "custom rules" text. The model consists of pure Dafny functions over immutable datatypes, plus a few methods where the source works in a loop. The rendering, the network and the database engine are not modelled.

One module per source file of the core:

| module | file | what it models |
|---|---|---|
| `DraftEngine` | `src/app/page.tsx` | The editor page's draft engine. A committed base list, a draft record keyed by FAQ id, and a set of ids marked for deletion. It covers the projection of the visible list, the search filter and the pending batch. It covers the save, discard and edit handlers, and the same draft cycle for the custom rules. |
| `ServerActions` | `src/db/actions.ts` | The server actions over an in-memory database of row sequences. Reordering of sections and phase groups, creation of sections, groups and FAQs with "max + 1" ordering, and moving a section into and out of a group. Also the FAQ batch upsert and delete, and saving and restoring the custom rules with history. |
| `Export` | `src/components/export-modal.tsx` | The export dialog: the effective section selection, toggles, presets, the per-group counts and the Markdown document generator. |
| `SearchNav` | `src/hooks/use-search-navigation.ts` | Counting of case-insensitive matches, the ordered list of match locations and their DOM ids, and cyclic next/previous navigation. |
| `Highlight` | `src/components/highlight-text.tsx` | The split of a text into plain runs and `<mark>` segments for a query. |
| `FaqTable` | `src/components/faq-table.tsx` | The table's local state: the edited cell, the unsaved new rows, their error flags and the commit rule for a new row. |
| `VariablesForm` | `src/components/variables-section.tsx` | The key sanitiser and the guards of the variable form. |
| `RulesHistory` | `src/components/custom-rules-history-modal.tsx` | The preview truncation of a history entry. |
| `LegacyPage` | `faq-knowledge-base/src/app/page.tsx` | The older single-tenant page. It has optimistic create, update and delete handlers for variables, sections and FAQs, each with a rollback on failure. |

The shared modules are:

- `Outcomes` (`Option`, `Result`).
- `JsText`: the JavaScript string operations the code relies on. These are `trim` with ECMAScript whitespace, ASCII `toLowerCase`/`toUpperCase`, `indexOf`, `includes`, overlapping occurrence counting and decimal rendering of a counter.
- `IdLists`: id sequences without repetition.
- `Subsequences`: order-preserving sub-sequences, the shape of every `filter` result. Its `FilterUnique` shows that "a sub-sequence that keeps each selected element as often as it occurs" determines the result.
- `FaqOrder`: a stable insertion sort by `(order, id)` that stands in for `Array.prototype.sort` with the source's comparator.
- `OptimisticLists`: find, filter and map by id, and the settle and revert steps of an optimistic update.

Where the written design and the code differ, the model follows the code:

- On the editor page, FAQs in a section are ordered by the base list's position. After them come the FAQs created on the page and not yet saved, in the order they were created, because the draft record keeps its keys in insertion order. There is no `createdAt` tie-break, and drafts carry no `order`.
- Deleting a section refetches the base list but does not purge the drafts of that section.
- A successful save clears all drafts, including edits made while the request was in flight.
- A failed save rolls nothing back, because the drafts were never cleared.
- No server-action call on the editor page passes the organisation slug that every action takes first. `applyFaqBatch`, `saveCustomRules`, `createSection` and `deleteSection` get one argument short (src/app/page.tsx:140, :159, :317, :361), and the four getters in `refreshData` get none (src/app/page.tsx:67-78). The page's calls are therefore modelled by their effect on the page: an abstract outcome (failed, applied and refreshed, or applied with a failed refresh), or a refetched list passed in. They are not composed with the `ServerActions` members.

## Model

| member | source | states |
|---|---|---|
| DraftEngine.Lookup | src/app/page.tsx:85-87 | Finds the entry with the id, or reports that none exists. |
| DraftEngine.Put | src/app/page.tsx:165-221 | A new id is added at the end of the record. An id already present keeps its place and takes the new draft. Either way, lookups of that id return the draft, and every other id's lookup is unchanged. |
| DraftEngine.Remove | src/app/page.tsx:189-221 | Dropping a draft makes the id absent and leaves every other id's lookup unchanged. If the id was absent, the record is unchanged. |
| DraftEngine.RemovePut | src/app/page.tsx:189-221 | Putting a draft for an id that had none and then removing it restores the record exactly. |
| DraftEngine.LiveBase | src/app/page.tsx:93-97 | The base entries not marked deleted, exactly. |
| DraftEngine.DraftOnly | src/app/page.tsx:99-103 | The second loop's output: the drafts whose id is neither in the base nor marked deleted, in draft-record order, each as often as it occurs in the record. |
| DraftEngine.EffectiveUnique | src/app/page.tsx:89-106 | The projected list shows each id at most once. Its first entries are the live base entries, in base order. The rest are exactly the drafts with no base entry and no deletion mark, in draft-record order. |
| DraftEngine.CreateShowsLast | src/app/page.tsx:165-187 | Creating a FAQ under a fresh id adds it at the end of the projected list and leaves every other entry where it was. |
| DraftEngine.EffectiveShowsVisible | src/app/page.tsx:89-106 | Every shown FAQ agrees with the reference reading: a deletion mark hides the id, otherwise the draft wins over the base entry. |
| DraftEngine.VisibleIsShown | src/app/page.tsx:89-106 | Conversely, every id the reference reading shows appears in the projected list with that content. |
| DraftEngine.FilterBySearch | src/app/page.tsx:108-115 | An empty query keeps the list. Otherwise a FAQ is kept iff its question, answer or notes contain the query, ignoring ASCII case. The kept FAQs stay in list order, each as often as it occurs. |
| DraftEngine.SectionFaqs | src/app/page.tsx:117-119 | Exactly the FAQs of the section, in list order, each as often as it occurs. |
| DraftEngine.FiltersDetermined | src/app/page.tsx:108-119 | Those filter contracts pin the result: any order-preserving sub-sequence that keeps every matching FAQ as often as it occurs is the filter's result. |
| DraftEngine.CreateFaq | src/app/page.tsx:165-187 | Only the drafts change. The new id maps to a FAQ with the given fields, section and timestamps, and every other draft is unchanged. A fresh id goes last in the record, by `Put`. |
| DraftEngine.UpdateFaq | src/app/page.tsx:189-221 | Unknown ids change nothing. The draft disappears iff the edit matches the base entry's content and section. Otherwise it holds the new fields, keeps the section and creation stamp, and is stamped now. |
| DraftEngine.DraftCollapses | src/app/page.tsx:206-216 | Typing back a base FAQ's own fields removes its draft. |
| DraftEngine.EditUndone | src/app/page.tsx:189-221 | Editing an untouched base FAQ and then restoring its fields gives back the exact session. |
| DraftEngine.DeleteFaq | src/app/page.tsx:223-250 | Without confirmation nothing changes. With it the draft goes, and a base FAQ's id is added to the deletion marks. A draft-only FAQ is only dropped. Marks stay free of repetition. |
| DraftEngine.DeleteHidesFaq | src/app/page.tsx:223-250 | After a confirmed delete the FAQ is no longer visible, and a base FAQ's id is in the pending deletes. |
| DraftEngine.DeleteSection | src/app/page.tsx:151-162 | A confirmed section delete replaces the base with the refetched list. Drafts and marks are untouched. |
| DraftEngine.SectionDeleteKeepsDrafts | src/app/page.tsx:151-162 | A draft of a FAQ that disappeared with its section is still sent as an upsert by the next save. |
| DraftEngine.CreateIsPending | src/app/page.tsx:165-187 | A created FAQ is visible with its fields and is among the pending upserts. |
| DraftEngine.TallyDrafts | src/app/page.tsx:252-305 | There is one upsert per pending draft, in draft-record order. With unique draft ids, no id is sent twice, so created plus updated is the number of pending drafts. The created count is the number without a base entry. The incomplete list holds one id per upsert with a blank question or answer, in upsert order. Its length is the "N item(s) missing" count. |
| DraftEngine.LiveDeletes | src/app/page.tsx:295 | The deletes are the marked ids still present in the base, in marking order, each as often as it is marked. So they have no repetition when the marks have none. |
| DraftEngine.PendingBatchIsMinimal | src/app/page.tsx:252-305 | Every upsert is new or changed, and none is marked deleted. Every pending draft is sent, the deletes are exactly the live marks, and the counters match the lists. |
| DraftEngine.CanSaveIff | src/app/page.tsx:307-311 | Saving is allowed iff something is pending and every pending upsert has a non-blank question and answer. |
| DraftEngine.TrimmedRowsComplete | src/app/page.tsx:317-325 | Once trimmed, rows that passed the guard have a non-empty question and answer, and no text keeps surrounding whitespace. |
| DraftEngine.BeginSave | src/app/page.tsx:313-336 | While saving, or when saving is not allowed, nothing happens. Otherwise the in-flight flag is set. The request carries the pending deletes and the pending upserts with trimmed texts, each complete. |
| DraftEngine.FinishSave | src/app/page.tsx:313-336 | The flag is always released. A failure leaves drafts and marks untouched. A success clears them, bumps the reset signal and installs the refreshed base when there is one. |
| DraftEngine.FailedSaveKeepsWork | src/app/page.tsx:313-336 | After a failed save, the visible list and the pending batch are the same as before. |
| DraftEngine.Discard | src/app/page.tsx:338-344 | Nothing happens without pending changes or without confirmation. Otherwise drafts and marks are cleared and the reset signal is bumped. |
| DraftEngine.DiscardShowsBase | src/app/page.tsx:338-344 | After a confirmed discard, the page shows exactly the base list and has nothing pending. |
| DraftEngine.HandlersKeepWellKeyed | src/app/page.tsx:151-344 | Every handler keeps ids unique in the base and in the drafts, and the deletion marks free of repetition. |
| DraftEngine.UpdateRules | src/app/page.tsx:347-353 | The rules draft is cleared iff the text equals the saved content; otherwise it holds the text. After an edit, the draft is not a copy of the saved content. |
| DraftEngine.BeginSaveRules | src/app/page.tsx:357-361 | Nothing is sent while saving or without a draft. Otherwise the draft is sent, and it differs from the saved content. |
| DraftEngine.FinishSaveRules | src/app/page.tsx:357-371 | A failure keeps the draft. A success clears it, bumps the reset signal and takes the refreshed content. |
| DraftEngine.DiscardRules | src/app/page.tsx:373-378 | A confirmed discard of an existing draft clears it. Otherwise nothing changes. A draft that was not a copy of the saved content stays so. |
| DraftEngine.RulesRunKeepsMeaningful | src/app/page.tsx:347-378 | Through any sequence of the rules handlers (edit, save start, save settling, discard), a draft never becomes a copy of the saved content. |
| ServerActions.OrgSectionIds | src/db/actions.ts:100-104 | Exactly the ids of the organisation's sections. |
| ServerActions.Normalise | src/db/actions.ts:104-111 | Holds exactly the existing ids. The listed existing ids come first, in their order, and the unlisted ones follow. |
| ServerActions.NormaliseIsPermutation | src/db/actions.ts:104-111 | For distinct inputs, the final order has no repetition and is as long as the existing list, so it is a permutation of it. |
| ServerActions.ReorderSections | src/db/actions.ts:91-129 | An empty list changes nothing. Other organisations' rows are untouched. Each of the organisation's sections gets its index in the normalised order. |
| ServerActions.ReorderSectionsNumbersOrg | src/db/actions.ts:91-129 | After a reorder, the organisation's section orders are distinct and lie in 0..n-1. |
| ServerActions.ReorderSectionsListedFirst | src/db/actions.ts:91-129 | Every listed section comes before every unlisted one. |
| ServerActions.ReorderPhaseGroups | src/db/actions.ts:576-612 | The same rules as for sections, applied to the phase groups of the organisation. |
| ServerActions.ReorderPhaseGroupsNumbersOrg | src/db/actions.ts:576-612 | After a reorder, the organisation's group orders are distinct and lie in 0..n-1. |
| ServerActions.ReorderSectionsInGroup | src/db/actions.ts:670-690 | An empty list changes nothing. Only phase orders of sections change. A section outside the organisation or the group, or not listed, keeps its row, including a stale phase order. A listed section of the group gets the position of its id's first occurrence in the list. |
| ServerActions.ReorderInGroupFollowsList | src/db/actions.ts:670-690 | With unique section ids, the listed sections of the group get pairwise distinct phase orders. When the list has no repeats, those orders increase in list order. |
| ServerActions.CreateSection | src/db/actions.ts:131-143 | Appends one row with the new id, the name, the organisation, and an order equal to the organisation's section count. |
| ServerActions.CreateAfterReorderIsFresh | src/db/actions.ts:91-143 | After a reorder, a newly created section's order collides with none of the organisation's sections. |
| ServerActions.CreatePhaseGroup | src/db/actions.ts:539-551 | Appends one group whose order is the organisation's group count. |
| ServerActions.CreateGroupAfterReorderIsFresh | src/db/actions.ts:539-612 | After a group reorder, a newly created group's order collides with none of the organisation's groups. |
| ServerActions.NextPhaseOrder | src/db/actions.ts:151-179 | One more than the largest phase order in the group (a missing one counts as 0), or 0 for an empty group. It is larger than every member's order. |
| ServerActions.CreateSectionInGroup | src/db/actions.ts:145-184 | Fails iff the group is not the organisation's. Otherwise it appends a section placed last in that group. |
| ServerActions.AddSectionToGroup | src/db/actions.ts:614-654 | Fails on a foreign group, or else on a foreign section. Otherwise only that section moves into the group, at the next phase order. |
| ServerActions.AddSectionPlacesLast | src/db/actions.ts:614-654 | The added section's phase order is larger than that of every other section of the group. |
| ServerActions.RemoveSectionFromGroup | src/db/actions.ts:656-668 | The organisation's section with that id leaves its group with phase order 0, whatever group it was in. A section of another organisation with the same id is untouched, and no other field or row changes. |
| ServerActions.RemoveSectionFromGroupIdempotent | src/db/actions.ts:656-668 | Removing twice is the same as removing once. Afterwards, no section of the organisation in the old group has that id. |
| ServerActions.RemoveThenAddIsLast | src/db/actions.ts:614-668 | Removing a section from its group and adding it back always succeeds and puts it last. |
| ServerActions.SqlMax | src/db/actions.ts:236-253 | `max()` is NULL on no rows; otherwise it is one of the values and at least every value. |
| ServerActions.CreateFaq | src/db/actions.ts:228-257 | Fails iff the section is not the organisation's. Otherwise it appends the FAQ with an order one above the section's maximum, or 0 for an empty section. |
| ServerActions.ReferencedSections | src/db/actions.ts:305-307 | The distinct non-empty section ids the upserts refer to. |
| ServerActions.SectionCheckIff | src/db/actions.ts:304-319 | The section check passes iff every referenced section belongs to the organisation. |
| ServerActions.Overwrite | src/db/actions.ts:321-346 | The update half of the upsert. A row keeps its id and its organisation. It takes the section, question, answer, notes and order of the upsert with its id exactly when there is one, whatever organisation the row belongs to. Otherwise the row is unchanged. |
| ServerActions.DeleteOrgRows | src/db/actions.ts:348-352 | Removes exactly the organisation's rows whose ids are listed. The other rows stay in table order. |
| ServerActions.UpsertsLand | src/db/actions.ts:321-346 | Without duplicate ids, every upsert is present afterwards with its fields. |
| ServerActions.ApplyFaqBatch | src/db/actions.ts:293-357 | An empty batch is a no-op that succeeds. A non-empty batch fails with the section error iff the section check fails. It is rejected iff the check passes but the upsert conflicts, and it succeeds otherwise. On success, only FAQs change and the counts are returned. Every upsert not also deleted has landed. Every inserted row belongs to the organisation. Deleted rows of the organisation are gone, and every other row is kept. |
| ServerActions.CrossOrgOverwrite | src/db/actions.ts:322-345 | A batch from organisation A, carrying the id of organisation B's FAQ, passes every check and rewrites B's row. |
| ServerActions.ApplyFaqBatchOrgScoped | src/db/actions.ts:293-357 | The corrected batch has the same success and error conditions, and its inserted rows belong to the organisation. It never adds, drops or changes another organisation's rows. |
| ServerActions.CrossOrgOverwriteCorrected | src/db/actions.ts:322-345 | On the same input, the corrected batch leaves B's row unchanged. |
| ServerActions.GetCustomRules | src/db/actions.ts:369-377 | Returns a rules row of the organisation, or none iff the organisation has none. |
| ServerActions.SaveCustomRules | src/db/actions.ts:379-418 | Afterwards the organisation's rules read back as the new content, and other organisations read the same. The old content is appended to history iff it was non-empty and the history table exists. |
| ServerActions.RulesUpdateReadsBack | src/db/actions.ts:400-409 | Updating the existing row makes the read-back return the new content. Other organisations are unaffected. |
| ServerActions.RestoreCustomRulesVersion | src/db/actions.ts:446-480 | Fails iff the history table is missing, or else iff the entry is not the organisation's. On success the rules read back as that entry's content. |
| Export.EffectiveSectionIds | src/components/export-modal.tsx:211-219 | A section is exported iff it is selected directly or belongs to a selected phase group. |
| Export.GroupSectionCounts | src/components/export-modal.tsx:138-149 | Every group has an entry, and each entry counts that group's sections. |
| Export.Toggle | src/components/export-modal.tsx:175-183 | Flips membership of that id and keeps every other id. |
| Export.ApplyConfig | src/components/export-modal.tsx:158-173 | Takes the preset's switches and name. When asked, it selects exactly the preset's sections and groups that still exist. |
| Export.ApplyConfigExportsExisting | src/components/export-modal.tsx:158-219 | After applying a preset, every exported section exists. |
| Export.CanExportIff | src/components/export-modal.tsx:347-348 | Export is enabled iff variables or rules are included, or a section is selected, or a selected group has a section. |
| Export.GenerateMarkdown | src/components/export-modal.tsx:282-331 | The emitted text is the rendering of the reference document, block by block. |
| Export.DocumentStartsWithTitle | src/components/export-modal.tsx:283 | The document starts with the knowledge-base title. |
| Export.RulesShownIff | src/components/export-modal.tsx:286-289 | The rules heading appears iff rules are included and non-empty, and then the rules text follows. |
| Export.VariablesShown | src/components/export-modal.tsx:292-300 | The table rows are exactly the variables, in order, when they are included; otherwise there are none. |
| Export.SectionsShown | src/components/export-modal.tsx:303-309 | The section headings are exactly the exported sections, in page order. |
| Export.PlaceholderIff | src/components/export-modal.tsx:311-314 | A section shows the no-FAQ placeholder iff no FAQ belongs to it. |
| Export.FaqsShown | src/components/export-modal.tsx:316-327 | Every FAQ of an exported section contributes its question and answer. Its notes appear when they are not blank. |
| Export.NoBlankNotes | src/components/export-modal.tsx:324-326 | No notes block with blank text is ever emitted. |
| SearchNav.CountMatchesIsOccurrences | src/hooks/use-search-navigation.ts:24-35 | The count is 0 for a blank query. Otherwise it is the number of positions where the lower-cased query occurs, overlaps included. |
| SearchNav.CountMatchesInText | src/hooks/use-search-navigation.ts:24-35 | The loop that advances by one after each hit computes exactly that count. |
| SearchNav.MatchId | src/hooks/use-search-navigation.ts:37-45 | The id is the location's prefix followed by the decimal index. |
| SearchNav.MatchIdsDistinct | src/hooks/use-search-navigation.ts:37-45 | Two matches in the same field with different indices get different ids. |
| SearchNav.BuildMatches | src/hooks/use-search-navigation.ts:55-107 | The loops produce exactly the reference list: the Custom Rules title, then the Variables title, then section names, then FAQ fields, each numbered from 0. |
| SearchNav.MatchListLocated | src/hooks/use-search-navigation.ts:55-107 | Every listed match points at an existing section or FAQ, and its index lies below that field's count. |
| SearchNav.MatchListComplete | src/hooks/use-search-navigation.ts:55-107 | Conversely, every such location is listed: each occurrence in a title, a section name or an FAQ field has its match. |
| SearchNav.NextPrevInverse | src/hooks/use-search-navigation.ts:115-123 | From a valid index, next then previous, and previous then next, return to it. |
| SearchNav.NextCycles | src/hooks/use-search-navigation.ts:115-118 | k presses of next move k places forward, modulo the number of matches. |
| SearchNav.CurrentMatchId | src/hooks/use-search-navigation.ts:111-113 | There is a current id iff the index is in range, and it is that match's id. |
| SearchNav.DisplayedIndex | src/hooks/use-search-navigation.ts:140 | 0 iff there are no matches; otherwise a valid index is shown 1-based within 1..total. |
| Highlight.HighlightText | src/components/highlight-text.tsx:18-64 | The segments spell out the text exactly. A blank query gives the text as one plain run. |
| Highlight.ScanFlatten | src/components/highlight-text.tsx:28-62 | The runs and marks the loop pushes from `lastIndex` on spell out the rest of the text, unchanged. |
| Highlight.HighlightTextSegments | src/components/highlight-text.tsx:22-64 | Plain runs are non-empty, and each mark equals the query ignoring ASCII case. A mark is current iff its id is the current one. Ids run prefix-0, prefix-1, … in order, and there are never more marks than counted matches. |
| Highlight.OverlapExample | src/components/highlight-text.tsx:22-79 | In "aaa", the query "aa" is counted twice but marked once, because marking resumes after each match. |
| Highlight.MarkIdInjective | src/components/highlight-text.tsx:36 | Different counters give different mark ids. |
| FaqTable.Reset | src/components/faq-table.tsx:188-195 | The reset effect leaves no edited cell, no new rows, no focus and no errors. |
| FaqTable.StartEdit | src/components/faq-table.tsx:197-200 | The cell becomes the edited one and holds the field's text. The new rows are untouched. |
| FaqTable.HandleEditChange | src/components/faq-table.tsx:202-212 | The typed value is kept. While a cell is edited, the FAQ is sent with that field set to the value and the other two fields unchanged. |
| FaqTable.EditChangeSameValue | src/components/faq-table.tsx:202-212 | Typing a field's current text sends the FAQ unchanged. |
| FaqTable.StopEdit | src/components/faq-table.tsx:214-222 | No cell is edited any more, and the new rows are untouched. |
| FaqTable.AddNewRow | src/components/faq-table.tsx:232-240 | Appends one empty row and focuses it. |
| FaqTable.RemoveNewRow | src/components/faq-table.tsx:242-250 | That row and its error flag go. The focus is cleared only if it pointed at that row. |
| FaqTable.RemoveUndoesAdd | src/components/faq-table.tsx:232-250 | Adding a fresh row and removing it restores the rows and the error flags. |
| FaqTable.EditNewRow | src/components/faq-table.tsx:388-455 | The row with that temporary id reads back the typed value in that field and keeps its other fields. Every other row, all temporary ids, the edited cell and the focus are unchanged. Only that row's error flag is cleared. |
| FaqTable.EditThenCommit | src/components/faq-table.tsx:252-269 | After typing a non-blank value into a new row, committing it never silently drops it. If it is created, that field holds the trimmed value. |
| FaqTable.CommitNewRow | src/components/faq-table.tsx:252-269 | An all-blank row is dropped. A row missing its question or answer is flagged and kept. Any other row is created with trimmed texts and dropped. |
| FaqTable.CommittedFormIsClean | src/components/faq-table.tsx:252-269 | A created FAQ has a non-blank question and answer and is already trimmed. |
| VariablesForm.SanitizeKey | src/components/variables-section.tsx:174-176 | Same length. Each character is upper-cased, and anything outside A-Z, 0-9 and _ becomes _. |
| VariablesForm.SanitizeKeyIdempotent | src/components/variables-section.tsx:174-176 | Sanitising twice is the same as sanitising once. |
| VariablesForm.SanitizeKeyFixes | src/components/variables-section.tsx:174-176 | A key made of key characters is its own sanitisation. |
| VariablesForm.StartEdit | src/components/variables-section.tsx:43-48 | Read-only mode changes nothing. Otherwise the variable's key and value are loaded. |
| VariablesForm.SaveEdit | src/components/variables-section.tsx:50-55 | An update is requested iff a variable is being edited and the key is not blank. It carries trimmed key and value and ends the edit. |
| VariablesForm.CancelEdit | src/components/variables-section.tsx:57-61 | The edit ends and its texts are cleared. Nothing else changes. |
| VariablesForm.HandleAdd | src/components/variables-section.tsx:63-71 | A create is requested iff the form is writable and the key is not blank. It carries trimmed texts, and the add row is cleared and closed. |
| VariablesForm.ReadOnlyRequestsNothing | src/components/variables-section.tsx:43-71 | A read-only form that is not editing never sends a request. |
| VariablesForm.AddedKeyIsSanitized | src/components/variables-section.tsx:63-71 | A key added through the input is exactly the sanitised text typed. |
| RulesHistory.Truncate | src/components/custom-rules-history-modal.tsx:93-96 | Short content is returned as is. Longer content is its trimmed prefix plus an ellipsis, at most three characters longer than the limit. |
| RulesHistory.TruncatedIsPieceOfPrefix | src/components/custom-rules-history-modal.tsx:93-96 | A truncated preview is a slice of the first maxLength characters, followed by the ellipsis, with no surrounding whitespace before it. |
| OptimisticLists.RemoveFound | faq-knowledge-base/src/app/page.tsx:280-296 | With distinct ids, filtering out an id drops exactly the one entry found for it. |
| OptimisticLists.CreateThenSettle | faq-knowledge-base/src/app/page.tsx:89-106 | With a fresh temporary id, a failed create restores the list, and a saved one ends with the saved row appended. |
| OptimisticLists.UpdateThenRevert | faq-knowledge-base/src/app/page.tsx:108-125 | A failed update with distinct ids and an id-preserving patch restores the list. |
| OptimisticLists.DeleteThenRevert | faq-knowledge-base/src/app/page.tsx:127-141 | A failed delete restores the same entries, with the deleted one moved to the end. |
| LegacyPage.FilteredFaqs | faq-knowledge-base/src/app/page.tsx:74-81 | An empty query keeps everything. Otherwise it keeps exactly the FAQs whose texts include the query ignoring case, in list order, each as often as it occurs. |
| LegacyPage.FaqsForSection | faq-knowledge-base/src/app/page.tsx:83-86 | Exactly the matching FAQs of the section, each as often as it occurs in the list, sorted by order and then id. |
| LegacyPage.NextOrder | faq-knowledge-base/src/app/page.tsx:225-229 | Above every order in the section. Either 0, or one more than an existing order. |
| LegacyPage.TempFaq | faq-knowledge-base/src/app/page.tsx:219-254 | The optimistic FAQ carries the form's texts and an order above the section's others. |
| LegacyPage.CreateFaqSettles | faq-knowledge-base/src/app/page.tsx:219-254 | A failed FAQ create restores the list. A saved one appends the saved row. |
| LegacyPage.BeginUpdateFaq | faq-knowledge-base/src/app/page.tsx:256-278 | An unknown id does nothing. Otherwise only that FAQ's texts and stamp change, and the previous FAQ is kept for rollback. |
| LegacyPage.UpdateFaqReverts | faq-knowledge-base/src/app/page.tsx:256-278 | A failed FAQ update restores the list. |
| LegacyPage.DeleteFaqReverts | faq-knowledge-base/src/app/page.tsx:280-296 | A failed FAQ delete restores the same FAQs. |
| LegacyPage.BeginCreateSection | faq-knowledge-base/src/app/page.tsx:144-170 | A blank name does nothing. Otherwise it appends a section with the trimmed name, ordered last. |
| LegacyPage.CreateSectionSettles | faq-knowledge-base/src/app/page.tsx:144-170 | A failed section create restores the list. A saved one appends the saved row. |
| LegacyPage.UpdateSectionReverts | faq-knowledge-base/src/app/page.tsx:172-189 | The rename touches only that section, and a failure restores the list. |
| LegacyPage.BeginDeleteSection | faq-knowledge-base/src/app/page.tsx:191-216 | Removes the section and exactly its FAQs, keeping both for rollback. |
| LegacyPage.DeleteSectionReverts | faq-knowledge-base/src/app/page.tsx:191-216 | For a listed section, a failed delete restores the same sections and the same FAQs. |
| LegacyPage.DeleteUnknownSectionDropsFaqs | faq-knowledge-base/src/app/page.tsx:191-216 | For an id no listed section has, a failed delete rolls nothing back: the FAQs filed under that id stay removed. |
| LegacyPage.CreateVariableSettles | faq-knowledge-base/src/app/page.tsx:89-106 | A failed variable create restores the list. A saved one appends the saved row. |
| LegacyPage.UpdateVariableReverts | faq-knowledge-base/src/app/page.tsx:108-125 | The update touches only that variable, and a failure restores the list. |
| LegacyPage.DeleteVariableReverts | faq-knowledge-base/src/app/page.tsx:127-141 | A failed variable delete restores the same variables. |

## Left out

- Rendering, layout, scrolling, focus handling and toasts are left out. Only the state these components keep and the values they compute are modelled.
- Network, database and cache calls are left out. The server actions act on an in-memory database whose tables are sequences of rows. Their read order stands for the unspecified SQL row order. `revalidatePath`, authentication and organisation-slug resolution are outside the model: an organisation id is a parameter.
- Confirmation dialogs (`confirm`, `useConfirm`) become a `confirmed` parameter. Clocks (`new Date()`), `crypto.randomUUID()` and temporary ids become parameters too.
- Database errors other than the ones the code checks for are left out. Examples are a dropped connection, or a duplicate id inside one upsert statement. The batch models those two as one rejection.
- The interleaving of optimistic updates is left out. The rollback lemmas assume nothing else changes the list between the optimistic step and the failure.
- Unicode is left out. Upper- and lower-casing are ASCII only, so `toUpperCase` mappings such as "ß" to "SS" are not modelled. Strings are sequences of `char`, not UTF-16 code units.
- `localeCompare` is approximated by lexicographic order on characters. `Array.prototype.sort` is stood in for by a stable insertion sort.
- `src/db/schema.ts` is not part of this model: column types are reduced to the fields the operations read.
- RulesHistory.Truncate: takes a natural `maxLength`; the negative lengths JavaScript would accept are not modelled.
- DraftEngine.FinishSave: the editor page's call to `applyFaqBatch` is modelled as an abstract outcome, not as ServerActions.ApplyFaqBatch, because the page passes one argument where the action takes two.
- DraftEngine.FinishSaveRules: the call to `saveCustomRules` is an abstract outcome, not ServerActions.SaveCustomRules, because the page passes only the content where the action also takes the organisation slug.
- DraftEngine.DeleteSection: the call to `deleteSection` and the refetch are a `confirmed` flag and the refetched list, because the page passes only the id where the action also takes the organisation slug. The `deleteSection` action itself is outside this model.
- DraftEngine.RulesRunKeepsMeaningful: covers only the rules handlers. `refreshData`, which the other handlers also call, resets the saved rules content without touching the draft (src/app/page.tsx:67-78), so after it a draft may equal the saved content.
- Export.GenerateMarkdown: the clipboard copy and the file download of the generated text are left out.

## Findings

| source | as written | input that shows it | evidently intended | confidence | as-written member | corrected member |
|---|---|---|---|---|---|---|
| src/db/actions.ts:335-345 | The batch upsert inserts with `ON CONFLICT (id) DO UPDATE` without restricting the update to the caller's organisation. The section check looks only at section ids, and the deletes are organisation-scoped. | Organisation A sends an upsert whose id is the id of an FAQ of organisation B, with one of A's sections. | An upsert changes only rows of the caller's organisation. | not executed | ServerActions.CrossOrgOverwrite | ServerActions.ApplyFaqBatchOrgScoped |

=== FILE: draft_engine.dfy ===
/**
  The FAQ editing session of the single-tenant editor page: a committed base
  list, a draft record keyed by FAQ id, and a set of ids marked for deletion.
  Edits touch only the drafts and the marks; the visible list is projected
  from the three, and saving sends the minimal difference as one batch.

  JavaScript objects and sets iterate in insertion order (FAQ ids are UUIDs,
  never array-index-like keys), so the draft record is a sequence of FAQs
  keyed by their own `id`, and the deletion set a sequence of ids without
  repetition.
 */
module DraftEngine {
  import opened Outcomes
  import opened JsText
  import opened IdLists
  import opened Subsequences

  /** A clock reading (`new Date()`); its value is never inspected. */
  type Stamp = nat

  /** A FAQ as this page sees it: it carries no `order`. */
  datatype Faq = Faq(
    id: Id,
    sectionId: Id,
    question: string,
    answer: string,
    notes: string,
    createdAt: Option<Stamp>,
    updatedAt: Option<Stamp>)

  /** The three editable fields, as passed by the table component. */
  datatype Fields = Fields(question: string, answer: string, notes: string)

  /** One row of the batch sent to the server (no `order` is sent). */
  datatype Upsert = Upsert(id: Id, sectionId: Id, question: string, answer: string, notes: string)

  /** The pending difference between drafts and base. */
  datatype Batch = Batch(
    upserts: seq<Upsert>,
    deletes: seq<Id>,
    created: nat,
    updated: nat,
    deleted: nat,
    incomplete: seq<Id>)

  /** The request `handleSaveFaqChanges` sends. */
  datatype Request = Request(upserts: seq<Upsert>, deletes: seq<Id>)

  /** How the awaited batch call and the refresh after it ended. */
  datatype SaveOutcome =
    | BatchFailed
    | BatchApplied(refreshed: seq<Faq>)
    | BatchAppliedRefreshFailed

  /** The page state the FAQ handlers read and write. */
  datatype Session = Session(
    base: seq<Faq>,
    drafts: seq<Faq>,
    deleted: seq<Id>,
    resetSignal: nat,
    saving: bool)

  // ---------------------------------------------------------------------
  // Records keyed by id

  predicate UniqueIds(s: seq<Faq>) {
    forall i, j | 0 <= i < j < |s| :: s[i].id != s[j].id
  }

  /** No entry of `s` has this id. */
  predicate Absent(s: seq<Faq>, id: Id) {
    forall f | f in s :: f.id != id
  }

  lemma UniqueFront(s: seq<Faq>)
    requires UniqueIds(s) && |s| > 0
    ensures UniqueIds(s[..|s| - 1]) && Absent(s[..|s| - 1], s[|s| - 1].id)
  {
    var front := s[..|s| - 1];
    forall f | f in front ensures f.id != s[|s| - 1].id {
      var i :| 0 <= i < |front| && front[i] == f;
      assert s[i] == f;
    }
  }

  lemma UniqueSnoc(s: seq<Faq>, f: Faq)
    requires UniqueIds(s) && Absent(s, f.id)
    ensures UniqueIds(s + [f])
  {
    var r := s + [f];
    forall i, j | 0 <= i < j < |r| ensures r[i].id != r[j].id {
      assert r[i] == s[i] && s[i] in s;
    }
  }

  /** `map.get(id)` / `record[id]`: the last entry with that id (a `Map`
      built from a list keeps the last duplicate). */
  function Lookup(s: seq<Faq>, id: Id): (r: Option<Faq>)
    ensures r.Some? ==> r.value in s && r.value.id == id
    ensures r.None? <==> Absent(s, id)
  {
    if |s| == 0 then None
    else if s[|s| - 1].id == id then Some(s[|s| - 1])
    else
      assert s == s[..|s| - 1] + [s[|s| - 1]];
      Lookup(s[..|s| - 1], id)
  }

  lemma {:induction false} LookupMember(s: seq<Faq>, f: Faq)
    requires UniqueIds(s) && f in s
    ensures Lookup(s, f.id) == Some(f)
  {
    if s[|s| - 1] != f {
      UniqueFront(s);
      assert s == s[..|s| - 1] + [s[|s| - 1]];
      assert f in s[..|s| - 1];
      LookupMember(s[..|s| - 1], f);
    }
  }

  /** Every entry with `f`'s id replaced by `f`, each in its place. */
  function Replace(s: seq<Faq>, f: Faq): (r: seq<Faq>)
    ensures |r| == |s|
    ensures forall i | 0 <= i < |s| :: r[i] == (if s[i].id == f.id then f else s[i])
    ensures forall id | id != f.id :: Lookup(r, id) == Lookup(s, id)
    ensures !Absent(s, f.id) ==> Lookup(r, f.id) == Some(f)
  {
    if |s| == 0 then []
    else
      var front, last := s[..|s| - 1], s[|s| - 1];
      assert s == front + [last];
      var r := Replace(front, f) + [if last.id == f.id then f else last];
      assert r[..|r| - 1] == Replace(front, f);
      r
  }

  /** `{ ...record, [f.id]: f }`: a key already present keeps its place and
      takes the new value; a new key goes last, as object spread adds keys
      in insertion order. */
  function Put(s: seq<Faq>, f: Faq): (r: seq<Faq>)
    ensures Absent(s, f.id) ==> r == s + [f]
    ensures !Absent(s, f.id) ==>
      |r| == |s| && forall i | 0 <= i < |s| :: r[i] == (if s[i].id == f.id then f else s[i])
    ensures Lookup(r, f.id) == Some(f)
    ensures forall id | id != f.id :: Lookup(r, id) == Lookup(s, id)
    ensures forall g | g in r :: g == f || g in s
  {
    if Absent(s, f.id) then
      assert (s + [f])[..|s|] == s;
      s + [f]
    else Replace(s, f)
  }

  lemma PutUnique(s: seq<Faq>, f: Faq)
    requires UniqueIds(s)
    ensures UniqueIds(Put(s, f))
  {
    if Absent(s, f.id) {
      UniqueSnoc(s, f);
    } else {
      var r := Put(s, f);
      assert forall i | 0 <= i < |r| :: r[i].id == s[i].id;
    }
  }

  /** The record without the key `id`; every other key keeps its entry. */
  function Remove(s: seq<Faq>, id: Id): (r: seq<Faq>)
    ensures Absent(r, id)
    ensures forall other | other != id :: Lookup(r, other) == Lookup(s, other)
    ensures forall g | g in r :: g in s
    ensures Absent(s, id) ==> r == s
  {
    if |s| == 0 then []
    else
      var front, last := s[..|s| - 1], s[|s| - 1];
      assert s == front + [last];
      if last.id == id then Remove(front, id)
      else Remove(front, id) + [last]
  }

  lemma {:induction false} RemoveUnique(s: seq<Faq>, id: Id)
    requires UniqueIds(s)
    ensures UniqueIds(Remove(s, id))
  {
    if |s| > 0 {
      var front, last := s[..|s| - 1], s[|s| - 1];
      UniqueFront(s);
      RemoveUnique(front, id);
      if last.id != id {
        UniqueSnoc(Remove(front, id), last);
      }
    }
  }

  // ---------------------------------------------------------------------
  // The effective view (page.tsx `effectiveFaqs`)

  /** What the table shows for a base FAQ: its draft if there is one. */
  function Shown(drafts: seq<Faq>, b: Faq): (r: Faq)
    ensures r.id == b.id
  {
    Lookup(drafts, b.id).GetOr(b)
  }

  /** The base FAQs the first loop does not skip, in base order. */
  function LiveBase(base: seq<Faq>, deleted: seq<Id>): (r: seq<Faq>)
    ensures forall f :: f in r <==> f in base && f.id !in deleted
    ensures IsSubseq(r, base)
  {
    if |base| == 0 then []
    else
      var front, last := base[..|base| - 1], base[|base| - 1];
      assert base == front + [last];
      var prev := LiveBase(front, deleted);
      if last.id in deleted then SubseqSkip(prev, front, last); prev
      else SubseqTake(prev, front, last); prev + [last]
  }

  lemma {:induction false} LiveBaseUnique(base: seq<Faq>, deleted: seq<Id>)
    requires UniqueIds(base)
    ensures UniqueIds(LiveBase(base, deleted))
  {
    if |base| > 0 {
      var front, last := base[..|base| - 1], base[|base| - 1];
      UniqueFront(base);
      LiveBaseUnique(front, deleted);
      if last.id !in deleted {
        UniqueSnoc(LiveBase(front, deleted), last);
      }
    }
  }

  /** The first loop: each live base FAQ, replaced by its draft when one
      exists. */
  function ShownBase(base: seq<Faq>, drafts: seq<Faq>, deleted: seq<Id>): (r: seq<Faq>)
    ensures |r| == |LiveBase(base, deleted)|
    ensures forall i | 0 <= i < |r| :: r[i] == Shown(drafts, LiveBase(base, deleted)[i])
  {
    var live := LiveBase(base, deleted);
    seq(|live|, i requires 0 <= i < |live| => Shown(drafts, live[i]))
  }

  /** The second loop: drafts whose id was not emitted by the first loop and
      is not marked deleted. */
  function DraftOnly(drafts: seq<Faq>, seen: set<Id>, deleted: seq<Id>): (r: seq<Faq>)
    ensures forall f :: f in r <==> f in drafts && f.id !in seen && f.id !in deleted
    ensures IsSubseq(r, drafts)
    ensures forall f :: multiset(r)[f] == if f.id !in seen && f.id !in deleted then multiset(drafts)[f] else 0
  {
    if |drafts| == 0 then []
    else
      var front, last := drafts[..|drafts| - 1], drafts[|drafts| - 1];
      assert drafts == front + [last];
      var prev := DraftOnly(front, seen, deleted);
      if last.id in seen || last.id in deleted then SubseqSkip(prev, front, last); prev
      else SubseqTake(prev, front, last); prev + [last]
  }

  lemma {:induction false} DraftOnlyUnique(drafts: seq<Faq>, seen: set<Id>, deleted: seq<Id>)
    requires UniqueIds(drafts)
    ensures UniqueIds(DraftOnly(drafts, seen, deleted))
  {
    if |drafts| > 0 {
      var front, last := drafts[..|drafts| - 1], drafts[|drafts| - 1];
      UniqueFront(drafts);
      DraftOnlyUnique(front, seen, deleted);
      if !(last.id in seen || last.id in deleted) {
        UniqueSnoc(DraftOnly(front, seen, deleted), last);
      }
    }
  }

  /** The ids the first loop added to `seen`. */
  function Seen(base: seq<Faq>, deleted: seq<Id>): set<Id> {
    set f | f in base && f.id !in deleted :: f.id
  }

  /** `effectiveFaqs`: what the page currently shows. */
  function Effective(s: Session): seq<Faq> {
    ShownBase(s.base, s.drafts, s.deleted) + DraftOnly(s.drafts, Seen(s.base, s.deleted), s.deleted)
  }

  /** The reference reading of the view, one id at a time: a deletion mark
      hides the id, otherwise its draft wins over its base entry. */
  function Visible(s: Session, id: Id): Option<Faq> {
    if id in s.deleted then None
    else if Lookup(s.drafts, id).Some? then Lookup(s.drafts, id)
    else Lookup(s.base, id)
  }

  /** Facts about the two halves of the projection that the lemmas below
      share. */
  lemma EffectiveParts(s: Session)
    requires UniqueIds(s.base) && UniqueIds(s.drafts)
    ensures UniqueIds(LiveBase(s.base, s.deleted))
    ensures UniqueIds(DraftOnly(s.drafts, Seen(s.base, s.deleted), s.deleted))
    ensures forall i | 0 <= i < |ShownBase(s.base, s.drafts, s.deleted)| ::
      var f := ShownBase(s.base, s.drafts, s.deleted)[i];
      Visible(s, f.id) == Some(f) && f.id in Seen(s.base, s.deleted)
    ensures forall f | f in DraftOnly(s.drafts, Seen(s.base, s.deleted), s.deleted) :: Visible(s, f.id) == Some(f)
  {
    var live := LiveBase(s.base, s.deleted);
    var sb := ShownBase(s.base, s.drafts, s.deleted);
    LiveBaseUnique(s.base, s.deleted);
    DraftOnlyUnique(s.drafts, Seen(s.base, s.deleted), s.deleted);
    forall i | 0 <= i < |sb|
      ensures Visible(s, sb[i].id) == Some(sb[i]) && sb[i].id in Seen(s.base, s.deleted)
    {
      assert live[i] in live;
      LookupMember(s.base, live[i]);
    }
    forall f | f in DraftOnly(s.drafts, Seen(s.base, s.deleted), s.deleted)
      ensures Visible(s, f.id) == Some(f)
    {
      LookupMember(s.drafts, f);
    }
  }

  /** A draft the second loop emits: no base entry and no deletion mark. */
  predicate NewDraft(s: Session, d: Faq) {
    Absent(s.base, d.id) && d.id !in s.deleted
  }

  /** The projected list shows every id at most once. The live base
      entries come first, in base order; after them come the drafts whose id
      is neither in the base nor marked, in draft-record order, each as often
      as it occurs in the record. */
  lemma EffectiveUnique(s: Session)
    requires UniqueIds(s.base) && UniqueIds(s.drafts)
    ensures UniqueIds(Effective(s))
    ensures |LiveBase(s.base, s.deleted)| <= |Effective(s)|
    ensures forall i | 0 <= i < |LiveBase(s.base, s.deleted)| :: Effective(s)[i].id == LiveBase(s.base, s.deleted)[i].id
    ensures IsSubseq(Effective(s)[|LiveBase(s.base, s.deleted)|..], s.drafts)
    ensures forall d ::
      multiset(Effective(s)[|LiveBase(s.base, s.deleted)|..])[d] == (if NewDraft(s, d) then multiset(s.drafts)[d] else 0)
  {
    EffectiveIdsUnique(s);
    DraftBlock(s);
  }

  lemma EffectiveIdsUnique(s: Session)
    requires UniqueIds(s.base) && UniqueIds(s.drafts)
    ensures UniqueIds(Effective(s))
    ensures forall i | 0 <= i < |LiveBase(s.base, s.deleted)| :: Effective(s)[i].id == LiveBase(s.base, s.deleted)[i].id
  {
    var live := LiveBase(s.base, s.deleted);
    var sb := ShownBase(s.base, s.drafts, s.deleted);
    var dOnly := DraftOnly(s.drafts, Seen(s.base, s.deleted), s.deleted);
    var e := Effective(s);
    EffectiveParts(s);
    forall i, j | 0 <= i < j < |e|
      ensures e[i].id != e[j].id
    {
      if j < |sb| {
        assert e[i].id == live[i].id && e[j].id == live[j].id;
      } else if i >= |sb| {
        assert e[i] == dOnly[i - |sb|] && e[j] == dOnly[j - |sb|];
      } else {
        assert e[i] == sb[i];
        assert e[j] == dOnly[j - |sb|] && dOnly[j - |sb|] in dOnly;
      }
    }
  }

  /** The second loop's block: the drafts with no base entry and no mark,
      in record order, each as often as it occurs. */
  lemma DraftBlock(s: Session)
    ensures |LiveBase(s.base, s.deleted)| <= |Effective(s)|
    ensures IsSubseq(Effective(s)[|LiveBase(s.base, s.deleted)|..], s.drafts)
    ensures forall d ::
      multiset(Effective(s)[|LiveBase(s.base, s.deleted)|..])[d] == (if NewDraft(s, d) then multiset(s.drafts)[d] else 0)
  {
    var seen := Seen(s.base, s.deleted);
    var dOnly := DraftOnly(s.drafts, seen, s.deleted);
    assert Effective(s)[|LiveBase(s.base, s.deleted)|..] == dOnly;
    forall x: Id | x !in seen && x !in s.deleted ensures Absent(s.base, x) {
      forall b | b in s.base ensures b.id != x {
        assert b.id !in s.deleted ==> b.id in seen;
      }
    }
  }

  /** A FAQ created under a fresh id shows up last in the projected list;
      everything else stays where it was. */
  lemma CreateShowsLast(s: Session, id: Id, sectionId: Id, data: Fields, now: Stamp)
    requires Absent(s.base, id) && Absent(s.drafts, id) && id !in s.deleted
    ensures Effective(CreateFaq(s, id, sectionId, data, now))
      == Effective(s) + [Faq(id, sectionId, data.question, data.answer, data.notes, Some(now), Some(now))]
  {
    var nf := Faq(id, sectionId, data.question, data.answer, data.notes, Some(now), Some(now));
    assert CreateFaq(s, id, sectionId, data, now).drafts == s.drafts + [nf];
    ShownBaseIgnoresNew(s.base, s.drafts, s.deleted, nf);
    DraftOnlyTakesNew(s.base, s.drafts, s.deleted, nf);
  }

  lemma ShownBaseIgnoresNew(base: seq<Faq>, drafts: seq<Faq>, deleted: seq<Id>, nf: Faq)
    requires Absent(base, nf.id) && Absent(drafts, nf.id)
    ensures ShownBase(base, drafts + [nf], deleted) == ShownBase(base, drafts, deleted)
  {
    var live := LiveBase(base, deleted);
    assert Put(drafts, nf) == drafts + [nf];
    forall i | 0 <= i < |live| ensures Shown(drafts + [nf], live[i]) == Shown(drafts, live[i]) {
      assert live[i] in base;
    }
  }

  lemma DraftOnlyTakesNew(base: seq<Faq>, drafts: seq<Faq>, deleted: seq<Id>, nf: Faq)
    requires Absent(base, nf.id) && nf.id !in deleted
    ensures DraftOnly(drafts + [nf], Seen(base, deleted), deleted) == DraftOnly(drafts, Seen(base, deleted), deleted) + [nf]
  {
    assert nf.id !in Seen(base, deleted);
    assert (drafts + [nf])[..|drafts|] == drafts;
  }

  /** Everything the projected list shows is the visible FAQ of its id. */
  lemma EffectiveShowsVisible(s: Session)
    requires UniqueIds(s.base) && UniqueIds(s.drafts)
    ensures forall f | f in Effective(s) :: Visible(s, f.id) == Some(f)
  {
    var sb := ShownBase(s.base, s.drafts, s.deleted);
    var dOnly := DraftOnly(s.drafts, Seen(s.base, s.deleted), s.deleted);
    var e := Effective(s);
    EffectiveParts(s);
    assert e == sb + dOnly;
    forall f: Faq | f in sb + dOnly
      ensures Visible(s, f.id) == Some(f)
    {
      if f in sb {
        var k :| 0 <= k < |sb| && sb[k] == f;
      } else {
        assert f in dOnly;
      }
    }
  }

  /** Every visible FAQ is in the projected list. */
  lemma VisibleIsShown(s: Session)
    requires UniqueIds(s.base) && UniqueIds(s.drafts)
    ensures forall id | Visible(s, id).Some? :: Visible(s, id).value in Effective(s)
  {
    var live := LiveBase(s.base, s.deleted);
    var sb := ShownBase(s.base, s.drafts, s.deleted);
    var seen := Seen(s.base, s.deleted);
    var dOnly := DraftOnly(s.drafts, seen, s.deleted);
    assert Effective(s) == sb + dOnly;
    forall id | Visible(s, id).Some?
      ensures Visible(s, id).value in sb + dOnly
    {
      var v := Visible(s, id).value;
      if Lookup(s.base, id).Some? {
        var b := Lookup(s.base, id).value;
        assert b in live;
        var i :| 0 <= i < |live| && live[i] == b;
        assert sb[i] == v;
      } else {
        assert id !in seen;
        assert v in dOnly;
      }
    }
  }

  // ---------------------------------------------------------------------
  // Search and section filters (page.tsx `filteredFaqs`, `getFaqsForSection`)

  predicate Hit(f: Faq, query: string) {
    SearchHit(f.question, f.answer, f.notes, query)
  }

  function FilterHits(faqs: seq<Faq>, query: string): (r: seq<Faq>)
    ensures forall f :: f in r <==> f in faqs && Hit(f, query)
    ensures IsSubseq(r, faqs)
    ensures forall f :: multiset(r)[f] == if Hit(f, query) then multiset(faqs)[f] else 0
  {
    if |faqs| == 0 then []
    else
      var front, last := faqs[..|faqs| - 1], faqs[|faqs| - 1];
      assert faqs == front + [last];
      var prev := FilterHits(front, query);
      if Hit(last, query) then SubseqTake(prev, front, last); prev + [last]
      else SubseqSkip(prev, front, last); prev
  }

  /** `filteredFaqs`: only the empty query is falsy, so a whitespace-only
      query filters like any other. Otherwise the hits, in list order, each
      as often as it occurs. */
  function FilterBySearch(faqs: seq<Faq>, query: string): (r: seq<Faq>)
    ensures query == "" ==> r == faqs
    ensures query != "" ==> forall f :: f in r <==> f in faqs && Hit(f, query)
    ensures IsSubseq(r, faqs)
    ensures query != "" ==> forall f :: multiset(r)[f] == if Hit(f, query) then multiset(faqs)[f] else 0
  {
    if query == "" then SubseqRefl(faqs); faqs else FilterHits(faqs, query)
  }

  /** `getFaqsForSection`: the section's FAQs in list order, each as often
      as it occurs. */
  function SectionFaqs(faqs: seq<Faq>, sectionId: Id): (r: seq<Faq>)
    ensures forall f :: f in r <==> f in faqs && f.sectionId == sectionId
    ensures IsSubseq(r, faqs)
    ensures forall f :: multiset(r)[f] == if f.sectionId == sectionId then multiset(faqs)[f] else 0
  {
    if |faqs| == 0 then []
    else
      var front, last := faqs[..|faqs| - 1], faqs[|faqs| - 1];
      assert faqs == front + [last];
      var prev := SectionFaqs(front, sectionId);
      if last.sectionId == sectionId then SubseqTake(prev, front, last); prev + [last]
      else SubseqSkip(prev, front, last); prev
  }

  /** The two filters' contracts pin their results: any order-preserving
      sub-sequence that keeps every matching FAQ as often as it occurs is
      the one they return. */
  lemma FiltersDetermined(faqs: seq<Faq>, query: string, sectionId: Id, r: seq<Faq>)
    requires IsSubseq(r, faqs)
    ensures (forall f :: multiset(r)[f] == if Hit(f, query) then multiset(faqs)[f] else 0)
      ==> r == FilterHits(faqs, query)
    ensures (forall f :: multiset(r)[f] == if f.sectionId == sectionId then multiset(faqs)[f] else 0)
      ==> r == SectionFaqs(faqs, sectionId)
  {
    if forall f :: multiset(r)[f] == if Hit(f, query) then multiset(faqs)[f] else 0 {
      FilterUnique(r, FilterHits(faqs, query), faqs, (f: Faq) => Hit(f, query));
    }
    if forall f :: multiset(r)[f] == if f.sectionId == sectionId then multiset(faqs)[f] else 0 {
      FilterUnique(r, SectionFaqs(faqs, sectionId), faqs, (f: Faq) => f.sectionId == sectionId);
    }
  }

  // ---------------------------------------------------------------------
  // Edit handlers

  /** The four fields the page compares with the base record. */
  predicate SameContent(a: Faq, b: Faq) {
    a.sectionId == b.sectionId && a.question == b.question && a.answer == b.answer && a.notes == b.notes
  }

  function FieldsOf(f: Faq): Fields {
    Fields(f.question, f.answer, f.notes)
  }

  /** `handleCreateFaq`: a new draft under a fresh id, stamped `now`. */
  function CreateFaq(s: Session, id: Id, sectionId: Id, data: Fields, now: Stamp): (r: Session)
    ensures r == s.(drafts := r.drafts)
    ensures Lookup(r.drafts, id) == Some(Faq(id, sectionId, data.question, data.answer, data.notes, Some(now), Some(now)))
    ensures forall other | other != id :: Lookup(r.drafts, other) == Lookup(s.drafts, other)
  {
    s.(drafts := Put(s.drafts, Faq(id, sectionId, data.question, data.answer, data.notes, Some(now), Some(now))))
  }

  /** The record an edit starts from: the draft, else the base entry. */
  function Current(s: Session, id: Id): Option<Faq> {
    if Lookup(s.drafts, id).Some? then Lookup(s.drafts, id) else Lookup(s.base, id)
  }

  /** `handleUpdateFaq`: writes the edited fields into the draft, or drops
      the draft when the result matches the base entry again. */
  function UpdateFaq(s: Session, id: Id, data: Fields, now: Stamp): (r: Session)
    ensures r == s.(drafts := r.drafts)
    ensures Current(s, id).None? ==> r == s
    ensures forall other | other != id :: Lookup(r.drafts, other) == Lookup(s.drafts, other)
    ensures Current(s, id).Some? ==>
      (Lookup(r.drafts, id).None? <==>
        Lookup(s.base, id).Some? && Current(s, id).value.sectionId == Lookup(s.base, id).value.sectionId
        && FieldsOf(Lookup(s.base, id).value) == data)
    ensures Lookup(r.drafts, id).Some? ==>
      var d := Lookup(r.drafts, id).value;
      Current(s, id).Some? && FieldsOf(d) == data && d.sectionId == Current(s, id).value.sectionId
      && d.createdAt == Current(s, id).value.createdAt && d.updatedAt == Some(now)
  {
    var base := Lookup(s.base, id);
    match Current(s, id)
    case None => s
    case Some(current) =>
      var next := current.(question := data.question, answer := data.answer, notes := data.notes, updatedAt := Some(now));
      if base.Some? && SameContent(next, base.value) then s.(drafts := Remove(s.drafts, id))
      else s.(drafts := Put(s.drafts, next))
  }

  /** `handleDeleteFaq` after the confirmation dialog answered `confirmed`:
      an unsaved FAQ loses its draft; a saved one also gets a deletion mark. */
  function DeleteFaq(s: Session, id: Id, confirmed: bool): (r: Session)
    ensures !confirmed ==> r == s
    ensures confirmed ==> Lookup(r.drafts, id).None?
    ensures forall other | other != id :: Lookup(r.drafts, other) == Lookup(s.drafts, other)
    ensures confirmed && Lookup(s.base, id).None? ==> r == s.(drafts := r.drafts)
    ensures confirmed && Lookup(s.base, id).Some? ==>
      r == s.(drafts := r.drafts, deleted := r.deleted) && (forall x :: x in r.deleted <==> x in s.deleted || x == id)
    ensures Distinct(s.deleted) ==> Distinct(r.deleted)
  {
    if !confirmed then s
    else if Lookup(s.base, id).None? then s.(drafts := Remove(s.drafts, id))
    else s.(drafts := Remove(s.drafts, id), deleted := AddTo(s.deleted, id))
  }

  /** `handleDeleteSection`: the server deletes the section, the page reloads
      its base list. Drafts and deletion marks are left as they are. */
  function DeleteSection(s: Session, confirmed: bool, refreshed: seq<Faq>): (r: Session)
    ensures r.drafts == s.drafts && r.deleted == s.deleted
    ensures confirmed ==> r.base == refreshed
    ensures !confirmed ==> r == s
  {
    if confirmed then s.(base := refreshed) else s
  }

  // ---------------------------------------------------------------------
  // The pending batch (page.tsx `pendingFaqBatch`)

  datatype Tally = Tally(upserts: seq<Upsert>, created: nat, updated: nat, incomplete: seq<Id>)

  function ToUpsert(d: Faq): Upsert {
    Upsert(d.id, d.sectionId, d.question, d.answer, d.notes)
  }

  /** A draft that belongs in the batch: not marked deleted, and either new
      or different from its base entry. */
  predicate IsPending(d: Faq, base: seq<Faq>, deleted: seq<Id>) {
    d.id !in deleted && (Lookup(base, d.id).None? || !SameContent(d, Lookup(base, d.id).value))
  }

  predicate Incomplete(u: Upsert) {
    IsBlank(u.question) || IsBlank(u.answer)
  }

  /** How many of `us` have no base entry. */
  function CountNew(us: seq<Upsert>, base: seq<Faq>): nat {
    if |us| == 0 then 0
    else CountNew(us[..|us| - 1], base) + (if Lookup(base, us[|us| - 1].id).None? then 1 else 0)
  }

  /** The drafts the batch sends, in draft-record order, each as often as
      it occurs in the record. */
  function PendingDrafts(drafts: seq<Faq>, base: seq<Faq>, deleted: seq<Id>): (r: seq<Faq>)
    ensures IsSubseq(r, drafts)
    ensures forall d :: multiset(r)[d] == if IsPending(d, base, deleted) then multiset(drafts)[d] else 0
  {
    if |drafts| == 0 then []
    else
      var front, last := drafts[..|drafts| - 1], drafts[|drafts| - 1];
      assert drafts == front + [last];
      var prev := PendingDrafts(front, base, deleted);
      if IsPending(last, base, deleted) then SubseqTake(prev, front, last); prev + [last]
      else SubseqSkip(prev, front, last); prev
  }

  lemma {:induction false} PendingDraftsUnique(drafts: seq<Faq>, base: seq<Faq>, deleted: seq<Id>)
    requires UniqueIds(drafts)
    ensures UniqueIds(PendingDrafts(drafts, base, deleted))
  {
    if |drafts| > 0 {
      var front, last := drafts[..|drafts| - 1], drafts[|drafts| - 1];
      UniqueFront(drafts);
      PendingDraftsUnique(front, base, deleted);
      if IsPending(last, base, deleted) {
        assert forall f | f in PendingDrafts(front, base, deleted) :: f in multiset(front);
        UniqueSnoc(PendingDrafts(front, base, deleted), last);
      }
    }
  }

  /** The upserts with a blank question or answer, in batch order, each as
      often as it occurs in the batch. */
  function IncompleteUpserts(us: seq<Upsert>): (r: seq<Upsert>)
    ensures IsSubseq(r, us)
    ensures forall u :: multiset(r)[u] == if Incomplete(u) then multiset(us)[u] else 0
  {
    if |us| == 0 then []
    else
      var front, last := us[..|us| - 1], us[|us| - 1];
      assert us == front + [last];
      var prev := IncompleteUpserts(front);
      if Incomplete(last) then SubseqTake(prev, front, last); prev + [last]
      else SubseqSkip(prev, front, last); prev
  }

  /** The loop over the draft record, in insertion order. */
  function TallyLoop(drafts: seq<Faq>, base: seq<Faq>, deleted: seq<Id>): Tally {
    if |drafts| == 0 then Tally([], 0, 0, [])
    else
      var d := drafts[|drafts| - 1];
      var t := TallyLoop(drafts[..|drafts| - 1], base, deleted);
      if !IsPending(d, base, deleted) then t
      else
        var u := ToUpsert(d);
        var isNew := Lookup(base, d.id).None?;
        Tally(
          t.upserts + [u],
          t.created + (if isNew then 1 else 0),
          t.updated + (if isNew then 0 else 1),
          t.incomplete + (if Incomplete(u) then [d.id] else []))
  }

  /** What one more pending draft adds to the tally. */
  lemma TallyLoopSnoc(drafts: seq<Faq>, base: seq<Faq>, deleted: seq<Id>)
    requires |drafts| > 0
    ensures var d := drafts[|drafts| - 1];
      var t := TallyLoop(drafts[..|drafts| - 1], base, deleted);
      var u := ToUpsert(d);
      TallyLoop(drafts, base, deleted).upserts == t.upserts + (if IsPending(d, base, deleted) then [u] else [])
      && TallyLoop(drafts, base, deleted).incomplete
         == t.incomplete + (if IsPending(d, base, deleted) && Incomplete(u) then [d.id] else [])
  {
  }

  lemma {:induction false} TallyLoopCounts(drafts: seq<Faq>, base: seq<Faq>, deleted: seq<Id>)
    ensures var t := TallyLoop(drafts, base, deleted);
      t.created + t.updated == |t.upserts| && t.created == CountNew(t.upserts, base)
  {
    if |drafts| > 0 {
      var d := drafts[|drafts| - 1];
      var t := TallyLoop(drafts[..|drafts| - 1], base, deleted);
      TallyLoopCounts(drafts[..|drafts| - 1], base, deleted);
      if IsPending(d, base, deleted) {
        var ups := t.upserts + [ToUpsert(d)];
        assert ups[..|ups| - 1] == t.upserts;
      }
    }
  }

  lemma {:induction false} TallyLoopFromPending(drafts: seq<Faq>, base: seq<Faq>, deleted: seq<Id>)
    ensures forall u | u in TallyLoop(drafts, base, deleted).upserts ::
      exists d :: d in drafts && IsPending(d, base, deleted) && u == ToUpsert(d)
  {
    if |drafts| > 0 {
      var d := drafts[|drafts| - 1];
      var front := drafts[..|drafts| - 1];
      var t := TallyLoop(front, base, deleted);
      TallyLoopFromPending(front, base, deleted);
      TallyLoopSnoc(drafts, base, deleted);
      forall u | u in TallyLoop(drafts, base, deleted).upserts
        ensures exists e :: e in drafts && IsPending(e, base, deleted) && u == ToUpsert(e)
      {
        if u in t.upserts {
          var e :| e in front && IsPending(e, base, deleted) && u == ToUpsert(e);
          assert e in drafts;
        } else {
          assert d in drafts && IsPending(d, base, deleted) && u == ToUpsert(d);
        }
      }
    }
  }

  lemma {:induction false} TallyLoopCovers(drafts: seq<Faq>, base: seq<Faq>, deleted: seq<Id>)
    ensures forall d | d in drafts && IsPending(d, base, deleted) :: ToUpsert(d) in TallyLoop(drafts, base, deleted).upserts
  {
    if |drafts| > 0 {
      var front := drafts[..|drafts| - 1];
      TallyLoopCovers(front, base, deleted);
      TallyLoopSnoc(drafts, base, deleted);
      forall d | d in drafts && IsPending(d, base, deleted)
        ensures ToUpsert(d) in TallyLoop(drafts, base, deleted).upserts
      {
        if d != drafts[|drafts| - 1] {
          assert drafts == front + [drafts[|drafts| - 1]];
          assert d in front;
        }
      }
    }
  }

  lemma {:induction false} TallyLoopIncomplete(drafts: seq<Faq>, base: seq<Faq>, deleted: seq<Id>)
    ensures var t := TallyLoop(drafts, base, deleted);
      forall id :: id in t.incomplete <==> exists u :: u in t.upserts && u.id == id && Incomplete(u)
  {
    if |drafts| > 0 {
      var d := drafts[|drafts| - 1];
      var front := drafts[..|drafts| - 1];
      var t := TallyLoop(front, base, deleted);
      var r := TallyLoop(drafts, base, deleted);
      TallyLoopIncomplete(front, base, deleted);
      TallyLoopSnoc(drafts, base, deleted);
      forall id ensures id in r.incomplete <==> exists u :: u in r.upserts && u.id == id && Incomplete(u) {
        if id in r.incomplete && id !in t.incomplete {
          assert ToUpsert(d) in r.upserts;
        }
        if u :| u in r.upserts && u.id == id && Incomplete(u) {
          if u !in t.upserts {
            assert u == ToUpsert(d);
          }
        }
      }
    }
  }

  /** The loop sends one upsert per pending draft, in record order. */
  lemma {:induction false} TallyLoopFollowsDrafts(drafts: seq<Faq>, base: seq<Faq>, deleted: seq<Id>)
    ensures var t := TallyLoop(drafts, base, deleted);
      var p := PendingDrafts(drafts, base, deleted);
      |t.upserts| == |p| && forall i | 0 <= i < |p| :: t.upserts[i] == ToUpsert(p[i])
  {
    if |drafts| > 0 {
      TallyLoopFollowsDrafts(drafts[..|drafts| - 1], base, deleted);
      TallyLoopSnoc(drafts, base, deleted);
    }
  }

  /** The loop flags one id per incomplete upsert, in batch order. */
  lemma {:induction false} TallyLoopFlagsIncomplete(drafts: seq<Faq>, base: seq<Faq>, deleted: seq<Id>)
    ensures var t := TallyLoop(drafts, base, deleted);
      var bad := IncompleteUpserts(t.upserts);
      |t.incomplete| == |bad| && forall i | 0 <= i < |bad| :: t.incomplete[i] == bad[i].id
  {
    if |drafts| > 0 {
      var d := drafts[|drafts| - 1];
      var t := TallyLoop(drafts[..|drafts| - 1], base, deleted);
      TallyLoopFlagsIncomplete(drafts[..|drafts| - 1], base, deleted);
      TallyLoopSnoc(drafts, base, deleted);
      if IsPending(d, base, deleted) {
        var ups := t.upserts + [ToUpsert(d)];
        assert ups[..|ups| - 1] == t.upserts;
      }
    }
  }

  /** The tally of the draft record: one upsert per pending draft, in
      record order, and with unique draft ids no id is sent twice, so the
      created and updated counters add up to the number of pending drafts. */
  function TallyDrafts(drafts: seq<Faq>, base: seq<Faq>, deleted: seq<Id>): (t: Tally)
    ensures |t.upserts| == |PendingDrafts(drafts, base, deleted)|
    ensures forall i | 0 <= i < |t.upserts| :: t.upserts[i] == ToUpsert(PendingDrafts(drafts, base, deleted)[i])
    ensures UniqueIds(drafts) ==> forall i, j | 0 <= i < j < |t.upserts| :: t.upserts[i].id != t.upserts[j].id
    ensures t.created + t.updated == |t.upserts|
    ensures t.created == CountNew(t.upserts, base)
    ensures forall u | u in t.upserts :: exists d :: d in drafts && IsPending(d, base, deleted) && u == ToUpsert(d)
    ensures forall d | d in drafts && IsPending(d, base, deleted) :: ToUpsert(d) in t.upserts
    ensures forall id :: id in t.incomplete <==> exists u :: u in t.upserts && u.id == id && Incomplete(u)
    ensures |t.incomplete| == |IncompleteUpserts(t.upserts)|
    ensures forall i | 0 <= i < |t.incomplete| :: t.incomplete[i] == IncompleteUpserts(t.upserts)[i].id
  {
    TallyLoopFlagsIncomplete(drafts, base, deleted);
    TallyLoopCounts(drafts, base, deleted);
    TallyLoopFromPending(drafts, base, deleted);
    TallyLoopCovers(drafts, base, deleted);
    TallyLoopIncomplete(drafts, base, deleted);
    TallyLoopFollowsDrafts(drafts, base, deleted);
    if UniqueIds(drafts) then PendingDraftsUnique(drafts, base, deleted); TallyLoop(drafts, base, deleted)
    else TallyLoop(drafts, base, deleted)
  }

  /** Each marked id with a base entry is kept as often as it is marked,
      and no other id is kept. */
  ghost predicate LiveCounts(r: seq<Id>, deleted: seq<Id>, base: seq<Faq>) {
    forall id :: multiset(r)[id] == if Lookup(base, id).Some? then multiset(deleted)[id] else 0
  }

  /** One more marked id keeps the counts. */
  lemma LiveCountsStep(prev: seq<Id>, front: seq<Id>, x: Id, base: seq<Faq>)
    requires LiveCounts(prev, front, base)
    ensures LiveCounts(if Lookup(base, x).Some? then prev + [x] else prev, front + [x], base)
  {
    assert multiset(front + [x]) == multiset(front) + multiset{x};
    assert multiset(prev + [x]) == multiset(prev) + multiset{x};
  }

  /** The counts decide membership. */
  lemma LiveCountsMembers(r: seq<Id>, deleted: seq<Id>, base: seq<Faq>)
    requires LiveCounts(r, deleted, base)
    ensures forall id :: id in r <==> id in deleted && Lookup(base, id).Some?
  {
    forall id ensures id in r <==> id in deleted && Lookup(base, id).Some? {
      assert id in r <==> id in multiset(r);
      assert id in deleted <==> id in multiset(deleted);
    }
  }

  /** The marked ids that still have a base entry, in marking order, each
      as often as it is marked. */
  function LiveDeletes(deleted: seq<Id>, base: seq<Faq>): (r: seq<Id>)
    ensures forall id :: id in r <==> id in deleted && Lookup(base, id).Some?
    ensures Distinct(deleted) ==> Distinct(r)
    ensures IsSubseq(r, deleted)
    ensures forall id :: multiset(r)[id] == if Lookup(base, id).Some? then multiset(deleted)[id] else 0
  {
    if |deleted| == 0 then []
    else
      var front, x := deleted[..|deleted| - 1], deleted[|deleted| - 1];
      var prev := LiveDeletes(front, base);
      assert deleted == front + [x];
      var r := if Lookup(base, x).Some? then prev + [x] else prev;
      assert LiveCounts(prev, front, base);
      LiveCountsStep(prev, front, x, base);
      LiveCountsMembers(r, deleted, base);
      assert Distinct(deleted) ==> Distinct(r) by {
        if Distinct(deleted) {
          DistinctFront(deleted);
          if Lookup(base, x).Some? { DistinctSnoc(prev, x); }
        }
      }
      if Lookup(base, x).Some? then SubseqTake(prev, front, x); r
      else SubseqSkip(prev, front, x); r
  }

  function PendingBatch(s: Session): Batch {
    var t := TallyDrafts(s.drafts, s.base, s.deleted);
    var deletes := LiveDeletes(s.deleted, s.base);
    Batch(t.upserts, deletes, t.created, t.updated, |deletes|, t.incomplete)
  }

  function HasPending(s: Session): bool {
    |PendingBatch(s).upserts| > 0 || |PendingBatch(s).deletes| > 0
  }

  function CanSave(s: Session): bool {
    HasPending(s) && |PendingBatch(s).incomplete| == 0
  }

  /** The batch is minimal and complete: it holds every changed, unmarked
      draft and nothing else, deletes exactly the marked base ids, and its
      counters add up. */
  lemma PendingBatchIsMinimal(s: Session)
    requires UniqueIds(s.drafts)
    ensures forall u | u in PendingBatch(s).upserts ::
      u.id !in s.deleted
      && (Lookup(s.base, u.id).None? || !SameContent(Lookup(s.drafts, u.id).GetOr(Lookup(s.base, u.id).value), Lookup(s.base, u.id).value))
    ensures forall d | d in s.drafts && IsPending(d, s.base, s.deleted) :: ToUpsert(d) in PendingBatch(s).upserts
    ensures forall id :: id in PendingBatch(s).deletes <==> id in s.deleted && Lookup(s.base, id).Some?
    ensures PendingBatch(s).created + PendingBatch(s).updated == |PendingBatch(s).upserts|
    ensures PendingBatch(s).deleted == |PendingBatch(s).deletes|
    ensures Distinct(s.deleted) ==> Distinct(PendingBatch(s).deletes)
  {
    forall u | u in PendingBatch(s).upserts
      ensures u.id !in s.deleted
      ensures Lookup(s.base, u.id).None? || !SameContent(Lookup(s.drafts, u.id).GetOr(Lookup(s.base, u.id).value), Lookup(s.base, u.id).value)
    {
      var d :| d in s.drafts && IsPending(d, s.base, s.deleted) && u == ToUpsert(d);
      LookupMember(s.drafts, d);
    }
  }

  /** `canSaveFaqChanges`: something is pending and no pending upsert has a
      blank question or answer. */
  lemma CanSaveIff(s: Session)
    ensures CanSave(s) <==>
      HasPending(s) && forall u | u in PendingBatch(s).upserts :: !IsBlank(u.question) && !IsBlank(u.answer)
  {
    var b := PendingBatch(s);
    if |b.incomplete| > 0 {
      assert b.incomplete[0] in b.incomplete;
    }
    forall u | u in b.upserts && Incomplete(u) ensures |b.incomplete| > 0 {
      assert u.id in b.incomplete;
    }
  }

  // ---------------------------------------------------------------------
  // Save and discard

  function TrimUpsert(u: Upsert): Upsert {
    u.(question := Trim(u.question), answer := Trim(u.answer), notes := Trim(u.notes))
  }

  function TrimAll(us: seq<Upsert>): (r: seq<Upsert>)
    ensures |r| == |us|
    ensures forall i | 0 <= i < |us| :: r[i] == TrimUpsert(us[i])
  {
    seq(|us|, i requires 0 <= i < |us| => TrimUpsert(us[i]))
  }

  /** Trimming rows whose question and answer are not blank leaves both
      non-empty and every field free of surrounding whitespace. */
  lemma TrimmedRowsComplete(us: seq<Upsert>)
    requires forall u | u in us :: !Incomplete(u)
    ensures forall u | u in TrimAll(us) ::
      |u.question| > 0 && |u.answer| > 0 && IsTrimmed(u.question) && IsTrimmed(u.answer) && IsTrimmed(u.notes)
  {
    var sent := TrimAll(us);
    forall u | u in sent
      ensures |u.question| > 0 && |u.answer| > 0 && IsTrimmed(u.question) && IsTrimmed(u.answer) && IsTrimmed(u.notes)
    {
      var i :| 0 <= i < |sent| && sent[i] == u;
      assert us[i] in us;
    }
  }

  /** The synchronous part of `handleSaveFaqChanges`: the guard, the
      in-flight flag and the request. Every row sent has a non-empty
      question and answer and no surrounding whitespace. */
  function BeginSave(s: Session): (r: (Session, Option<Request>))
    ensures s.saving || !CanSave(s) ==> r == (s, None)
    ensures !s.saving && CanSave(s) ==> r.0 == s.(saving := true) && r.1.Some?
    ensures r.1.Some? ==>
      && r.1.value.deletes == PendingBatch(s).deletes
      && |r.1.value.upserts| == |PendingBatch(s).upserts|
      && (forall i | 0 <= i < |r.1.value.upserts| ::
            var sent := r.1.value.upserts[i];
            var pending := PendingBatch(s).upserts[i];
            && sent.id == pending.id && sent.sectionId == pending.sectionId
            && sent.question == Trim(pending.question) && sent.answer == Trim(pending.answer)
            && sent.notes == Trim(pending.notes))
      && (forall u | u in r.1.value.upserts ::
            |u.question| > 0 && |u.answer| > 0 && IsTrimmed(u.question) && IsTrimmed(u.answer) && IsTrimmed(u.notes))
  {
    if s.saving || !CanSave(s) then (s, None)
    else
      CanSaveIff(s);
      var b := PendingBatch(s);
      var sent := TrimAll(b.upserts);
      TrimmedRowsComplete(b.upserts);
      (s.(saving := true), Some(Request(sent, b.deletes)))
  }

  /** The rest of `handleSaveFaqChanges` once the batch call settles:
      drafts and marks are cleared only when the call returned; after a
      failure they are untouched. The flag is always released. */
  function FinishSave(s: Session, outcome: SaveOutcome): (r: Session)
    ensures !r.saving
    ensures outcome.BatchFailed? ==> r == s.(saving := false)
    ensures !outcome.BatchFailed? ==> r.drafts == [] && r.deleted == [] && r.resetSignal == s.resetSignal + 1
    ensures outcome.BatchApplied? ==> r.base == outcome.refreshed
    ensures outcome.BatchAppliedRefreshFailed? ==> r.base == s.base
  {
    match outcome
    case BatchFailed => s.(saving := false)
    case BatchApplied(refreshed) =>
      s.(base := refreshed, drafts := [], deleted := [], resetSignal := s.resetSignal + 1, saving := false)
    case BatchAppliedRefreshFailed =>
      s.(drafts := [], deleted := [], resetSignal := s.resetSignal + 1, saving := false)
  }

  /** `handleDiscardFaqChanges` after the confirmation dialog answered
      `confirmed`. */
  function Discard(s: Session, confirmed: bool): (r: Session)
    ensures !HasPending(s) || !confirmed ==> r == s
    ensures HasPending(s) && confirmed ==>
      r == s.(drafts := [], deleted := [], resetSignal := s.resetSignal + 1)
  {
    if !HasPending(s) then s
    else if !confirmed then s
    else s.(drafts := [], deleted := [], resetSignal := s.resetSignal + 1)
  }

  // ---------------------------------------------------------------------
  // Properties across handlers

  /** Every draft of a base FAQ stays in the base entry's section (the page
      offers no way to move a FAQ). */
  predicate SectionsAgree(s: Session) {
    forall d | d in s.drafts && Lookup(s.base, d.id).Some? :: d.sectionId == Lookup(s.base, d.id).value.sectionId
  }

  lemma UpdateKeepsSectionsAgree(s: Session, id: Id, data: Fields, now: Stamp)
    requires SectionsAgree(s)
    ensures SectionsAgree(UpdateFaq(s, id, data, now))
  {
    if Lookup(s.drafts, id).Some? {
      assert Lookup(s.drafts, id).value in s.drafts;
    }
  }

  /** The ids in the base list, the draft record and the deletion set stay
      unique under every handler (the refreshed list from the server has
      unique ids). */
  predicate WellKeyed(s: Session) {
    UniqueIds(s.base) && UniqueIds(s.drafts) && Distinct(s.deleted)
  }

  lemma HandlersKeepWellKeyed(s: Session, id: Id, sectionId: Id, data: Fields, now: Stamp,
                              confirmed: bool, refreshed: seq<Faq>)
    requires WellKeyed(s) && UniqueIds(refreshed)
    ensures WellKeyed(CreateFaq(s, id, sectionId, data, now))
    ensures WellKeyed(UpdateFaq(s, id, data, now))
    ensures WellKeyed(DeleteFaq(s, id, confirmed))
    ensures WellKeyed(DeleteSection(s, confirmed, refreshed))
    ensures WellKeyed(FinishSave(s, BatchApplied(refreshed)))
    ensures WellKeyed(FinishSave(s, BatchFailed))
    ensures WellKeyed(FinishSave(s, BatchAppliedRefreshFailed))
    ensures WellKeyed(Discard(s, confirmed))
  {
    CreateKeepsWellKeyed(s, id, sectionId, data, now);
    UpdateKeepsWellKeyed(s, id, data, now);
    DeleteKeepsWellKeyed(s, id, confirmed);
  }

  lemma CreateKeepsWellKeyed(s: Session, id: Id, sectionId: Id, data: Fields, now: Stamp)
    requires WellKeyed(s)
    ensures WellKeyed(CreateFaq(s, id, sectionId, data, now))
  {
    PutUnique(s.drafts, Faq(id, sectionId, data.question, data.answer, data.notes, Some(now), Some(now)));
  }

  lemma UpdateKeepsWellKeyed(s: Session, id: Id, data: Fields, now: Stamp)
    requires WellKeyed(s)
    ensures WellKeyed(UpdateFaq(s, id, data, now))
  {
    RemoveUnique(s.drafts, id);
    if Current(s, id).Some? {
      var c := Current(s, id).value;
      PutUnique(s.drafts, c.(question := data.question, answer := data.answer, notes := data.notes, updatedAt := Some(now)));
    }
  }

  lemma DeleteKeepsWellKeyed(s: Session, id: Id, confirmed: bool)
    requires WellKeyed(s)
    ensures WellKeyed(DeleteFaq(s, id, confirmed))
  {
    RemoveUnique(s.drafts, id);
  }

  /** Editing a FAQ back to its saved fields leaves no draft behind. */
  lemma DraftCollapses(s: Session, id: Id, now: Stamp)
    requires SectionsAgree(s) && Lookup(s.base, id).Some?
    ensures Lookup(UpdateFaq(s, id, FieldsOf(Lookup(s.base, id).value), now).drafts, id).None?
  {
    if Lookup(s.drafts, id).Some? {
      assert Lookup(s.drafts, id).value in s.drafts;
    }
  }

  /** An edit undone by a second edit leaves no trace: when the FAQ had no
      draft before, the session is exactly as it was. */
  lemma {:induction false} EditUndone(s: Session, id: Id, data: Fields, t1: Stamp, t2: Stamp)
    requires SectionsAgree(s)
    requires Lookup(s.base, id).Some? && Lookup(s.drafts, id).None?
    ensures UpdateFaq(UpdateFaq(s, id, data, t1), id, FieldsOf(Lookup(s.base, id).value), t2) == s
  {
    var s1 := UpdateFaq(s, id, data, t1);
    UpdateKeepsSectionsAgree(s, id, data, t1);
    var s2 := UpdateFaq(s1, id, FieldsOf(Lookup(s.base, id).value), t2);
    DraftCollapses(s1, id, t2);
    assert Lookup(s2.drafts, id).None?;
    if Lookup(s1.drafts, id).Some? {
      RemovePut(s.drafts, Lookup(s1.drafts, id).value);
    }
  }

  /** Removing a freshly added key restores the record. */
  lemma RemovePut(s: seq<Faq>, f: Faq)
    requires Lookup(s, f.id).None?
    ensures Remove(Put(s, f), f.id) == s
  {
    var p := Put(s, f);
    assert p[..|p| - 1] == s && p[|p| - 1] == f;
  }

  /** Deleting a saved FAQ hides it from the view and queues its id for
      deletion; deleting an unsaved one just drops it. */
  lemma DeleteHidesFaq(s: Session, id: Id)
    requires UniqueIds(s.drafts)
    ensures Visible(DeleteFaq(s, id, true), id).None?
    ensures Lookup(s.base, id).Some? ==> id in PendingBatch(DeleteFaq(s, id, true)).deletes
    ensures Lookup(s.base, id).None? ==> DeleteFaq(s, id, true).deleted == s.deleted
  {
  }

  /** A fresh FAQ created in the session is visible and counted as a
      creation in the pending batch. */
  lemma CreateIsPending(s: Session, id: Id, sectionId: Id, data: Fields, now: Stamp)
    requires UniqueIds(s.drafts)
    requires Lookup(s.base, id).None? && id !in s.deleted
    ensures var r := CreateFaq(s, id, sectionId, data, now);
      && Visible(r, id) == Some(Faq(id, sectionId, data.question, data.answer, data.notes, Some(now), Some(now)))
      && Upsert(id, sectionId, data.question, data.answer, data.notes) in PendingBatch(r).upserts
  {
    var r := CreateFaq(s, id, sectionId, data, now);
    assert Lookup(r.drafts, id).value in r.drafts;
  }

  /** A failed save leaves the visible list and the pending batch as they
      were. */
  lemma FailedSaveKeepsWork(s: Session)
    ensures Effective(FinishSave(s, BatchFailed)) == Effective(s)
    ensures PendingBatch(FinishSave(s, BatchFailed)) == PendingBatch(s)
  {
  }

  /** After a confirmed discard the page shows the base list unchanged. */
  lemma DiscardShowsBase(s: Session)
    requires HasPending(s)
    ensures Effective(Discard(s, true)) == s.base
    ensures !HasPending(Discard(s, true))
  {
    var r := Discard(s, true);
    EffectiveWithoutRecords(r);
    NothingPendingWithoutRecords(r);
  }

  /** With no drafts and no marks the view is the base. */
  lemma EffectiveWithoutRecords(s: Session)
    requires s.drafts == [] && s.deleted == []
    ensures Effective(s) == s.base
  {
    ShownBaseWithoutDrafts(s.base);
    assert DraftOnly([], Seen(s.base, []), []) == [];
  }

  /** With no drafts and no marks there is nothing to save. */
  lemma NothingPendingWithoutRecords(s: Session)
    requires s.drafts == [] && s.deleted == []
    ensures !HasPending(s)
  {
    assert |PendingDrafts([], s.base, [])| == 0;
    assert |LiveDeletes([], s.base)| == 0;
  }

  lemma {:induction false} ShownBaseWithoutDrafts(base: seq<Faq>)
    ensures ShownBase(base, [], []) == base
  {
    if |base| > 0 {
      ShownBaseWithoutDrafts(base[..|base| - 1]);
      assert base == base[..|base| - 1] + [base[|base| - 1]];
    }
  }

  /** Deleting a section keeps a new FAQ drafted in it pending: its upsert
      is still sent on the next save. */
  lemma SectionDeleteKeepsDrafts(s: Session, refreshed: seq<Faq>, d: Faq)
    requires d in s.drafts && d.id !in s.deleted
    requires Lookup(refreshed, d.id).None?
    ensures ToUpsert(d) in PendingBatch(DeleteSection(s, true, refreshed)).upserts
  {
  }

  // ---------------------------------------------------------------------
  // Custom rules draft (page.tsx lines 347-378)

  datatype RulesSession = RulesSession(
    content: string,
    draft: Option<string>,
    resetSignal: nat,
    saving: bool)

  datatype RulesOutcome =
    | RulesFailed
    | RulesSaved(refreshed: string)
    | RulesSavedRefreshFailed

  /** The rules draft, if any, is not a copy of the saved content. */
  predicate RulesDraftMeaningful(r: RulesSession) {
    r.draft != Some(r.content)
  }

  /** Typing into the rules editor: the text becomes the draft, unless it
      equals the saved content, in which case there is no draft. */
  function UpdateRules(r: RulesSession, content: string): (r': RulesSession)
    ensures r' == r.(draft := r'.draft)
    ensures r'.draft.None? <==> content == r.content
    ensures r'.draft.Some? ==> r'.draft.value == content
    ensures RulesDraftMeaningful(r')
  {
    if content == r.content then r.(draft := None) else r.(draft := Some(content))
  }

  /** The synchronous part of `handleSaveCustomRules`. */
  function BeginSaveRules(r: RulesSession): (res: (RulesSession, Option<string>))
    ensures r.saving || r.draft.None? ==> res == (r, None)
    ensures !r.saving && r.draft.Some? ==> res == (r.(saving := true), r.draft)
    ensures res.1.Some? && RulesDraftMeaningful(r) ==> res.1.value != r.content
  {
    if r.saving || r.draft.None? then (r, None) else (r.(saving := true), r.draft)
  }

  /** The rest of `handleSaveCustomRules` once the call settles. */
  function FinishSaveRules(r: RulesSession, outcome: RulesOutcome): (r': RulesSession)
    ensures !r'.saving
    ensures outcome.RulesFailed? ==> r' == r.(saving := false)
    ensures !outcome.RulesFailed? ==> r'.draft.None? && r'.resetSignal == r.resetSignal + 1
    ensures outcome.RulesSaved? ==> r'.content == outcome.refreshed
    ensures RulesDraftMeaningful(r) ==> RulesDraftMeaningful(r')
  {
    match outcome
    case RulesFailed => r.(saving := false)
    case RulesSaved(refreshed) =>
      r.(content := refreshed, draft := None, resetSignal := r.resetSignal + 1, saving := false)
    case RulesSavedRefreshFailed =>
      r.(draft := None, resetSignal := r.resetSignal + 1, saving := false)
  }

  /** `handleDiscardCustomRules` after the confirmation dialog. */
  function DiscardRules(r: RulesSession, confirmed: bool): (r': RulesSession)
    ensures r.draft.None? || !confirmed ==> r' == r
    ensures r.draft.Some? && confirmed ==> r' == r.(draft := None, resetSignal := r.resetSignal + 1)
    ensures RulesDraftMeaningful(r) ==> RulesDraftMeaningful(r')
  {
    if r.draft.None? || !confirmed then r else r.(draft := None, resetSignal := r.resetSignal + 1)
  }

  /** One rules-tab handler: an edit, the start of a save, a save settling,
      or a discard. */
  datatype RulesEvent =
    | Edit(content: string)
    | BeginSave
    | SaveSettled(outcome: RulesOutcome)
    | Discard(confirmed: bool)

  function RulesStep(r: RulesSession, e: RulesEvent): RulesSession {
    match e
    case Edit(content) => UpdateRules(r, content)
    case BeginSave => BeginSaveRules(r).0
    case SaveSettled(outcome) => FinishSaveRules(r, outcome)
    case Discard(confirmed) => DiscardRules(r, confirmed)
  }

  function RulesRun(r: RulesSession, es: seq<RulesEvent>): RulesSession
    decreases |es|
  {
    if |es| == 0 then r else RulesRun(RulesStep(r, es[0]), es[1..])
  }

  /** Starting from a session whose draft is not a copy of the saved content,
      no sequence of rules handlers ever produces one. */
  lemma {:induction false} RulesRunKeepsMeaningful(r: RulesSession, es: seq<RulesEvent>)
    requires RulesDraftMeaningful(r)
    ensures RulesDraftMeaningful(RulesRun(r, es))
    decreases |es|
  {
    if |es| > 0 {
      RulesRunKeepsMeaningful(RulesStep(r, es[0]), es[1..]);
    }
  }
}

=== FILE: export.dfy ===
/**
  The export dialog (src/components/export-modal.tsx): which sections are
  exported, the per-group section counts, the selection toggles, applying a
  saved preset, and the Markdown serialiser.

  The serialiser is modelled twice: `GenerateMarkdown` appends strings in
  loops the way the dialog does, and `Document` describes the same output as
  a list of Markdown blocks; the method is proved to render exactly that
  list, and the properties of the export are stated on the blocks.
 */
module Export {
  import opened Outcomes
  import opened JsText
  import opened IdLists
  import opened FaqOrder
  import opened Subsequences

  datatype Variable = Variable(id: Id, key: string, value: string)
  datatype Section = Section(id: Id, name: string, phaseGroupId: Option<Id>)
  datatype Faq = Faq(id: Id, sectionId: Id, question: string, answer: string, notes: string, order: int)
  datatype Group = Group(id: Id, name: string)

  /** A saved export preset; `phaseGroupIds` may be missing from older ones. */
  datatype ConfigPayload = ConfigPayload(
    includeVariables: bool,
    includeCustomRules: bool,
    sectionIds: seq<Id>,
    phaseGroupIds: Option<seq<Id>>)
  datatype Preset = Preset(id: Id, name: string, config: ConfigPayload)

  /** The dialog's selection state. */
  datatype Selection = Selection(
    includeVariables: bool,
    includeCustomRules: bool,
    sections: set<Id>,
    groups: set<Id>,
    configId: Option<Id>,
    presetName: string)

  // ---------------------------------------------------------------------
  // Section selection
  // ---------------------------------------------------------------------

  /** The section's `phaseGroupId` is truthy (present and non-empty) and is `g`. */
  predicate InGroup(s: Section, g: Id) {
    s.phaseGroupId == Some(g) && g != ""
  }

  /** The section belongs to one of the selected groups. */
  predicate PulledIn(s: Section, groups: set<Id>) {
    s.phaseGroupId.Some? && InGroup(s, s.phaseGroupId.value) && s.phaseGroupId.value in groups
  }

  /** Some listed section with id `x` belongs to a selected group. */
  predicate AddedByGroups(sections: seq<Section>, groups: set<Id>, x: Id) {
    exists s | s in sections :: s.id == x && PulledIn(s, groups)
  }

  /** `effectiveSectionIds`: the selected sections together with every section
      of a selected group. */
  function EffectiveSectionIds(selected: set<Id>, groups: set<Id>, sections: seq<Section>): (r: set<Id>)
    ensures forall x :: x in r <==> x in selected || AddedByGroups(sections, groups, x)
  {
    if |sections| == 0 then selected
    else
      var front, last := sections[..|sections| - 1], sections[|sections| - 1];
      assert sections == front + [last];
      var ids := EffectiveSectionIds(selected, groups, front);
      if PulledIn(last, groups) then ids + {last.id} else ids
  }

  /** How many listed sections name `g` as their (truthy) group. */
  function MemberCount(sections: seq<Section>, g: Id): nat {
    if |sections| == 0 then 0
    else
      var front, last := sections[..|sections| - 1], sections[|sections| - 1];
      MemberCount(front, g) + (if InGroup(last, g) then 1 else 0)
  }

  function GroupIds(groups: seq<Group>): set<Id> {
    set g | g in groups :: g.id
  }

  /** `groupSectionCounts`: one entry per known group, holding the number of
      sections in it; sections naming an unknown group are not counted. */
  method GroupSectionCounts(groups: seq<Group>, sections: seq<Section>) returns (counts: map<Id, nat>)
    ensures counts.Keys == GroupIds(groups)
    ensures forall g | g in counts :: counts[g] == MemberCount(sections, g)
  {
    counts := map[];
    for i := 0 to |groups|
      invariant counts.Keys == GroupIds(groups[..i])
      invariant forall g | g in counts :: counts[g] == 0
    {
      assert groups[..i + 1] == groups[..i] + [groups[i]];
      counts := counts[groups[i].id := 0];
    }
    assert groups[..|groups|] == groups;
    for i := 0 to |sections|
      invariant counts.Keys == GroupIds(groups)
      invariant forall g | g in counts :: counts[g] == MemberCount(sections[..i], g)
    {
      var section := sections[i];
      assert sections[..i + 1][..i] == sections[..i];
      if section.phaseGroupId.None? || section.phaseGroupId.value == "" {
        continue;
      }
      var g := section.phaseGroupId.value;
      if g !in counts {
        continue;
      }
      counts := counts[g := counts[g] + 1];
    }
    assert sections[..|sections|] == sections;
  }

  /** `toggleSection` / `togglePhaseGroup`: flips the membership of `id` only. */
  function Toggle(selected: set<Id>, id: Id): (r: set<Id>)
    ensures id in r <==> id !in selected
    ensures forall x | x != id :: x in r <==> x in selected
  {
    if id in selected then selected - {id} else selected + {id}
  }

  /** Toggling twice restores the selection. */
  lemma ToggleTwice(selected: set<Id>, id: Id)
    ensures Toggle(Toggle(selected, id), id) == selected
  {
  }

  predicate HasSection(sections: seq<Section>, x: Id) {
    exists s | s in sections :: s.id == x
  }

  predicate HasGroup(groups: seq<Group>, x: Id) {
    exists g | g in groups :: g.id == x
  }

  function SectionIds(sections: seq<Section>): (r: seq<Id>)
    ensures forall x :: x in r <==> HasSection(sections, x)
  {
    if |sections| == 0 then []
    else
      var front, last := sections[..|sections| - 1], sections[|sections| - 1];
      assert sections == front + [last];
      SectionIds(front) + [last.id]
  }

  function GroupIdList(groups: seq<Group>): (r: seq<Id>)
    ensures forall x :: x in r <==> HasGroup(groups, x)
  {
    if |groups| == 0 then []
    else
      var front, last := groups[..|groups| - 1], groups[|groups| - 1];
      assert groups == front + [last];
      GroupIdList(front) + [last.id]
  }

  /** `applyConfig`: takes the preset's switches and, when asked to, its
      section and group ids restricted to those that still exist. */
  function ApplyConfig(sel: Selection, preset: Preset, sections: seq<Section>, groups: seq<Group>, updateSelection: bool): (r: Selection)
    ensures r.includeVariables == preset.config.includeVariables
    ensures r.includeCustomRules == preset.config.includeCustomRules
    ensures r.configId == Some(preset.id) && r.presetName == preset.name
    ensures !updateSelection ==> r.sections == sel.sections && r.groups == sel.groups
    ensures updateSelection ==> forall x :: x in r.sections <==> x in preset.config.sectionIds && HasSection(sections, x)
    ensures updateSelection ==> forall x :: x in r.groups <==> x in preset.config.phaseGroupIds.GetOr([]) && HasGroup(groups, x)
  {
    var chosen :=
      if updateSelection then
        var filtered := KeepIn(preset.config.sectionIds, SectionIds(sections));
        var groupIds := KeepIn(preset.config.phaseGroupIds.GetOr([]), GroupIdList(groups));
        (set x | x in filtered, set x | x in groupIds)
      else (sel.sections, sel.groups);
    Selection(preset.config.includeVariables, preset.config.includeCustomRules, chosen.0, chosen.1, Some(preset.id), preset.name)
  }

  /** After a preset is applied with its selection, every exported section
      is one that exists, whatever the preset lists. */
  lemma ApplyConfigExportsExisting(sel: Selection, preset: Preset, sections: seq<Section>, groups: seq<Group>)
    ensures var r := ApplyConfig(sel, preset, sections, groups, true);
            forall x | x in EffectiveSectionIds(r.sections, r.groups, sections) :: HasSection(sections, x)
  {
  }

  /** `selectedCount`: the size of the effective section set. */
  function SelectedCount(sel: Selection, sections: seq<Section>): nat {
    |EffectiveSectionIds(sel.sections, sel.groups, sections)|
  }

  /** The export button is enabled: variables or rules are included, or at
      least one section is selected directly or through its group. */
  predicate CanExport(sel: Selection, sections: seq<Section>) {
    sel.includeVariables || sel.includeCustomRules || SelectedCount(sel, sections) > 0
  }

  /** Export is enabled exactly when a switch is on, a section id is
      selected, or some section belongs to a selected group.  This is a
      condition on the selection, not on the output: an enabled export can
      still write only the title (a switch whose content is empty, or a
      selected id whose section no longer exists). */
  lemma CanExportIff(sel: Selection, sections: seq<Section>)
    ensures CanExport(sel, sections) <==>
      sel.includeVariables || sel.includeCustomRules || |sel.sections| > 0
      || exists s | s in sections :: PulledIn(s, sel.groups)
  {
    var eff := EffectiveSectionIds(sel.sections, sel.groups, sections);
    if |sel.sections| > 0 {
      var x :| x in sel.sections;
      assert x in eff;
    }
    if s :| s in sections && PulledIn(s, sel.groups) {
      assert AddedByGroups(sections, sel.groups, s.id);
      assert s.id in eff;
    }
    if |eff| > 0 {
      var x :| x in eff;
    }
  }

  // ---------------------------------------------------------------------
  // The Markdown document
  // ---------------------------------------------------------------------

  /** One piece of the exported Markdown, as the serialiser appends it. */
  datatype Block =
    | Title
    | RulesHeading
    | RulesText(text: string)
    | VariablesHeading
    | TableHead
    | VariableRow(key: string, value: string)
    | TableEnd
    | SectionHeading(name: string)
    | NoFaqs
    | Question(text: string)
    | Answer(text: string)
    | Note(text: string)

  function Render(b: Block): string {
    match b
    case Title => "# Knowledge Base\n\n"
    case RulesHeading => "## System Prompt Logic\n\n"
    case RulesText(t) => t + "\n\n"
    case VariablesHeading => "## Variables\n\n"
    case TableHead => "| Key | Value |\n|-----|-------|\n"
    case VariableRow(k, v) => "| `" + k + "` | " + v + " |\n"
    case TableEnd => "\n"
    case SectionHeading(n) => "# " + n + "\n\n"
    case NoFaqs => "*No FAQs in this section.*\n\n"
    case Question(q) => "## " + q + "\n\n"
    case Answer(a) => a + "\n\n"
    case Note(n) => "*Note: " + n + "*\n\n"
  }

  /** The pieces rendered one after another. */
  function Concat<B>(bs: seq<B>, f: B -> string): string {
    if |bs| == 0 then ""
    else Concat(bs[..|bs| - 1], f) + f(bs[|bs| - 1])
  }

  lemma ConcatSnoc<B>(bs: seq<B>, b: B, f: B -> string)
    ensures Concat(bs + [b], f) == Concat(bs, f) + f(b)
  {
    assert (bs + [b])[..|bs|] == bs;
  }

  lemma ConcatOne<B>(b: B, f: B -> string)
    ensures Concat([b], f) == f(b)
  {
    assert [b][..0] == [];
    assert "" + f(b) == f(b);
  }

  lemma {:induction false} ConcatAppend<B>(a: seq<B>, b: seq<B>, f: B -> string)
    ensures Concat(a + b, f) == Concat(a, f) + Concat(b, f)
    decreases |b|
  {
    if |b| > 0 {
      var front, last := b[..|b| - 1], b[|b| - 1];
      assert a + b == (a + front) + [last];
      ConcatSnoc(a + front, last, f);
      ConcatAppend(a, front, f);
    } else {
      assert a + b == a;
    }
  }

  /** The Markdown text of a list of blocks. */
  function RenderAll(bs: seq<Block>): string {
    Concat(bs, Render)
  }

  /** `customRules` is truthy. */
  predicate RulesTruthy(rules: Option<string>) {
    rules.Some? && rules.value != ""
  }

  function RulesBlocks(enabled: bool, rules: Option<string>): seq<Block> {
    if enabled && RulesTruthy(rules) then [RulesHeading, RulesText(rules.value)] else []
  }

  function VariableRows(vars: seq<Variable>): seq<Block> {
    if |vars| == 0 then []
    else
      var front, last := vars[..|vars| - 1], vars[|vars| - 1];
      VariableRows(front) + [VariableRow(last.key, last.value)]
  }

  function VariableBlocks(enabled: bool, vars: seq<Variable>): seq<Block> {
    if enabled && |vars| > 0 then [VariablesHeading, TableHead] + VariableRows(vars) + [TableEnd] else []
  }

  function FaqBlocks(f: Faq): seq<Block> {
    [Question(f.question), Answer(f.answer)] + (if IsBlank(f.notes) then [] else [Note(f.notes)])
  }

  function FaqsBlocks(fs: seq<Faq>): seq<Block> {
    if |fs| == 0 then []
    else
      var front, last := fs[..|fs| - 1], fs[|fs| - 1];
      FaqsBlocks(front) + FaqBlocks(last)
  }

  function FaqKey(f: Faq): SortKey {
    SortKey(f.order, f.id)
  }

  /** The FAQs filed under `sectionId`, in list order, each as often as it
      occurs in `faqs`. */
  function InSection(faqs: seq<Faq>, sectionId: Id): (r: seq<Faq>)
    ensures forall f :: f in r <==> f in faqs && f.sectionId == sectionId
    ensures IsSubseq(r, faqs)
    ensures forall f :: multiset(r)[f] == if f.sectionId == sectionId then multiset(faqs)[f] else 0
  {
    if |faqs| == 0 then []
    else
      var front, last := faqs[..|faqs| - 1], faqs[|faqs| - 1];
      assert faqs == front + [last];
      var prev := InSection(front, sectionId);
      if last.sectionId == sectionId then SubseqTake(prev, front, last); prev + [last]
      else SubseqSkip(prev, front, last); prev
  }

  /** A section's FAQs as exported: exactly its FAQs, ordered by `order` and
      then by id. */
  function SectionFaqs(faqs: seq<Faq>, sectionId: Id): (r: seq<Faq>)
    ensures multiset(r) == multiset(InSection(faqs, sectionId))
    ensures forall f :: f in r <==> f in faqs && f.sectionId == sectionId
    ensures SortedBy(r, FaqKey)
  {
    var r := SortBy(InSection(faqs, sectionId), FaqKey);
    assert forall f :: f in r <==> f in multiset(r);
    r
  }

  function SectionBlocks(s: Section, faqs: seq<Faq>): seq<Block> {
    var fs := SectionFaqs(faqs, s.id);
    [SectionHeading(s.name)] + (if |fs| == 0 then [NoFaqs] else FaqsBlocks(fs))
  }

  function SectionsBlocks(sections: seq<Section>, eff: set<Id>, faqs: seq<Faq>): seq<Block> {
    if |sections| == 0 then []
    else
      var front, last := sections[..|sections| - 1], sections[|sections| - 1];
      SectionsBlocks(front, eff, faqs) + (if last.id in eff then SectionBlocks(last, faqs) else [])
  }

  /** The exported document, block by block. */
  function Document(sel: Selection, rules: Option<string>, vars: seq<Variable>, sections: seq<Section>, faqs: seq<Faq>): seq<Block> {
    var eff := EffectiveSectionIds(sel.sections, sel.groups, sections);
    Prelude(sel, rules, vars) + SectionsBlocks(sections, eff, faqs)
  }

  /** The variables table, one row per variable in input order. */
  method EmitVariables(vars: seq<Variable>) returns (md: string)
    requires |vars| > 0
    ensures md == RenderAll(VariableBlocks(true, vars))
  {
    md := "## Variables\n\n";
    ghost var done := [VariablesHeading];
    ConcatOne(VariablesHeading, Render);
    ConcatSnoc(done, TableHead, Render);
    md, done := md + ("| Key | Value |\n" + "|-----|-------|\n"), done + [TableHead];
    for i := 0 to |vars|
      invariant md == RenderAll(done)
      invariant done == [VariablesHeading, TableHead] + VariableRows(vars[..i])
    {
      var v := vars[i];
      assert vars[..i + 1][..i] == vars[..i];
      ConcatSnoc(done, VariableRow(v.key, v.value), Render);
      md, done := md + ("| `" + v.key + "` | " + v.value + " |\n"), done + [VariableRow(v.key, v.value)];
    }
    assert vars[..|vars|] == vars;
    ConcatSnoc(done, TableEnd, Render);
    md := md + "\n";
  }

  /** One FAQ: its question, its answer and, when present, its note. */
  method EmitFaq(faq: Faq) returns (md: string)
    ensures md == RenderAll(FaqBlocks(faq))
  {
    var q, a := Question(faq.question), Answer(faq.answer);
    ConcatOne(q, Render);
    ConcatSnoc([q], a, Render);
    assert [q] + [a] == [q, a];
    md := "## " + faq.question + "\n\n" + (faq.answer + "\n\n");
    assert md == Concat([q, a], Render);
    if !IsBlank(faq.notes) {
      ConcatSnoc([q, a], Note(faq.notes), Render);
      assert [q, a] + [Note(faq.notes)] == FaqBlocks(faq);
      md := md + ("*Note: " + faq.notes + "*\n\n");
    } else {
      assert [q, a] == FaqBlocks(faq);
    }
  }

  /** The blocks of a non-empty list of FAQs, one FAQ after another. */
  method EmitFaqs(fs: seq<Faq>) returns (md: string)
    ensures md == RenderAll(FaqsBlocks(fs))
  {
    md := "";
    for j := 0 to |fs|
      invariant md == RenderAll(FaqsBlocks(fs[..j]))
    {
      assert fs[..j + 1][..j] == fs[..j];
      var piece := EmitFaq(fs[j]);
      ConcatAppend(FaqsBlocks(fs[..j]), FaqBlocks(fs[j]), Render);
      md := md + piece;
    }
    assert fs[..|fs|] == fs;
  }

  /** A section heading followed by the given FAQs, or by the placeholder
      line when there are none. */
  method EmitHeaded(name: string, fs: seq<Faq>) returns (md: string)
    ensures md == RenderAll([SectionHeading(name)] + (if |fs| == 0 then [NoFaqs] else FaqsBlocks(fs)))
  {
    md := "# " + name + "\n\n";
    ConcatOne(SectionHeading(name), Render);
    if |fs| == 0 {
      ConcatSnoc([SectionHeading(name)], NoFaqs, Render);
      md := md + "*No FAQs in this section.*\n\n";
    } else {
      var body := EmitFaqs(fs);
      ConcatAppend([SectionHeading(name)], FaqsBlocks(fs), Render);
      md := md + body;
    }
  }

  /** One exported section: its heading, then its sorted FAQs or the
      placeholder line. */
  method EmitSection(section: Section, faqs: seq<Faq>) returns (md: string)
    ensures md == RenderAll(SectionBlocks(section, faqs))
  {
    md := EmitHeaded(section.name, SectionFaqs(faqs, section.id));
  }

  /** The title, the rules block and the variables table, each only when
      switched on and non-empty. */
  function Prelude(sel: Selection, rules: Option<string>, vars: seq<Variable>): seq<Block> {
    [Title] + RulesBlocks(sel.includeCustomRules, rules) + VariableBlocks(sel.includeVariables, vars)
  }

  method EmitPrelude(sel: Selection, rules: Option<string>, vars: seq<Variable>) returns (md: string)
    ensures md == RenderAll(Prelude(sel, rules, vars))
  {
    md := "# Knowledge Base\n\n";
    ghost var done := [Title];
    ConcatOne(Title, Render);
    if sel.includeCustomRules && RulesTruthy(rules) {
      ConcatSnoc(done, RulesHeading, Render);
      md, done := md + "## System Prompt Logic\n\n", done + [RulesHeading];
      ConcatSnoc(done, RulesText(rules.value), Render);
      md, done := md + (rules.value + "\n\n"), done + [RulesText(rules.value)];
    }
    assert done == [Title] + RulesBlocks(sel.includeCustomRules, rules);
    if sel.includeVariables && |vars| > 0 {
      var table := EmitVariables(vars);
      ConcatAppend(done, VariableBlocks(true, vars), Render);
      md, done := md + table, done + VariableBlocks(true, vars);
    }
    assert done == Prelude(sel, rules, vars);
  }

  /** The exported sections, in the order they are listed. */
  method EmitSections(sections: seq<Section>, eff: set<Id>, faqs: seq<Faq>) returns (md: string)
    ensures md == RenderAll(SectionsBlocks(sections, eff, faqs))
  {
    md := "";
    for i := 0 to |sections|
      invariant md == RenderAll(SectionsBlocks(sections[..i], eff, faqs))
    {
      var section := sections[i];
      assert sections[..i + 1][..i] == sections[..i];
      if section.id !in eff {
        assert SectionsBlocks(sections[..i], eff, faqs) + [] == SectionsBlocks(sections[..i], eff, faqs);
        continue;
      }
      var piece := EmitSection(section, faqs);
      ConcatAppend(SectionsBlocks(sections[..i], eff, faqs), SectionBlocks(section, faqs), Render);
      md := md + piece;
    }
    assert sections[..|sections|] == sections;
  }

  /** `generateMarkdown`: the string the dialog downloads. */
  method GenerateMarkdown(sel: Selection, rules: Option<string>, vars: seq<Variable>, sections: seq<Section>, faqs: seq<Faq>)
    returns (md: string)
    ensures md == RenderAll(Document(sel, rules, vars, sections, faqs))
  {
    var eff := EffectiveSectionIds(sel.sections, sel.groups, sections);
    var head := EmitPrelude(sel, rules, vars);
    var body := EmitSections(sections, eff, faqs);
    ConcatAppend(Prelude(sel, rules, vars), SectionsBlocks(sections, eff, faqs), Render);
    md := head + body;
  }

  // ---------------------------------------------------------------------
  // What the document contains
  // ---------------------------------------------------------------------

  /** The blocks of `bs` that `keep` selects, in order. */
  function Pick(bs: seq<Block>, keep: Block -> bool): (r: seq<Block>)
    ensures forall b :: b in r <==> b in bs && keep(b)
  {
    if |bs| == 0 then []
    else
      var front, last := bs[..|bs| - 1], bs[|bs| - 1];
      assert bs == front + [last];
      Pick(front, keep) + (if keep(last) then [last] else [])
  }

  lemma {:induction false} PickAppend(a: seq<Block>, b: seq<Block>, keep: Block -> bool)
    ensures Pick(a + b, keep) == Pick(a, keep) + Pick(b, keep)
    decreases |b|
  {
    if |b| > 0 {
      var front, last := b[..|b| - 1], b[|b| - 1];
      assert a + b == (a + front) + [last];
      assert (a + b)[..|a + b| - 1] == a + front;
      PickAppend(a, front, keep);
    } else {
      assert a + b == a;
    }
  }

  lemma PickNone(bs: seq<Block>, keep: Block -> bool)
    requires forall b | b in bs :: !keep(b)
    ensures Pick(bs, keep) == []
  {
  }

  lemma {:induction false} PickAll(bs: seq<Block>, keep: Block -> bool)
    requires forall b | b in bs :: keep(b)
    ensures Pick(bs, keep) == bs
  {
    if |bs| > 0 {
      var front, last := bs[..|bs| - 1], bs[|bs| - 1];
      assert bs == front + [last];
      PickAll(front, keep);
    }
  }

  predicate IsRow(b: Block) { b.VariableRow? }
  predicate IsHeading(b: Block) { b.SectionHeading? }

  /** What the FAQ part of a section is made of. */
  predicate FaqPart(b: Block) {
    b.Question? || b.Answer? || (b.Note? && !IsBlank(b.text))
  }

  /** What the section part of the document is made of. */
  predicate SectionPart(b: Block) {
    b.SectionHeading? || b.NoFaqs? || FaqPart(b)
  }

  lemma FaqBlocksParts(f: Faq)
    ensures forall b | b in FaqBlocks(f) :: FaqPart(b)
  {
    var qa: seq<Block> := [Question(f.question), Answer(f.answer)];
    var note: seq<Block> := if IsBlank(f.notes) then [] else [Note(f.notes)];
    assert FaqBlocks(f) == qa + note;
    forall b | b in FaqBlocks(f) ensures FaqPart(b) {
      if b !in qa {
        assert b in note;
      }
    }
  }

  lemma {:induction false} FaqsBlocksParts(fs: seq<Faq>)
    ensures forall b | b in FaqsBlocks(fs) :: FaqPart(b)
  {
    if |fs| > 0 {
      var front := fs[..|fs| - 1];
      var head, tail := FaqsBlocks(front), FaqBlocks(fs[|fs| - 1]);
      assert FaqsBlocks(fs) == head + tail;
      FaqsBlocksParts(front);
      FaqBlocksParts(fs[|fs| - 1]);
      forall b | b in head + tail ensures FaqPart(b) {
        if b !in head {
          assert b in tail;
        }
      }
    }
  }

  lemma SectionBlocksParts(s: Section, faqs: seq<Faq>)
    ensures forall b | b in SectionBlocks(s, faqs) :: SectionPart(b)
  {
    FaqsBlocksParts(SectionFaqs(faqs, s.id));
  }

  lemma {:induction false} SectionsBlocksParts(sections: seq<Section>, eff: set<Id>, faqs: seq<Faq>)
    ensures forall b | b in SectionsBlocks(sections, eff, faqs) :: SectionPart(b)
  {
    if |sections| > 0 {
      SectionsBlocksParts(sections[..|sections| - 1], eff, faqs);
      SectionBlocksParts(sections[|sections| - 1], faqs);
    }
  }

  lemma {:induction false} VariableRowsShape(vars: seq<Variable>)
    ensures |VariableRows(vars)| == |vars|
    ensures forall i | 0 <= i < |vars| :: VariableRows(vars)[i] == VariableRow(vars[i].key, vars[i].value)
  {
    if |vars| > 0 {
      var front := vars[..|vars| - 1];
      VariableRowsShape(front);
      forall i | 0 <= i < |vars| - 1 ensures vars[i] == front[i] {}
    }
  }

  /** What the prelude is made of. */
  predicate PreludePart(b: Block) {
    b.Title? || b.RulesHeading? || b.RulesText? || b.VariablesHeading? || b.TableHead? || b.VariableRow? || b.TableEnd?
  }

  /** The prelude holds no section material. */
  lemma PreludeParts(sel: Selection, rules: Option<string>, vars: seq<Variable>)
    ensures forall b | b in Prelude(sel, rules, vars) :: PreludePart(b)
  {
    VariableRowsShape(vars);
  }

  /** The exported document begins with the title line. */
  lemma DocumentStartsWithTitle(sel: Selection, rules: Option<string>, vars: seq<Variable>, sections: seq<Section>, faqs: seq<Faq>)
    ensures "# Knowledge Base\n\n" <= RenderAll(Document(sel, rules, vars, sections, faqs))
  {
    var doc := Document(sel, rules, vars, sections, faqs);
    assert doc == [Title] + doc[1..];
    ConcatAppend([Title], doc[1..], Render);
    ConcatOne(Title, Render);
  }

  /** The custom-rules block is written exactly when it is switched on and
      the rules are non-empty, and then it holds the rules. */
  lemma RulesShownIff(sel: Selection, rules: Option<string>, vars: seq<Variable>, sections: seq<Section>, faqs: seq<Faq>)
    ensures RulesHeading in Document(sel, rules, vars, sections, faqs) <==> sel.includeCustomRules && RulesTruthy(rules)
    ensures sel.includeCustomRules && RulesTruthy(rules) ==> RulesText(rules.value) in Document(sel, rules, vars, sections, faqs)
  {
    var eff := EffectiveSectionIds(sel.sections, sel.groups, sections);
    assert Document(sel, rules, vars, sections, faqs) == Prelude(sel, rules, vars) + SectionsBlocks(sections, eff, faqs);
    SectionsBlocksParts(sections, eff, faqs);
    VariableRowsShape(vars);
  }

  lemma PreludeRows(sel: Selection, rules: Option<string>, vars: seq<Variable>)
    ensures Pick(Prelude(sel, rules, vars), IsRow) == (if sel.includeVariables && |vars| > 0 then VariableRows(vars) else [])
  {
    var head := [Title] + RulesBlocks(sel.includeCustomRules, rules);
    var varsPart := VariableBlocks(sel.includeVariables, vars);
    assert Prelude(sel, rules, vars) == head + varsPart;
    PickAppend(head, varsPart, IsRow);
    HeadHasNoRows(sel.includeCustomRules, rules);
    assert Pick(head + varsPart, IsRow) == Pick(varsPart, IsRow);
    if sel.includeVariables && |vars| > 0 {
      TableRows(vars);
    } else {
      PickNone(varsPart, IsRow);
    }
  }

  lemma HeadHasNoRows(enabled: bool, rules: Option<string>)
    ensures Pick([Title] + RulesBlocks(enabled, rules), IsRow) == []
  {
    var head := [Title] + RulesBlocks(enabled, rules);
    if enabled && RulesTruthy(rules) {
      assert head == [Title, RulesHeading, RulesText(rules.value)];
    } else {
      assert head == [Title];
    }
    PickNone(head, IsRow);
  }

  lemma TableRows(vars: seq<Variable>)
    requires |vars| > 0
    ensures Pick(VariableBlocks(true, vars), IsRow) == VariableRows(vars)
  {
    var rows := VariableRows(vars);
    VariableRowsShape(vars);
    assert VariableBlocks(true, vars) == ([VariablesHeading, TableHead] + rows) + [TableEnd];
    PickAppend([VariablesHeading, TableHead] + rows, [TableEnd], IsRow);
    PickAppend([VariablesHeading, TableHead], rows, IsRow);
    PickNone([VariablesHeading, TableHead], IsRow);
    PickNone([TableEnd], IsRow);
    PickAll(rows, IsRow);
    assert [] + rows + [] == rows;
  }

  /** The variables table has exactly one row per variable, in input order,
      and no rows at all when it is switched off. */
  lemma VariablesShown(sel: Selection, rules: Option<string>, vars: seq<Variable>, sections: seq<Section>, faqs: seq<Faq>)
    ensures var rows := Pick(Document(sel, rules, vars, sections, faqs), IsRow);
      && |rows| == (if sel.includeVariables then |vars| else 0)
      && forall i | 0 <= i < |rows| :: rows[i] == VariableRow(vars[i].key, vars[i].value)
  {
    var eff := EffectiveSectionIds(sel.sections, sel.groups, sections);
    var secPart := SectionsBlocks(sections, eff, faqs);
    assert Document(sel, rules, vars, sections, faqs) == Prelude(sel, rules, vars) + secPart;
    PickAppend(Prelude(sel, rules, vars), secPart, IsRow);
    SectionsBlocksParts(sections, eff, faqs);
    PickNone(secPart, IsRow);
    PreludeRows(sel, rules, vars);
    VariableRowsShape(vars);
  }

  /** The sections that are exported, in the order they are listed. */
  function Exported(sections: seq<Section>, eff: set<Id>): (r: seq<Section>)
    ensures forall s :: s in r <==> s in sections && s.id in eff
  {
    if |sections| == 0 then []
    else
      var front, last := sections[..|sections| - 1], sections[|sections| - 1];
      assert sections == front + [last];
      Exported(front, eff) + (if last.id in eff then [last] else [])
  }

  lemma SectionHeadings(s: Section, faqs: seq<Faq>)
    ensures Pick(SectionBlocks(s, faqs), IsHeading) == [SectionHeading(s.name)]
  {
    var fs := SectionFaqs(faqs, s.id);
    var rest: seq<Block> := if |fs| == 0 then [NoFaqs] else FaqsBlocks(fs);
    assert SectionBlocks(s, faqs) == [SectionHeading(s.name)] + rest;
    FaqsBlocksParts(fs);
    forall b | b in rest ensures !IsHeading(b) {
      if |fs| > 0 {
        assert FaqPart(b);
      }
    }
    PickAppend([SectionHeading(s.name)], rest, IsHeading);
    PickNone(rest, IsHeading);
    PickAll([SectionHeading(s.name)], IsHeading);
  }

  lemma {:induction false} SectionsHeadings(sections: seq<Section>, eff: set<Id>, faqs: seq<Faq>)
    ensures var hs := Pick(SectionsBlocks(sections, eff, faqs), IsHeading);
      var ex := Exported(sections, eff);
      |hs| == |ex| && forall i | 0 <= i < |hs| :: hs[i] == SectionHeading(ex[i].name)
  {
    if |sections| > 0 {
      var front, last := sections[..|sections| - 1], sections[|sections| - 1];
      SectionsHeadings(front, eff, faqs);
      var tail := if last.id in eff then SectionBlocks(last, faqs) else [];
      assert SectionsBlocks(sections, eff, faqs) == SectionsBlocks(front, eff, faqs) + tail;
      assert Exported(sections, eff) == Exported(front, eff) + (if last.id in eff then [last] else []);
      PickAppend(SectionsBlocks(front, eff, faqs), tail, IsHeading);
      TailHeadings(last, eff, faqs);
      HeadingsAppend(Pick(SectionsBlocks(front, eff, faqs), IsHeading), Exported(front, eff),
        Pick(tail, IsHeading), if last.id in eff then [last] else []);
    }
  }

  /** `hs` are the headings of the sections `ex`, one each, in order. */
  predicate HeadingsOf(hs: seq<Block>, ex: seq<Section>) {
    |hs| == |ex| && forall i | 0 <= i < |hs| :: hs[i] == SectionHeading(ex[i].name)
  }

  /** Heading lists of consecutive runs of sections concatenate. */
  lemma HeadingsAppend(hs0: seq<Block>, ex0: seq<Section>, hs1: seq<Block>, ex1: seq<Section>)
    requires HeadingsOf(hs0, ex0) && HeadingsOf(hs1, ex1)
    ensures HeadingsOf(hs0 + hs1, ex0 + ex1)
  {
    forall i | |hs0| <= i < |hs0| + |hs1|
      ensures (hs0 + hs1)[i] == SectionHeading((ex0 + ex1)[i].name)
    {
      assert (hs0 + hs1)[i] == hs1[i - |hs0|] && (ex0 + ex1)[i] == ex1[i - |ex0|];
    }
  }

  /** The blocks one section adds carry its heading when it is exported,
      and none otherwise. */
  lemma TailHeadings(last: Section, eff: set<Id>, faqs: seq<Faq>)
    ensures Pick(if last.id in eff then SectionBlocks(last, faqs) else [], IsHeading)
      == if last.id in eff then [SectionHeading(last.name)] else []
  {
    if last.id in eff {
      SectionHeadings(last, faqs);
    }
  }

  /** The section headings of the document are the exported sections' names,
      in the order the sections are listed. */
  lemma SectionsShown(sel: Selection, rules: Option<string>, vars: seq<Variable>, sections: seq<Section>, faqs: seq<Faq>)
    ensures var eff := EffectiveSectionIds(sel.sections, sel.groups, sections);
      var hs := Pick(Document(sel, rules, vars, sections, faqs), IsHeading);
      var ex := Exported(sections, eff);
      |hs| == |ex| && forall i | 0 <= i < |hs| :: hs[i] == SectionHeading(ex[i].name)
  {
    var eff := EffectiveSectionIds(sel.sections, sel.groups, sections);
    var pre, body := Prelude(sel, rules, vars), SectionsBlocks(sections, eff, faqs);
    assert Document(sel, rules, vars, sections, faqs) == pre + body;
    PickAppend(pre, body, IsHeading);
    PreludeParts(sel, rules, vars);
    PickNone(pre, IsHeading);
    assert Pick(pre + body, IsHeading) == Pick(body, IsHeading);
    SectionsHeadings(sections, eff, faqs);
  }

  /** A section gets the placeholder line exactly when none of the FAQs is in it. */
  lemma PlaceholderIff(s: Section, faqs: seq<Faq>)
    ensures NoFaqs in SectionBlocks(s, faqs) <==> forall f | f in faqs :: f.sectionId != s.id
  {
    PlaceholderIffEmpty(s, faqs);
    SectionFaqsEmpty(faqs, s.id);
  }

  /** The placeholder stands exactly where the section lists no FAQ. */
  lemma PlaceholderIffEmpty(s: Section, faqs: seq<Faq>)
    ensures NoFaqs in SectionBlocks(s, faqs) <==> |SectionFaqs(faqs, s.id)| == 0
  {
    var fs := SectionFaqs(faqs, s.id);
    FaqsBlocksParts(fs);
    assert SectionBlocks(s, faqs) == [SectionHeading(s.name)] + (if |fs| == 0 then [NoFaqs] else FaqsBlocks(fs));
  }

  /** A section lists no FAQ exactly when none is filed under it. */
  lemma SectionFaqsEmpty(faqs: seq<Faq>, sectionId: Id)
    ensures |SectionFaqs(faqs, sectionId)| == 0 <==> forall f | f in faqs :: f.sectionId != sectionId
  {
    var fs := SectionFaqs(faqs, sectionId);
    if |fs| > 0 {
      assert fs[0] in fs;
    }
  }

  lemma {:induction false} FaqInFaqsBlocks(fs: seq<Faq>, f: Faq)
    requires f in fs
    ensures forall b | b in FaqBlocks(f) :: b in FaqsBlocks(fs)
  {
    var front, last := fs[..|fs| - 1], fs[|fs| - 1];
    assert fs == front + [last];
    if f != last {
      FaqInFaqsBlocks(front, f);
    }
  }

  lemma {:induction false} SectionInSectionsBlocks(sections: seq<Section>, eff: set<Id>, faqs: seq<Faq>, s: Section)
    requires s in sections && s.id in eff
    ensures forall b | b in SectionBlocks(s, faqs) :: b in SectionsBlocks(sections, eff, faqs)
  {
    var front, last := sections[..|sections| - 1], sections[|sections| - 1];
    assert sections == front + [last];
    if s != last {
      SectionInSectionsBlocks(front, eff, faqs, s);
    }
  }

  /** No blank note is ever written. */
  lemma NoBlankNotes(sel: Selection, rules: Option<string>, vars: seq<Variable>, sections: seq<Section>, faqs: seq<Faq>)
    ensures forall b | b in Document(sel, rules, vars, sections, faqs) && b.Note? :: !IsBlank(b.text)
  {
    var eff := EffectiveSectionIds(sel.sections, sel.groups, sections);
    var pre, body := Prelude(sel, rules, vars), SectionsBlocks(sections, eff, faqs);
    assert Document(sel, rules, vars, sections, faqs) == pre + body;
    PreludeParts(sel, rules, vars);
    SectionsBlocksParts(sections, eff, faqs);
    forall b: Block | b in pre + body && b.Note? ensures !IsBlank(b.text) {
      if b !in pre {
        assert b in body;
      }
    }
  }

  /** Every FAQ of an exported section is written with its question and
      answer, and with its note when the note is not blank. */
  lemma FaqsShown(sel: Selection, rules: Option<string>, vars: seq<Variable>, sections: seq<Section>, faqs: seq<Faq>, s: Section, f: Faq)
    requires s in sections && s.id in EffectiveSectionIds(sel.sections, sel.groups, sections)
    requires f in faqs && f.sectionId == s.id
    ensures Question(f.question) in Document(sel, rules, vars, sections, faqs)
    ensures Answer(f.answer) in Document(sel, rules, vars, sections, faqs)
    ensures !IsBlank(f.notes) ==> Note(f.notes) in Document(sel, rules, vars, sections, faqs)
  {
    var eff := EffectiveSectionIds(sel.sections, sel.groups, sections);
    var body := SectionsBlocks(sections, eff, faqs);
    FaqInBody(sections, eff, faqs, s, f);
    assert Document(sel, rules, vars, sections, faqs) == Prelude(sel, rules, vars) + body;
  }

  lemma FaqInBody(sections: seq<Section>, eff: set<Id>, faqs: seq<Faq>, s: Section, f: Faq)
    requires s in sections && s.id in eff && f in faqs && f.sectionId == s.id
    ensures Question(f.question) in SectionsBlocks(sections, eff, faqs)
    ensures Answer(f.answer) in SectionsBlocks(sections, eff, faqs)
    ensures !IsBlank(f.notes) ==> Note(f.notes) in SectionsBlocks(sections, eff, faqs)
  {
    var own := FaqBlocks(f);
    assert own[0] == Question(f.question) && own[1] == Answer(f.answer);
    FaqBlockInBody(sections, eff, faqs, s, f, own[0]);
    FaqBlockInBody(sections, eff, faqs, s, f, own[1]);
    if !IsBlank(f.notes) {
      assert own[2] == Note(f.notes);
      FaqBlockInBody(sections, eff, faqs, s, f, own[2]);
    }
  }

  lemma FaqBlockInBody(sections: seq<Section>, eff: set<Id>, faqs: seq<Faq>, s: Section, f: Faq, b: Block)
    requires s in sections && s.id in eff && f in faqs && f.sectionId == s.id
    requires b in FaqBlocks(f)
    ensures b in SectionsBlocks(sections, eff, faqs)
  {
    FaqInSectionBlocks(s, faqs, f);
    assert b in SectionBlocks(s, faqs);
    SectionInSectionsBlocks(sections, eff, faqs, s);
  }

  lemma FaqInSectionBlocks(s: Section, faqs: seq<Faq>, f: Faq)
    requires f in faqs && f.sectionId == s.id
    ensures forall b | b in FaqBlocks(f) :: b in SectionBlocks(s, faqs)
  {
    var fs := SectionFaqs(faqs, s.id);
    assert f in fs;
    FaqInFaqsBlocks(fs, f);
  }
}

=== FILE: faq_order.dfy ===
/**
  The FAQ ordering shared by the export serialiser and the legacy editor:
  `[...list].sort((a, b) => (a.order - b.order) || a.id.localeCompare(b.id))`.
  `localeCompare` is approximated by lexicographic order on code units, and
  the sort is the stable insertion sort that `Array.prototype.sort` is
  required to agree with.
 */
module FaqOrder {

  /** What the comparator looks at: the numeric order, then the id. */
  datatype SortKey = SortKey(order: int, id: string)

  /** Lexicographic order on strings: a prefix comes first. */
  predicate StrLe(a: string, b: string)
    decreases |a|
  {
    |a| == 0 || (|b| > 0 && (a[0] < b[0] || (a[0] == b[0] && StrLe(a[1..], b[1..]))))
  }

  lemma {:induction false} StrLeTotal(a: string, b: string)
    ensures StrLe(a, b) || StrLe(b, a)
    decreases |a|
  {
    if |a| > 0 && |b| > 0 && a[0] == b[0] {
      StrLeTotal(a[1..], b[1..]);
    }
  }

  lemma {:induction false} StrLeTrans(a: string, b: string, c: string)
    requires StrLe(a, b) && StrLe(b, c)
    ensures StrLe(a, c)
    decreases |a|
  {
    if |a| > 0 && a[0] == b[0] && b[0] == c[0] {
      StrLeTrans(a[1..], b[1..], c[1..]);
    }
  }

  /** The comparator's "not after": smaller order first, ties broken by id. */
  predicate KeyLe(x: SortKey, y: SortKey) {
    x.order < y.order || (x.order == y.order && StrLe(x.id, y.id))
  }

  lemma KeyLeTotal(x: SortKey, y: SortKey)
    ensures KeyLe(x, y) || KeyLe(y, x)
  {
    StrLeTotal(x.id, y.id);
  }

  lemma KeyLeTrans(x: SortKey, y: SortKey, z: SortKey)
    requires KeyLe(x, y) && KeyLe(y, z)
    ensures KeyLe(x, z)
  {
    if x.order == y.order == z.order {
      StrLeTrans(x.id, y.id, z.id);
    }
  }

  /** Every earlier element is not after every later one. */
  predicate SortedBy<T>(s: seq<T>, key: T -> SortKey) {
    forall i, j | 0 <= i < j < |s| :: KeyLe(key(s[i]), key(s[j]))
  }

  /** Places `x` after every element that is not after it (stable). */
  function Insert<T>(s: seq<T>, x: T, key: T -> SortKey): (r: seq<T>)
    requires SortedBy(s, key)
    ensures SortedBy(r, key)
    ensures multiset(r) == multiset(s) + multiset{x}
    ensures |r| == |s| + 1
  {
    if |s| == 0 then [x]
    else
      var front, last := s[..|s| - 1], s[|s| - 1];
      assert s == front + [last];
      if KeyLe(key(last), key(x)) then
        InsertAfterLast(s, x, key);
        s + [x]
      else
        var r := Insert(front, x, key) + [last];
        InsertBeforeLast(s, x, key, Insert(front, x, key));
        r
  }

  lemma InsertAfterLast<T>(s: seq<T>, x: T, key: T -> SortKey)
    requires SortedBy(s, key) && |s| > 0 && KeyLe(key(s[|s| - 1]), key(x))
    ensures SortedBy(s + [x], key)
  {
    var r := s + [x];
    forall i, j | 0 <= i < j < |r| ensures KeyLe(key(r[i]), key(r[j])) {
      if j == |s| && i < |s| - 1 {
        KeyLeTrans(key(s[i]), key(s[|s| - 1]), key(x));
      }
    }
  }

  lemma InsertBeforeLast<T>(s: seq<T>, x: T, key: T -> SortKey, mid: seq<T>)
    requires SortedBy(s, key) && |s| > 0 && !KeyLe(key(s[|s| - 1]), key(x))
    requires SortedBy(mid, key)
    requires multiset(mid) == multiset(s[..|s| - 1]) + multiset{x}
    ensures SortedBy(mid + [s[|s| - 1]], key)
  {
    var last := s[|s| - 1];
    KeyLeTotal(key(last), key(x));
    var r := mid + [last];
    forall i, j | 0 <= i < j < |r| ensures KeyLe(key(r[i]), key(r[j])) {
      if j == |mid| {
        var y := mid[i];
        assert y in multiset(mid);
        if y == x {
        } else {
          assert y in multiset(s[..|s| - 1]);
          var k :| 0 <= k < |s| - 1 && s[..|s| - 1][k] == y;
          assert s[k] == y;
        }
      }
    }
  }

  /** `[...s].sort(comparator)`: sorted by the key and a permutation of `s`. */
  function SortBy<T>(s: seq<T>, key: T -> SortKey): (r: seq<T>)
    ensures SortedBy(r, key)
    ensures multiset(r) == multiset(s)
    ensures |r| == |s|
  {
    if |s| == 0 then []
    else
      var front, last := s[..|s| - 1], s[|s| - 1];
      assert s == front + [last];
      Insert(SortBy(front, key), last, key)
  }

  /** Equal keys never move past each other, so a list already in order is
      returned as it is. */
  lemma {:induction false} SortBySorted<T>(s: seq<T>, key: T -> SortKey)
    requires SortedBy(s, key)
    ensures SortBy(s, key) == s
  {
    if |s| > 0 {
      var front, last := s[..|s| - 1], s[|s| - 1];
      assert s == front + [last];
      assert SortedBy(front, key);
      SortBySorted(front, key);
    }
  }
}

=== FILE: faq_table.dfy ===
/**
  The FAQ table's local editing state (src/components/faq-table.tsx): the
  cell being edited, the unsaved new rows with their error flags, and the
  rules that turn a new row into a created FAQ or discard it.
 */
module FaqTable {
  import opened Outcomes
  import opened JsText
  import opened IdLists
  import opened Subsequences

  datatype Field = QuestionField | AnswerField | NotesField

  /** The three editable texts of a FAQ. */
  datatype FaqForm = FaqForm(question: string, answer: string, notes: string)

  datatype Faq = Faq(id: Id, sectionId: Id, question: string, answer: string, notes: string)

  /** A row typed into the table that has no FAQ yet. */
  datatype NewRow = NewRow(tempId: Id, form: FaqForm)

  datatype EditingCell = EditingCell(id: Id, field: Field)

  /** The component's state; the error record becomes the set of flagged
      row ids. */
  datatype TableState = TableState(
    editing: Option<EditingCell>,
    editValue: string,
    newRows: seq<NewRow>,
    autoFocus: Option<Id>,
    errors: set<Id>)

  /** The state the component mounts with. */
  const Initial := TableState(None, "", [], None, {})

  const EmptyForm := FaqForm("", "", "")

  function FieldOf(form: FaqForm, f: Field): string {
    match f
    case QuestionField => form.question
    case AnswerField => form.answer
    case NotesField => form.notes
  }

  function FormOf(faq: Faq): FaqForm {
    FaqForm(faq.question, faq.answer, faq.notes)
  }

  /** `form` with field `f` replaced by `value`. */
  function WithField(form: FaqForm, f: Field, value: string): (r: FaqForm)
    ensures FieldOf(r, f) == value
    ensures forall g: Field | g != f :: FieldOf(r, g) == FieldOf(form, g)
  {
    match f
    case QuestionField => form.(question := value)
    case AnswerField => form.(answer := value)
    case NotesField => form.(notes := value)
  }

  /** Writing back the value a field already has changes nothing. */
  lemma WithFieldSame(form: FaqForm, f: Field)
    ensures WithField(form, f, FieldOf(form, f)) == form
  {
    match f
    case QuestionField =>
    case AnswerField =>
    case NotesField =>
  }

  /** The reset effect: whatever the state, the table returns to how it
      mounted. */
  function Reset(st: TableState): (r: TableState)
    ensures r.editing.None? && r.editValue == "" && |r.newRows| == 0
    ensures r.autoFocus.None? && r.errors == {}
  {
    Initial
  }

  /** `startEdit`: the cell becomes the edited one, holding the field's text. */
  function StartEdit(st: TableState, faq: Faq, f: Field): (r: TableState)
    ensures r.editing == Some(EditingCell(faq.id, f))
    ensures r.editValue == FieldOf(FormOf(faq), f)
    ensures r.newRows == st.newRows && r.errors == st.errors && r.autoFocus == st.autoFocus
  {
    st.(editing := Some(EditingCell(faq.id, f)), editValue := FieldOf(FormOf(faq), f))
  }

  /** `finishEdit` and `cancelEdit`: no cell is edited any more. */
  function StopEdit(st: TableState): (r: TableState)
    ensures r.editing.None? && r.editValue == ""
    ensures r.newRows == st.newRows && r.errors == st.errors && r.autoFocus == st.autoFocus
  {
    st.(editing := None, editValue := "")
  }

  /** `handleEditChange`: the typed value is kept, and while a cell is edited
      the FAQ is sent to `onUpdate` with that cell's field replaced and the
      other two taken from the FAQ. */
  function HandleEditChange(st: TableState, faq: Faq, value: string): (r: (TableState, Option<(Id, FaqForm)>))
    ensures r.0 == st.(editValue := value)
    ensures st.editing.None? ==> r.1.None?
    ensures st.editing.Some? ==> r.1.Some? && r.1.value.0 == faq.id
    ensures st.editing.Some? ==>
              var f := st.editing.value.field;
              && FieldOf(r.1.value.1, f) == value
              && forall g: Field | g != f :: FieldOf(r.1.value.1, g) == FieldOf(FormOf(faq), g)
  {
    var update :=
      if st.editing.Some? then Some((faq.id, WithField(FormOf(faq), st.editing.value.field, value)))
      else None;
    (st.(editValue := value), update)
  }

  /** Typing the text the edited field already has sends the FAQ unchanged. */
  lemma EditChangeSameValue(st: TableState, faq: Faq)
    requires st.editing.Some?
    ensures HandleEditChange(st, faq, FieldOf(FormOf(faq), st.editing.value.field)).1 == Some((faq.id, FormOf(faq)))
  {
    WithFieldSame(FormOf(faq), st.editing.value.field);
  }

  /** The rows whose temporary id is not `tempId`, in order, each as often
      as it occurs in `rows`. */
  function WithoutRow(rows: seq<NewRow>, tempId: Id): (r: seq<NewRow>)
    ensures forall x :: x in r <==> x in rows && x.tempId != tempId
    ensures |r| <= |rows|
    ensures IsSubseq(r, rows)
    ensures forall x :: multiset(r)[x] == if x.tempId != tempId then multiset(rows)[x] else 0
  {
    if |rows| == 0 then []
    else
      var front, last := rows[..|rows| - 1], rows[|rows| - 1];
      assert rows == front + [last];
      var prev := WithoutRow(front, tempId);
      if last.tempId == tempId then SubseqSkip(prev, front, last); prev
      else SubseqTake(prev, front, last); prev + [last]
  }

  /** Rows without that id are kept as they are. */
  lemma {:induction false} WithoutAbsentRow(rows: seq<NewRow>, tempId: Id)
    requires forall x | x in rows :: x.tempId != tempId
    ensures WithoutRow(rows, tempId) == rows
  {
    if |rows| > 0 {
      var front, last := rows[..|rows| - 1], rows[|rows| - 1];
      assert rows == front + [last];
      WithoutAbsentRow(front, tempId);
    }
  }

  predicate HasRow(rows: seq<NewRow>, tempId: Id) {
    exists x | x in rows :: x.tempId == tempId
  }

  /** `addNewRow`: one empty row at the end, which takes the focus. */
  function AddNewRow(st: TableState, tempId: Id): (r: TableState)
    ensures r.newRows == st.newRows + [NewRow(tempId, EmptyForm)]
    ensures r.autoFocus == Some(tempId)
    ensures r.editing == st.editing && r.editValue == st.editValue && r.errors == st.errors
  {
    st.(newRows := st.newRows + [NewRow(tempId, EmptyForm)], autoFocus := Some(tempId))
  }

  /** `removeNewRow`: that row goes, its error flag is cleared, and the focus
      is dropped only when it pointed at that row. */
  function RemoveNewRow(st: TableState, tempId: Id): (r: TableState)
    ensures forall x :: x in r.newRows <==> x in st.newRows && x.tempId != tempId
    ensures !HasRow(r.newRows, tempId)
    ensures r.errors == st.errors - {tempId}
    ensures st.autoFocus == Some(tempId) ==> r.autoFocus.None?
    ensures st.autoFocus != Some(tempId) ==> r.autoFocus == st.autoFocus
    ensures r.editing == st.editing && r.editValue == st.editValue
  {
    var focus := if st.autoFocus == Some(tempId) then None else st.autoFocus;
    st.(newRows := WithoutRow(st.newRows, tempId), errors := st.errors - {tempId}, autoFocus := focus)
  }

  /** Adding a row with a fresh id and removing it again leaves the other
      rows and the error flags as they were. */
  lemma RemoveUndoesAdd(st: TableState, tempId: Id)
    requires !HasRow(st.newRows, tempId) && tempId !in st.errors
    ensures RemoveNewRow(AddNewRow(st, tempId), tempId).newRows == st.newRows
    ensures RemoveNewRow(AddNewRow(st, tempId), tempId).errors == st.errors
  {
    var rows := st.newRows + [NewRow(tempId, EmptyForm)];
    assert rows[..|rows| - 1] == st.newRows;
    WithoutAbsentRow(st.newRows, tempId);
  }

  /** Typing into a field of a new row: that row's field takes the typed
      text and its other fields stay; every other row is kept; a shown
      error on the row is cleared. */
  function EditNewRow(st: TableState, tempId: Id, f: Field, value: string): (r: TableState)
    ensures |r.newRows| == |st.newRows|
    ensures forall i | 0 <= i < |st.newRows| :: r.newRows[i].tempId == st.newRows[i].tempId
    ensures forall i | 0 <= i < |st.newRows| && st.newRows[i].tempId == tempId ::
              && FieldOf(r.newRows[i].form, f) == value
              && forall g: Field | g != f :: FieldOf(r.newRows[i].form, g) == FieldOf(st.newRows[i].form, g)
    ensures forall i | 0 <= i < |st.newRows| && st.newRows[i].tempId != tempId :: r.newRows[i] == st.newRows[i]
    ensures r.errors == st.errors - {tempId}
    ensures r.editing == st.editing && r.autoFocus == st.autoFocus
  {
    var rows := seq(|st.newRows|, i requires 0 <= i < |st.newRows| =>
      if st.newRows[i].tempId == tempId
      then st.newRows[i].(form := WithField(st.newRows[i].form, f, value))
      else st.newRows[i]);
    st.(newRows := rows, errors := st.errors - {tempId})
  }

  /** What a commit decides, from the trimmed texts of the row. */
  datatype CommitOutcome = Discarded | Flagged | Created(form: FaqForm)

  function TrimForm(form: FaqForm): FaqForm {
    FaqForm(Trim(form.question), Trim(form.answer), Trim(form.notes))
  }

  /** `commitNewRow`: an all-blank row is dropped; a row missing its
      question or answer is flagged and kept; any other row is created with
      its texts trimmed and then dropped. */
  function CommitNewRow(st: TableState, row: NewRow): (r: (TableState, CommitOutcome))
    ensures r.1.Discarded? <==> IsBlank(row.form.question) && IsBlank(row.form.answer) && IsBlank(row.form.notes)
    ensures r.1.Flagged? <==> (IsBlank(row.form.question) || IsBlank(row.form.answer)) && !r.1.Discarded?
    ensures r.1.Created? ==> r.1.form == TrimForm(row.form)
    ensures r.1.Flagged? ==> r.0 == st.(errors := st.errors + {row.tempId})
    ensures !r.1.Flagged? ==> r.0 == RemoveNewRow(st, row.tempId)
  {
    var form := TrimForm(row.form);
    if form.question == "" && form.answer == "" && form.notes == "" then
      (RemoveNewRow(st, row.tempId), Discarded)
    else if form.question == "" || form.answer == "" then
      (st.(errors := st.errors + {row.tempId}), Flagged)
    else
      (RemoveNewRow(st, row.tempId), Created(form))
  }

  /** A created FAQ is complete and already trimmed: its question and
      answer are not blank, and trimming it again changes nothing. */
  lemma CommittedFormIsClean(st: TableState, row: NewRow)
    requires CommitNewRow(st, row).1.Created?
    ensures var form := CommitNewRow(st, row).1.form;
            && !IsBlank(form.question) && !IsBlank(form.answer)
            && TrimForm(form) == form
  {
    TrimIdempotent(row.form.question);
    TrimIdempotent(row.form.answer);
    TrimIdempotent(row.form.notes);
  }

  /** Trimming a form trims each of its fields. */
  lemma TrimFormField(form: FaqForm, f: Field)
    ensures FieldOf(TrimForm(form), f) == Trim(FieldOf(form, f))
  {
    match f
    case QuestionField =>
    case AnswerField =>
    case NotesField =>
  }

  /** Typing text into a field of a new row and then committing the row:
      text that is not blank keeps the row from being discarded, and a
      created FAQ carries the typed text, trimmed, in that field. */
  lemma EditThenCommit(st: TableState, i: nat, f: Field, value: string)
    requires i < |st.newRows|
    ensures var st1 := EditNewRow(st, st.newRows[i].tempId, f, value);
      var out := CommitNewRow(st1, st1.newRows[i]).1;
      && (!IsBlank(value) ==> !out.Discarded?)
      && (out.Created? ==> FieldOf(out.form, f) == Trim(value))
  {
    var st1 := EditNewRow(st, st.newRows[i].tempId, f, value);
    var row := st1.newRows[i];
    assert FieldOf(row.form, f) == value;
    TrimFormField(row.form, f);
  }

  /** After a commit the row is still listed exactly when it was flagged. */
  lemma CommitKeepsRowIffFlagged(st: TableState, row: NewRow)
    requires row in st.newRows
    ensures row in CommitNewRow(st, row).0.newRows <==> CommitNewRow(st, row).1.Flagged?
  {
  }
}

=== FILE: highlight.dfy ===
/**
  Search highlighting of one text (src/components/highlight-text.tsx): the
  text is cut into plain runs and marked matches. Matches never overlap,
  because the search resumes after the end of each one, so the number of
  marks can fall short of the overlapping count the navigation reports.
 */
module Highlight {
  import opened Outcomes
  import opened JsText
  import SearchNav

  /** One child of the rendered fragment: a text run or a `<mark>`. */
  datatype Segment =
    | Plain(text: string)
    | Mark(id: string, text: string, current: bool)

  /** The characters the segments show, in order. */
  function Flatten(parts: seq<Segment>): string {
    if |parts| == 0 then "" else parts[0].text + Flatten(parts[1..])
  }

  /** The ids of the marks, in order. */
  function MarkIds(parts: seq<Segment>): seq<string> {
    if |parts| == 0 then []
    else (if parts[0].Mark? then [parts[0].id] else []) + MarkIds(parts[1..])
  }

  /** The id the k-th mark gets: the prefix, a dash and the counter. */
  function MarkId(prefix: string, k: nat): (r: string)
    ensures prefix + "-" <= r
    ensures r[|prefix| + 1..] == NatToString(k)
  {
    prefix + "-" + NatToString(k)
  }

  lemma MarkIdInjective(prefix: string, a: nat, b: nat)
    requires a != b
    ensures MarkId(prefix, a) != MarkId(prefix, b)
  {
    if MarkId(prefix, a) == MarkId(prefix, b) {
      NatToStringInjective(a, b);
    }
  }

  lemma {:induction false} FlattenAppend(a: seq<Segment>, b: seq<Segment>)
    ensures Flatten(a + b) == Flatten(a) + Flatten(b)
  {
    if |a| == 0 {
      assert a + b == b;
    } else {
      assert (a + b)[1..] == a[1..] + b;
      FlattenAppend(a[1..], b);
    }
  }

  lemma {:induction false} MarkIdsAppend(a: seq<Segment>, b: seq<Segment>)
    ensures MarkIds(a + b) == MarkIds(a) + MarkIds(b)
  {
    if |a| == 0 {
      assert a + b == b;
    } else {
      assert (a + b)[1..] == a[1..] + b;
      MarkIdsAppend(a[1..], b);
    }
  }

  /** The text before a match, when there is any. */
  function Gap(text: string, from: nat, to: nat): (r: seq<Segment>)
    requires from <= to <= |text|
    ensures Flatten(r) == text[from..to]
    ensures MarkIds(r) == []
  {
    if to > from then [Plain(text[from..to])] else []
  }

  /** The loop from `lastIndex` on, with `k` marks already emitted: the gap
      before the next match, the match as a mark, and the rest; at the end,
      the remaining text. */
  function Scan(text: string, lowerText: string, lowerQuery: string, currentId: Option<string>,
                prefix: string, lastIndex: nat, k: nat): (parts: seq<Segment>)
    requires |lowerQuery| > 0 && |lowerText| == |text| && lastIndex <= |text|
    decreases |text| - lastIndex
  {
    var index := IndexOf(lowerText, lowerQuery, lastIndex);
    if index == -1 then
      Gap(text, lastIndex, |text|)
    else
      var id := MarkId(prefix, k);
      var end := index + |lowerQuery|;
      Gap(text, lastIndex, index) + [Mark(id, text[index..end], Some(id) == currentId)]
      + Scan(text, lowerText, lowerQuery, currentId, prefix, end, k + 1)
  }

  /** The segments show the text from `lastIndex` on, unchanged. */
  lemma {:induction false} ScanFlatten(text: string, lowerText: string, lowerQuery: string, currentId: Option<string>,
                                       prefix: string, lastIndex: nat, k: nat)
    requires |lowerQuery| > 0 && |lowerText| == |text| && lastIndex <= |text|
    ensures Flatten(Scan(text, lowerText, lowerQuery, currentId, prefix, lastIndex, k)) == text[lastIndex..]
    decreases |text| - lastIndex
  {
    var index := IndexOf(lowerText, lowerQuery, lastIndex);
    if index != -1 {
      var id := MarkId(prefix, k);
      var end := index + |lowerQuery|;
      var mark := Mark(id, text[index..end], Some(id) == currentId);
      var rest := Scan(text, lowerText, lowerQuery, currentId, prefix, end, k + 1);
      ScanFlatten(text, lowerText, lowerQuery, currentId, prefix, end, k + 1);
      StepFlatten(text, lastIndex, index, end, mark, rest);
      assert Scan(text, lowerText, lowerQuery, currentId, prefix, lastIndex, k) == Gap(text, lastIndex, index) + [mark] + rest;
    }
  }

  /** One turn of the loop adds the gap and the match to the shown text. */
  lemma StepFlatten(text: string, lastIndex: nat, index: nat, end: nat, mark: Segment, rest: seq<Segment>)
    requires lastIndex <= index <= end <= |text|
    requires mark.text == text[index..end] && Flatten(rest) == text[end..]
    ensures Flatten(Gap(text, lastIndex, index) + [mark] + rest) == text[lastIndex..]
  {
    var gap := Gap(text, lastIndex, index);
    FlattenAppend(gap + [mark], rest);
    FlattenAppend(gap, [mark]);
    assert Flatten([mark]) == mark.text + "";
    assert text[lastIndex..] == text[lastIndex..index] + text[index..end] + text[end..];
  }

  /** One turn of the loop adds exactly the match's id to the mark ids. */
  lemma StepMarkIds(gap: seq<Segment>, mark: Segment, rest: seq<Segment>)
    requires MarkIds(gap) == [] && mark.Mark?
    ensures MarkIds(gap + [mark] + rest) == [mark.id] + MarkIds(rest)
  {
    MarkIdsAppend(gap + [mark], rest);
    MarkIdsAppend(gap, [mark]);
    assert MarkIds([mark]) == [mark.id] + MarkIds([]);
  }

  /** `HighlightText`: the text alone for a blank query, the segmentation
      otherwise. */
  function HighlightText(text: string, query: string, currentId: Option<string>, prefix: string): (parts: seq<Segment>)
    ensures Flatten(parts) == text
    ensures IsBlank(query) ==> parts == [Plain(text)]
  {
    if IsBlank(query) then
      assert Flatten([Plain(text)]) == text + "";
      [Plain(text)]
    else
      assert text[0..] == text;
      ScanFlatten(text, Lower(text), Lower(query), currentId, prefix, 0, 0);
      Scan(text, Lower(text), Lower(query), currentId, prefix, 0, 0)
  }

  // ---------------------------------------------------------------------
  // Properties of the segmentation
  // ---------------------------------------------------------------------

  /** What every segment of a scan satisfies: plain runs are never empty,
      a mark shows a slice whose lower case is the query, and a mark is
      current exactly when its id is the current one. */
  predicate WellFormed(s: Segment, lowerQuery: string, currentId: Option<string>) {
    match s
    case Plain(t) => |t| > 0
    case Mark(id, t, cur) => Lower(t) == lowerQuery && (cur <==> Some(id) == currentId)
  }

  lemma LowerSlice(s: string, a: nat, b: nat)
    requires a <= b <= |s|
    ensures Lower(s[a..b]) == Lower(s)[a..b]
  {
  }

  /** Every segment of `parts` is well formed. */
  predicate AllWellFormed(parts: seq<Segment>, lowerQuery: string, currentId: Option<string>) {
    forall s | s in parts :: WellFormed(s, lowerQuery, currentId)
  }

  lemma StepWellFormed(gap: seq<Segment>, mark: Segment, rest: seq<Segment>, lowerQuery: string, currentId: Option<string>)
    requires AllWellFormed(gap, lowerQuery, currentId) && WellFormed(mark, lowerQuery, currentId)
    requires AllWellFormed(rest, lowerQuery, currentId)
    ensures AllWellFormed(gap + [mark] + rest, lowerQuery, currentId)
  {
    forall s | s in gap + [mark] + rest ensures WellFormed(s, lowerQuery, currentId) {
      if s !in gap && s != mark {
        assert s in rest;
      }
    }
  }

  /** A match found in the lower-cased text shows the query up to case. */
  lemma MatchShowsQuery(text: string, lowerText: string, lowerQuery: string, index: nat)
    requires lowerText == Lower(text) && MatchesAt(lowerText, lowerQuery, index)
    ensures Lower(text[index..index + |lowerQuery|]) == lowerQuery
  {
    LowerSlice(text, index, index + |lowerQuery|);
  }

  lemma {:induction false} ScanWellFormed(text: string, lowerText: string, lowerQuery: string, currentId: Option<string>,
                                          prefix: string, lastIndex: nat, k: nat)
    requires |lowerQuery| > 0 && lowerText == Lower(text) && lastIndex <= |text|
    ensures AllWellFormed(Scan(text, lowerText, lowerQuery, currentId, prefix, lastIndex, k), lowerQuery, currentId)
    decreases |text| - lastIndex
  {
    var index := IndexOf(lowerText, lowerQuery, lastIndex);
    if index != -1 {
      var end := index + |lowerQuery|;
      var id := MarkId(prefix, k);
      var gap := Gap(text, lastIndex, index);
      var mark := Mark(id, text[index..end], Some(id) == currentId);
      var rest := Scan(text, lowerText, lowerQuery, currentId, prefix, end, k + 1);
      assert Scan(text, lowerText, lowerQuery, currentId, prefix, lastIndex, k) == gap + [mark] + rest;
      MatchShowsQuery(text, lowerText, lowerQuery, index);
      ScanWellFormed(text, lowerText, lowerQuery, currentId, prefix, end, k + 1);
      StepWellFormed(gap, mark, rest, lowerQuery, currentId);
    }
  }

  /** `ids` are the mark ids numbered on from `k`, in order. */
  predicate NumberedFrom(ids: seq<string>, prefix: string, k: nat) {
    forall j | 0 <= j < |ids| :: ids[j] == MarkId(prefix, k + j)
  }

  /** The marks are numbered on from `k`, in order. */
  lemma {:induction false} ScanMarkIds(text: string, lowerText: string, lowerQuery: string,
                                       currentId: Option<string>, prefix: string, lastIndex: nat, k: nat)
    requires |lowerQuery| > 0 && |lowerText| == |text| && lastIndex <= |text|
    ensures NumberedFrom(MarkIds(Scan(text, lowerText, lowerQuery, currentId, prefix, lastIndex, k)), prefix, k)
    decreases |text| - lastIndex
  {
    var index := IndexOf(lowerText, lowerQuery, lastIndex);
    if index != -1 {
      var id := MarkId(prefix, k);
      var end := index + |lowerQuery|;
      var gap := Gap(text, lastIndex, index);
      var mark := Mark(id, text[index..end], Some(id) == currentId);
      var rest := Scan(text, lowerText, lowerQuery, currentId, prefix, end, k + 1);
      assert Scan(text, lowerText, lowerQuery, currentId, prefix, lastIndex, k) == gap + [mark] + rest;
      ScanMarkIds(text, lowerText, lowerQuery, currentId, prefix, end, k + 1);
      StepMarkIds(gap, mark, rest);
      NumberedCons(MarkIds(rest), prefix, k);
    } else {
      assert Scan(text, lowerText, lowerQuery, currentId, prefix, lastIndex, k) == Gap(text, lastIndex, |text|);
    }
  }

  lemma NumberedCons(ids: seq<string>, prefix: string, k: nat)
    requires NumberedFrom(ids, prefix, k + 1)
    ensures NumberedFrom([MarkId(prefix, k)] + ids, prefix, k)
  {
    var all := [MarkId(prefix, k)] + ids;
    forall j | 0 <= j < |all| ensures all[j] == MarkId(prefix, k + j) {
      if j > 0 {
        assert all[j] == ids[j - 1];
        assert ids[j - 1] == MarkId(prefix, (k + 1) + (j - 1));
      }
    }
  }

  /** Each mark consumes a whole occurrence, so there are never more marks
      than overlapping occurrences. */
  lemma {:induction false} ScanMarkCount(text: string, lowerText: string, lowerQuery: string,
                                         currentId: Option<string>, prefix: string, lastIndex: nat, k: nat)
    requires |lowerQuery| > 0 && |lowerText| == |text| && lastIndex <= |text|
    ensures |MarkIds(Scan(text, lowerText, lowerQuery, currentId, prefix, lastIndex, k))|
            <= CountFrom(lowerText, lowerQuery, lastIndex)
    decreases |text| - lastIndex
  {
    var index := IndexOf(lowerText, lowerQuery, lastIndex);
    if index != -1 {
      var id := MarkId(prefix, k);
      var end := index + |lowerQuery|;
      var gap := Gap(text, lastIndex, index);
      var mark := Mark(id, text[index..end], Some(id) == currentId);
      var rest := Scan(text, lowerText, lowerQuery, currentId, prefix, end, k + 1);
      assert Scan(text, lowerText, lowerQuery, currentId, prefix, lastIndex, k) == gap + [mark] + rest;
      ScanMarkCount(text, lowerText, lowerQuery, currentId, prefix, end, k + 1);
      StepMarkCount(gap, mark, rest, lowerText, lowerQuery, lastIndex);
    } else {
      assert Scan(text, lowerText, lowerQuery, currentId, prefix, lastIndex, k) == Gap(text, lastIndex, |text|);
    }
  }

  /** One mark in front of the rest adds one mark, and at least one
      occurrence, to the count. */
  lemma StepMarkCount(gap: seq<Segment>, mark: Segment, rest: seq<Segment>, t: string, q: string, from: nat)
    requires MarkIds(gap) == [] && mark.Mark?
    requires |q| > 0 && IndexOf(t, q, from) != -1
    requires |MarkIds(rest)| <= CountFrom(t, q, IndexOf(t, q, from) + |q|)
    ensures |MarkIds(gap + [mark] + rest)| <= CountFrom(t, q, from)
  {
    StepMarkIds(gap, mark, rest);
    CountPastMatch(t, q, from);
  }

  /** For a query that is not blank: plain runs are never empty, each mark
      shows the query up to ASCII case, ids run `prefix-0`, `prefix-1`, …
      in order, and the marks are at most as many as the matches counted by
      `countMatches`. */
  lemma HighlightTextSegments(text: string, query: string, currentId: Option<string>, prefix: string)
    requires !IsBlank(query)
    ensures var parts := HighlightText(text, query, currentId, prefix);
            && AllWellFormed(parts, Lower(query), currentId)
            && NumberedFrom(MarkIds(parts), prefix, 0)
            && |MarkIds(parts)| <= SearchNav.CountMatches(text, query)
  {
    ScanWellFormed(text, Lower(text), Lower(query), currentId, prefix, 0, 0);
    ScanMarkIds(text, Lower(text), Lower(query), currentId, prefix, 0, 0);
    ScanMarkCount(text, Lower(text), Lower(query), currentId, prefix, 0, 0);
  }

  /** The two counts differ: "aa" occurs twice in "aaa" when overlaps count,
      but only one mark fits. */
  lemma OverlapExample(currentId: Option<string>, prefix: string)
    ensures SearchNav.CountMatches("aaa", "aa") == 2
    ensures |MarkIds(HighlightText("aaa", "aa", currentId, prefix))| == 1
  {
    QueryNotBlank();
    OverlapCount();
    OverlapMarks(currentId, prefix);
  }

  lemma QueryNotBlank()
    ensures Lower("aa") == "aa" && !IsBlank("aa")
  {
    var q := "aa";
    assert !AllWhitespace(q) by {
      assert !IsWhitespace(q[0]);
    }
  }

  lemma OverlapCount()
    requires Lower("aa") == "aa" && !IsBlank("aa")
    ensures SearchNav.CountMatches("aaa", "aa") == 2
  {
    var t := "aaa";
    var q := "aa";
    assert Lower(t) == t;
    assert MatchesAt(t, q, 0) && MatchesAt(t, q, 1);
    assert CountFrom(t, q, 2) == 0;
    assert CountFrom(t, q, 1) == 1;
    assert CountFrom(t, q, 0) == 2;
  }

  lemma OverlapMarks(currentId: Option<string>, prefix: string)
    requires Lower("aa") == "aa" && !IsBlank("aa")
    ensures |MarkIds(HighlightText("aaa", "aa", currentId, prefix))| == 1
  {
    var t := "aaa";
    var q := "aa";
    OverlapIndexes();
    SingleMark(t, Lower(t), q, currentId, prefix, 0, 0);
  }

  lemma OverlapIndexes()
    ensures var t := Lower("aaa"); IndexOf(t, "aa", 0) == 0 && IndexOf(t, "aa", 2) == -1
  {
    var t := "aaa";
    assert Lower(t) == t;
    assert MatchesAt(t, "aa", 0);
  }

  /** A text where the loop finds one match and nothing after it gets one
      mark. */
  lemma SingleMark(text: string, lowerText: string, lowerQuery: string, currentId: Option<string>,
                   prefix: string, lastIndex: nat, k: nat)
    requires |lowerQuery| > 0 && |lowerText| == |text| && lastIndex <= |text|
    requires IndexOf(lowerText, lowerQuery, lastIndex) != -1
    requires IndexOf(lowerText, lowerQuery, IndexOf(lowerText, lowerQuery, lastIndex) + |lowerQuery|) == -1
    ensures |MarkIds(Scan(text, lowerText, lowerQuery, currentId, prefix, lastIndex, k))| == 1
  {
    var index := IndexOf(lowerText, lowerQuery, lastIndex);
    var end := index + |lowerQuery|;
    var id := MarkId(prefix, k);
    var gap, mark := Gap(text, lastIndex, index), Mark(id, text[index..end], Some(id) == currentId);
    var rest := Scan(text, lowerText, lowerQuery, currentId, prefix, end, k + 1);
    assert Scan(text, lowerText, lowerQuery, currentId, prefix, lastIndex, k) == gap + [mark] + rest;
    assert rest == Gap(text, end, |text|);
    StepMarkIds(gap, mark, rest);
  }
}

=== FILE: id_lists.dfy ===
/**
  Lists of ids as the modelled code handles them: `filter` against another
  list or set, `indexOf`, `Array.from(new Set(list))`, and sets kept in
  insertion order.
 */
module IdLists {

  type Id = string

  /** No element occurs twice. */
  predicate Distinct(s: seq<Id>) {
    forall i, j | 0 <= i < j < |s| :: s[i] != s[j]
  }

  lemma DistinctFront(s: seq<Id>)
    requires Distinct(s) && |s| > 0
    ensures Distinct(s[..|s| - 1]) && s[|s| - 1] !in s[..|s| - 1]
  {
  }

  lemma DistinctSnoc(s: seq<Id>, x: Id)
    requires Distinct(s) && x !in s
    ensures Distinct(s + [x])
  {
    var r := s + [x];
    forall i, j | 0 <= i < j < |r| ensures r[i] != r[j] {
      assert r[i] == s[i] && s[i] in s;
    }
  }

  /** Concatenating two distinct lists with no common element. */
  lemma DistinctConcat(a: seq<Id>, b: seq<Id>)
    requires Distinct(a) && Distinct(b)
    requires forall x | x in a :: x !in b
    ensures Distinct(a + b)
  {
    var r := a + b;
    forall i, j | 0 <= i < j < |r| ensures r[i] != r[j] {
      if j < |a| {
      } else if i >= |a| {
        assert r[i] == b[i - |a|] && r[j] == b[j - |a|];
      } else {
        assert r[i] == a[i] && a[i] in a;
        assert r[j] == b[j - |a|] && b[j - |a|] in b;
      }
    }
  }

  /** `s.indexOf(x)` for an element that occurs: its first position. */
  function FirstIndex(s: seq<Id>, x: Id): (r: nat)
    requires x in s
    ensures r < |s| && s[r] == x
    ensures forall j | 0 <= j < r :: s[j] != x
  {
    if s[0] == x then 0 else 1 + FirstIndex(s[1..], x)
  }

  /** In a list without repetition the first position is the position. */
  lemma FirstIndexDistinct(s: seq<Id>, i: int)
    requires Distinct(s) && 0 <= i < |s|
    ensures FirstIndex(s, s[i]) == i
  {
  }

  /** The ids of `s` that are in `allowed`, in the order of `s`. */
  function KeepIn(s: seq<Id>, allowed: seq<Id>): (r: seq<Id>)
    ensures forall x :: x in r <==> x in s && x in allowed
    ensures |r| <= |s|
  {
    if |s| == 0 then []
    else
      var front, last := s[..|s| - 1], s[|s| - 1];
      assert s == front + [last];
      if last in allowed then KeepIn(front, allowed) + [last] else KeepIn(front, allowed)
  }

  lemma {:induction false} KeepInDistinct(s: seq<Id>, allowed: seq<Id>)
    requires Distinct(s)
    ensures Distinct(KeepIn(s, allowed))
  {
    if |s| > 0 {
      var front, last := s[..|s| - 1], s[|s| - 1];
      DistinctFront(s);
      KeepInDistinct(front, allowed);
      if last in allowed {
        DistinctSnoc(KeepIn(front, allowed), last);
      }
    }
  }

  /** The ids of `s` that are not in `excluded`, in the order of `s`. */
  function KeepOut(s: seq<Id>, excluded: seq<Id>): (r: seq<Id>)
    ensures forall x :: x in r <==> x in s && x !in excluded
    ensures |r| <= |s|
  {
    if |s| == 0 then []
    else
      var front, last := s[..|s| - 1], s[|s| - 1];
      assert s == front + [last];
      if last in excluded then KeepOut(front, excluded) else KeepOut(front, excluded) + [last]
  }

  lemma {:induction false} KeepOutDistinct(s: seq<Id>, excluded: seq<Id>)
    requires Distinct(s)
    ensures Distinct(KeepOut(s, excluded))
  {
    if |s| > 0 {
      var front, last := s[..|s| - 1], s[|s| - 1];
      DistinctFront(s);
      KeepOutDistinct(front, excluded);
      if last !in excluded {
        DistinctSnoc(KeepOut(front, excluded), last);
      }
    }
  }

  /** `Array.from(new Set(s))`: each element once, at its first position. */
  function Dedup(s: seq<Id>): (r: seq<Id>)
    ensures forall x :: x in r <==> x in s
    ensures |r| <= |s|
  {
    if |s| == 0 then []
    else
      var front, last := s[..|s| - 1], s[|s| - 1];
      assert s == front + [last];
      if last in front then Dedup(front) else Dedup(front) + [last]
  }

  lemma {:induction false} DedupDistinct(s: seq<Id>)
    ensures Distinct(Dedup(s))
  {
    if |s| > 0 {
      var front, last := s[..|s| - 1], s[|s| - 1];
      DedupDistinct(front);
      if last !in front {
        DistinctSnoc(Dedup(front), last);
      }
    }
  }

  /** `set.add(x)` on an insertion-ordered set. */
  function AddTo(s: seq<Id>, x: Id): (r: seq<Id>)
    ensures forall y :: y in r <==> y in s || y == x
    ensures Distinct(s) ==> Distinct(r)
  {
    if x in s then s else s + [x]
  }

  /** `set.delete(x)` on an insertion-ordered set. */
  function DeleteFrom(s: seq<Id>, x: Id): (r: seq<Id>)
    ensures forall y :: y in r <==> y in s && y != x
    ensures Distinct(s) ==> Distinct(r)
  {
    KeepDistinctOut(s, x);
    KeepOut(s, [x])
  }

  lemma KeepDistinctOut(s: seq<Id>, x: Id)
    ensures Distinct(s) ==> Distinct(KeepOut(s, [x]))
  {
    if Distinct(s) { KeepOutDistinct(s, [x]); }
  }

  /** A distinct list has as many elements as the set of its elements. */
  lemma {:induction false} DistinctCard(s: seq<Id>)
    requires Distinct(s)
    ensures |set x | x in s| == |s|
  {
    if |s| > 0 {
      var front, last := s[..|s| - 1], s[|s| - 1];
      DistinctFront(s);
      DistinctCard(front);
      assert s == front + [last];
      assert (set x | x in s) == (set x | x in front) + {last};
    }
  }

  /** A subset is never larger. */
  lemma {:induction false} SubsetCard(a: set<Id>, b: set<Id>)
    requires a <= b
    ensures |a| <= |b|
    decreases a
  {
    if a != {} {
      var x :| x in a;
      SubsetCard(a - {x}, b - {x});
    }
  }

  /** A subset of the same size is the whole set. */
  lemma SubsetSameCard(a: set<Id>, b: set<Id>)
    requires a <= b && |a| == |b|
    ensures a == b
  {
    if x :| x in b && x !in a {
      SubsetCard(a, b - {x});
    }
  }
}

=== FILE: js_text.dfy ===
/**
  The JavaScript string built-ins the modelled code relies on: `trim`,
  `toLowerCase`/`toUpperCase` (ASCII letters only), `indexOf`, `includes`,
  and decimal rendering of a counter in a template literal.
  Strings are sequences of characters; no Unicode case folding is modelled.
 */
module JsText {

  /** The characters `String.prototype.trim` removes: the ECMAScript
      WhiteSpace and LineTerminator code points. */
  predicate IsWhitespace(c: char) {
    var n := c as int;
    n == 0x09 || n == 0x0A || n == 0x0B || n == 0x0C || n == 0x0D || n == 0x20
    || n == 0xA0 || n == 0x1680 || (0x2000 <= n <= 0x200A)
    || n == 0x2028 || n == 0x2029 || n == 0x202F || n == 0x205F
    || n == 0x3000 || n == 0xFEFF
  }

  predicate AllWhitespace(s: string) {
    forall i | 0 <= i < |s| :: IsWhitespace(s[i])
  }

  /** Drops leading whitespace: the result is a suffix of `s`. */
  function TrimStart(s: string): (r: string)
    ensures |r| <= |s| && r == s[|s| - |r|..]
    ensures forall i | 0 <= i < |s| - |r| :: IsWhitespace(s[i])
    ensures |r| > 0 ==> !IsWhitespace(r[0])
  {
    if |s| > 0 && IsWhitespace(s[0]) then TrimStart(s[1..]) else s
  }

  /** Drops trailing whitespace: the result is a prefix of `s`. */
  function TrimEnd(s: string): (r: string)
    ensures |r| <= |s| && r == s[..|r|]
    ensures forall i | |r| <= i < |s| :: IsWhitespace(s[i])
    ensures |r| > 0 ==> !IsWhitespace(r[|r| - 1])
  {
    if |s| > 0 && IsWhitespace(s[|s| - 1]) then TrimEnd(s[..|s| - 1]) else s
  }

  /** `s.trim()`: what is left after dropping whitespace at both ends; it
      is empty exactly when `s` is all whitespace. */
  function Trim(s: string): (r: string)
    ensures |r| <= |s|
    ensures |r| == 0 <==> AllWhitespace(s)
    ensures |r| > 0 ==> !IsWhitespace(r[0]) && !IsWhitespace(r[|r| - 1])
  {
    var t := TrimStart(s);
    var r := TrimEnd(t);
    r
  }

  /** A prefix of a suffix is a slice. */
  lemma PrefixOfSuffix(s: string, a: nat, k: nat)
    requires a + k <= |s|
    ensures s[a..][..k] == s[a..a + k]
  {
    forall i | 0 <= i < k ensures s[a..][..k][i] == s[a..a + k][i] {
      assert s[a..][..k][i] == s[a + i];
    }
  }

  /** What trimming keeps is one contiguous piece of the string. */
  lemma TrimIsSlice(s: string) returns (a: nat, b: nat)
    ensures a <= b <= |s| && Trim(s) == s[a..b]
  {
    var t := TrimStart(s);
    var u := TrimEnd(t);
    assert Trim(s) == u;
    a := |s| - |t|;
    b := a + |u|;
    assert t == s[a..];
    assert u == t[..|u|];
    PrefixOfSuffix(s, a, |u|);
  }

  /** `!s.trim()`: the string is empty after trimming. */
  predicate IsBlank(s: string) {
    |Trim(s)| == 0
  }

  /** A string with no whitespace at either end. */
  predicate IsTrimmed(s: string) {
    |s| > 0 ==> !IsWhitespace(s[0]) && !IsWhitespace(s[|s| - 1])
  }

  /** Trimming a trimmed string changes nothing. */
  lemma {:induction false} TrimIdempotent(s: string)
    ensures Trim(Trim(s)) == Trim(s)
  {
    var t := Trim(s);
    assert TrimStart(t) == t by {
      if |t| > 0 { assert !IsWhitespace(t[0]); }
    }
    assert TrimEnd(t) == t by {
      if |t| > 0 { assert !IsWhitespace(t[|t| - 1]); }
    }
  }

  function LowerChar(c: char): char {
    if 'A' <= c <= 'Z' then (c as int + 32) as char else c
  }

  function UpperChar(c: char): char {
    if 'a' <= c <= 'z' then (c as int - 32) as char else c
  }

  /** `s.toLowerCase()` restricted to ASCII letters (length-preserving). */
  function Lower(s: string): (r: string)
    ensures |r| == |s|
  {
    seq(|s|, i requires 0 <= i < |s| => LowerChar(s[i]))
  }

  /** `s.toUpperCase()` restricted to ASCII letters (length-preserving). */
  function Upper(s: string): (r: string)
    ensures |r| == |s|
  {
    seq(|s|, i requires 0 <= i < |s| => UpperChar(s[i]))
  }

  /** `q` occurs in `t` starting at position `i`. */
  predicate MatchesAt(t: string, q: string, i: int) {
    0 <= i && i + |q| <= |t| && t[i..i + |q|] == q
  }

  /** `q` occurs somewhere in `t` (the empty string occurs everywhere). */
  predicate Includes(t: string, q: string) {
    exists i | 0 <= i <= |t| :: MatchesAt(t, q, i)
  }

  /** `t.indexOf(q, from)` for a non-empty `q`: the first occurrence at or
      after `from`, or -1 when there is none. */
  function IndexOf(t: string, q: string, from: nat): (r: int)
    requires |q| > 0
    ensures r == -1 || (from <= r && MatchesAt(t, q, r))
    ensures r == -1 ==> forall i | from <= i :: !MatchesAt(t, q, i)
    ensures r != -1 ==> forall i | from <= i < r :: !MatchesAt(t, q, i)
    decreases |t| - from
  {
    if from + |q| > |t| then -1
    else if t[from..from + |q|] == q then from
    else IndexOf(t, q, from + 1)
  }

  /** `indexOf` finds an occurrence exactly when `includes` holds. */
  lemma IndexOfFindsIncluded(t: string, q: string)
    requires |q| > 0
    ensures IndexOf(t, q, 0) != -1 <==> Includes(t, q)
  {
    if Includes(t, q) {
      var i :| 0 <= i <= |t| && MatchesAt(t, q, i);
    }
  }

  /** The number of (possibly overlapping) positions at or after `from`
      where `q` occurs in `t`. */
  function CountFrom(t: string, q: string, from: nat): nat
    requires |q| > 0
    decreases |t| - from
  {
    if from + |q| > |t| then 0
    else (if MatchesAt(t, q, from) then 1 else 0) + CountFrom(t, q, from + 1)
  }

  /** Counting from `from` is counting from the next occurrence. */
  lemma {:induction false} CountFromNextOccurrence(t: string, q: string, from: nat)
    requires |q| > 0
    ensures IndexOf(t, q, from) == -1 ==> CountFrom(t, q, from) == 0
    ensures IndexOf(t, q, from) != -1 ==> CountFrom(t, q, from) == CountFrom(t, q, IndexOf(t, q, from))
    decreases |t| - from
  {
    if from + |q| > |t| {
    } else if MatchesAt(t, q, from) {
    } else {
      CountFromNextOccurrence(t, q, from + 1);
    }
  }

  /** Starting later never finds more occurrences. */
  lemma {:induction false} CountFromAntitone(t: string, q: string, from: nat, upto: nat)
    requires |q| > 0 && from <= upto
    ensures CountFrom(t, q, upto) <= CountFrom(t, q, from)
    decreases upto
  {
    if from < upto {
      CountFromAntitone(t, q, from, upto - 1);
    }
  }

  /** Skipping past the whole next occurrence loses at least that one. */
  lemma CountPastMatch(t: string, q: string, from: nat)
    requires |q| > 0 && IndexOf(t, q, from) != -1
    ensures CountFrom(t, q, from) >= 1 + CountFrom(t, q, IndexOf(t, q, from) + |q|)
  {
    var index := IndexOf(t, q, from);
    CountFromNextOccurrence(t, q, from);
    assert CountFrom(t, q, index) == 1 + CountFrom(t, q, index + 1);
    CountFromAntitone(t, q, index + 1, index + |q|);
  }

  /** The positions at or after `from` where `q` occurs in `t`. */
  function Occurrences(t: string, q: string, from: nat): set<nat> {
    set i: nat | from <= i <= |t| && MatchesAt(t, q, i)
  }

  /** `CountFrom` counts exactly the occurrence positions. */
  lemma {:induction false} CountFromIsOccurrences(t: string, q: string, from: nat)
    requires |q| > 0
    ensures CountFrom(t, q, from) == |Occurrences(t, q, from)|
    decreases |t| - from
  {
    if from + |q| > |t| {
      assert Occurrences(t, q, from) == {};
    } else {
      CountFromIsOccurrences(t, q, from + 1);
      if MatchesAt(t, q, from) {
        assert Occurrences(t, q, from) == {from} + Occurrences(t, q, from + 1);
      } else {
        assert Occurrences(t, q, from) == Occurrences(t, q, from + 1);
      }
    }
  }

  function DigitChar(d: nat): char
    requires d < 10
  {
    ('0' as int + d) as char
  }

  /** A counter rendered in a template literal: its decimal digits. */
  function NatToString(n: nat): (r: string)
    ensures |r| > 0
    ensures forall i | 0 <= i < |r| :: '0' <= r[i] <= '9'
  {
    if n < 10 then [DigitChar(n)] else NatToString(n / 10) + [DigitChar(n % 10)]
  }

  lemma {:induction false} NatToStringLength(n: nat)
    ensures |NatToString(n)| == 1 <==> n < 10
  {
    if n >= 10 {
      assert |NatToString(n / 10)| > 0;
    }
  }

  /** Different counters render differently. */
  lemma {:induction false} NatToStringInjective(a: nat, b: nat)
    requires NatToString(a) == NatToString(b)
    ensures a == b
    decreases a
  {
    NatToStringLength(a);
    NatToStringLength(b);
    var sa := NatToString(a);
    if a < 10 {
      assert b < 10;
      assert DigitChar(a) == sa[0] == DigitChar(b);
    } else {
      assert b >= 10;
      assert DigitChar(a % 10) == sa[|sa| - 1] == DigitChar(b % 10);
      assert NatToString(a / 10) == sa[..|sa| - 1] == NatToString(b / 10);
      NatToStringInjective(a / 10, b / 10);
    }
  }

  /** The search rule shared by both editor pages: the lower-cased query is a
      substring of the lower-cased question, answer or notes. */
  predicate SearchHit(question: string, answer: string, notes: string, query: string) {
    || Includes(Lower(question), Lower(query))
    || Includes(Lower(answer), Lower(query))
    || Includes(Lower(notes), Lower(query))
  }
}

=== FILE: legacy_page.dfy ===
/**
  The single-tenant editor page (faq-knowledge-base/src/app/page.tsx): the
  search filter, the per-section FAQ order, the order a new FAQ gets, and
  the optimistic handlers that change the lists at once and settle or undo
  the change when the server answers. Timestamps are opaque numbers and
  temporary ids are parameters.
 */
module LegacyPage {
  import opened Outcomes
  import opened JsText
  import opened IdLists
  import opened FaqOrder
  import opened OptimisticLists
  import opened Subsequences

  datatype Variable = Variable(id: Id, key: string, value: string)
  datatype Section = Section(id: Id, name: string, order: int, createdAt: int)
  datatype Faq = Faq(id: Id, sectionId: Id, question: string, answer: string, notes: string,
                     order: int, createdAt: int, updatedAt: int)
  datatype FaqData = FaqData(question: string, answer: string, notes: string)

  function VariableId(v: Variable): Id { v.id }
  function SectionId(s: Section): Id { s.id }
  function FaqId(f: Faq): Id { f.id }

  // ---------------------------------------------------------------------
  // Search and per-section order
  // ---------------------------------------------------------------------

  /** The FAQ matches the query in its question, answer or notes. */
  predicate Hit(f: Faq, query: string) {
    SearchHit(f.question, f.answer, f.notes, query)
  }

  /** `filteredFaqs`: every FAQ for the empty query (only `""` is falsy;
      a query of spaces filters), otherwise the hits in list order, each as
      often as it occurs. */
  function FilteredFaqs(faqs: seq<Faq>, query: string): (r: seq<Faq>)
    ensures query == "" ==> r == faqs
    ensures forall f | f in r :: f in faqs && (query == "" || Hit(f, query))
    ensures forall f | f in faqs && (query == "" || Hit(f, query)) :: f in r
    ensures IsSubseq(r, faqs)
    ensures forall f :: multiset(r)[f] == if query == "" || Hit(f, query) then multiset(faqs)[f] else 0
  {
    if query == "" then SubseqRefl(faqs); faqs
    else if |faqs| == 0 then []
    else
      var front, last := faqs[..|faqs| - 1], faqs[|faqs| - 1];
      assert faqs == front + [last];
      var prev := FilteredFaqs(front, query);
      if Hit(last, query) then SubseqTake(prev, front, last); prev + [last]
      else SubseqSkip(prev, front, last); prev
  }

  /** The FAQs filed under `sectionId`, in list order, each as often as it
      occurs in `faqs`. */
  function SectionOnly(faqs: seq<Faq>, sectionId: Id): (r: seq<Faq>)
    ensures forall f | f in r :: f in faqs && f.sectionId == sectionId
    ensures forall f | f in faqs && f.sectionId == sectionId :: f in r
    ensures IsSubseq(r, faqs)
    ensures forall f :: multiset(r)[f] == if f.sectionId == sectionId then multiset(faqs)[f] else 0
  {
    if |faqs| == 0 then []
    else
      var front, last := faqs[..|faqs| - 1], faqs[|faqs| - 1];
      assert faqs == front + [last];
      var prev := SectionOnly(front, sectionId);
      if last.sectionId == sectionId then SubseqTake(prev, front, last); prev + [last]
      else SubseqSkip(prev, front, last); prev
  }

  function FaqKey(f: Faq): SortKey {
    SortKey(f.order, f.id)
  }

  /** A FAQ the section table shows: in the section and passing the search. */
  predicate Listed(f: Faq, query: string, sectionId: Id) {
    f.sectionId == sectionId && (query == "" || Hit(f, query))
  }

  /** The two filters together keep each listed FAQ as often as it occurs. */
  lemma ShownCounts(faqs: seq<Faq>, query: string, sectionId: Id)
    ensures forall f ::
      multiset(SectionOnly(FilteredFaqs(faqs, query), sectionId))[f] == (if Listed(f, query, sectionId) then multiset(faqs)[f] else 0)
  {
    var hits := FilteredFaqs(faqs, query);
    var shown := SectionOnly(hits, sectionId);
    forall f ensures multiset(shown)[f] == if Listed(f, query, sectionId) then multiset(faqs)[f] else 0 {
      assert multiset(shown)[f] == if f.sectionId == sectionId then multiset(hits)[f] else 0;
      assert multiset(hits)[f] == if query == "" || Hit(f, query) then multiset(faqs)[f] else 0;
    }
  }

  /** `getFaqsForSection`: the section's FAQs that pass the search, each as
      often as it occurs, by order and then by id. */
  function FaqsForSection(faqs: seq<Faq>, query: string, sectionId: Id): (r: seq<Faq>)
    ensures SortedBy(r, FaqKey)
    ensures forall f :: multiset(r)[f] == if Listed(f, query, sectionId) then multiset(faqs)[f] else 0
    ensures forall f | f in r :: f in faqs && f.sectionId == sectionId && (query == "" || Hit(f, query))
    ensures forall f | f in faqs && f.sectionId == sectionId && (query == "" || Hit(f, query)) :: f in r
    ensures multiset(r) <= multiset(faqs)
  {
    var r := SortBy(SectionOnly(FilteredFaqs(faqs, query), sectionId), FaqKey);
    ShownCounts(faqs, query, sectionId);
    assert forall f :: f in r <==> f in multiset(r);
    assert forall f :: f in faqs <==> f in multiset(faqs);
    r
  }

  // ---------------------------------------------------------------------
  // The order of a new FAQ
  // ---------------------------------------------------------------------

  /** `Math.max(-1, ...orders)` over the FAQs of one section. */
  function MaxOrder(faqs: seq<Faq>, sectionId: Id): (r: int)
    ensures r >= -1
    ensures forall f | f in faqs && f.sectionId == sectionId :: f.order <= r
    ensures r == -1 || exists f | f in faqs :: f.sectionId == sectionId && f.order == r
  {
    if |faqs| == 0 then -1
    else
      var front, last := faqs[..|faqs| - 1], faqs[|faqs| - 1];
      assert faqs == front + [last];
      var m := MaxOrder(front, sectionId);
      if last.sectionId == sectionId && last.order > m then last.order else m
  }

  /** The order `handleCreateFaq` gives a new FAQ: past every order in its
      section, and 0 when no order there is 0 or more. */
  function NextOrder(faqs: seq<Faq>, sectionId: Id): (r: int)
    ensures r >= 0
    ensures forall f | f in faqs && f.sectionId == sectionId :: f.order < r
    ensures r == 0 || exists f | f in faqs :: f.sectionId == sectionId && f.order == r - 1
  {
    MaxOrder(faqs, sectionId) + 1
  }

  /** The least order above the section's orders that is not negative. */
  lemma NextOrderIsLeast(faqs: seq<Faq>, sectionId: Id, k: int)
    requires k >= 0 && forall f | f in faqs && f.sectionId == sectionId :: f.order < k
    ensures NextOrder(faqs, sectionId) <= k
  {
  }

  // ---------------------------------------------------------------------
  // Optimistic handlers
  // ---------------------------------------------------------------------

  /** The FAQ shown until the server answers a create. */
  function TempFaq(faqs: seq<Faq>, tempId: Id, sectionId: Id, data: FaqData, now: int): (r: Faq)
    ensures r.id == tempId && r.sectionId == sectionId
    ensures r.question == data.question && r.answer == data.answer && r.notes == data.notes
    ensures forall f | f in faqs && f.sectionId == sectionId :: f.order < r.order
  {
    Faq(tempId, sectionId, data.question, data.answer, data.notes, NextOrder(faqs, sectionId), now, now)
  }

  /** `handleCreateFaq`, start: the temporary FAQ is appended. */
  function BeginCreateFaq(faqs: seq<Faq>, tempId: Id, sectionId: Id, data: FaqData, now: int): (r: seq<Faq>)
    ensures r == faqs + [TempFaq(faqs, tempId, sectionId, data, now)]
  {
    faqs + [TempFaq(faqs, tempId, sectionId, data, now)]
  }

  /** A create that fails with nothing in between leaves the FAQs as they
      were; one that succeeds leaves them with the saved row at the end. */
  lemma CreateFaqSettles(faqs: seq<Faq>, tempId: Id, sectionId: Id, data: FaqData, now: int, reply: Reply<Faq>)
    requires !HasId(faqs, tempId, FaqId)
    ensures reply.Failed? ==> SettleCreate(BeginCreateFaq(faqs, tempId, sectionId, data, now), tempId, reply, FaqId) == faqs
    ensures reply.Saved? ==> SettleCreate(BeginCreateFaq(faqs, tempId, sectionId, data, now), tempId, reply, FaqId) == faqs + [reply.row]
  {
    CreateThenSettle(faqs, TempFaq(faqs, tempId, sectionId, data, now), reply, FaqId);
  }

  /** The edit applied to a FAQ: the form's texts replace its question,
      answer and notes, and it is stamped `now`; id, section and order stay. */
  function FaqPatch(data: FaqData, now: int): Faq -> Faq {
    (f: Faq) => f.(question := data.question, answer := data.answer, notes := data.notes, updatedAt := now)
  }

  /** `handleUpdateFaq`, start: nothing for an unknown id; otherwise the
      FAQ takes the new texts and time, and the old entry is kept. */
  function BeginUpdateFaq(faqs: seq<Faq>, id: Id, data: FaqData, now: int): (r: Option<(seq<Faq>, Faq)>)
    ensures r.None? <==> !HasId(faqs, id, FaqId)
    ensures r.Some? ==> |r.value.0| == |faqs| && r.value.1 in faqs && r.value.1.id == id
    ensures r.Some? ==> forall i | 0 <= i < |faqs| ::
              r.value.0[i] == if faqs[i].id == id
                              then faqs[i].(question := data.question, answer := data.answer,
                                            notes := data.notes, updatedAt := now)
                              else faqs[i]
  {
    BeginUpdate(faqs, id, FaqPatch(data, now), FaqId)
  }

  /** A failed FAQ update with nothing in between restores the list. */
  lemma UpdateFaqReverts(faqs: seq<Faq>, id: Id, data: FaqData, now: int)
    requires IdsDistinct(faqs, FaqId) && HasId(faqs, id, FaqId)
    ensures var (patched, prev) := BeginUpdateFaq(faqs, id, data, now).value;
            RevertUpdate(patched, id, prev, FaqId) == faqs
  {
    UpdateThenRevert(faqs, id, FaqPatch(data, now), FaqId);
  }

  /** A failed FAQ delete with nothing in between gives back the same FAQs
      (the deleted one last). */
  lemma DeleteFaqReverts(faqs: seq<Faq>, id: Id)
    requires IdsDistinct(faqs, FaqId)
    ensures var (rest, prev) := BeginDelete(faqs, id, FaqId);
            multiset(RevertDelete(rest, prev)) == multiset(faqs)
  {
    DeleteThenRevert(faqs, id, FaqId);
  }

  /** `handleCreateSection`, start: nothing for a blank name; otherwise a
      section with the trimmed name and the current count as its order is
      appended. */
  function BeginCreateSection(sections: seq<Section>, tempId: Id, name: string, now: int): (r: Option<seq<Section>>)
    ensures r.None? <==> IsBlank(name)
    ensures r.Some? ==> r.value == sections + [Section(tempId, Trim(name), |sections|, now)]
  {
    if Trim(name) == "" then None else Some(sections + [Section(tempId, Trim(name), |sections|, now)])
  }

  /** A section create settles like a FAQ create. */
  lemma CreateSectionSettles(sections: seq<Section>, tempId: Id, name: string, now: int, reply: Reply<Section>)
    requires !HasId(sections, tempId, SectionId) && !IsBlank(name)
    ensures reply.Failed? ==> SettleCreate(BeginCreateSection(sections, tempId, name, now).value, tempId, reply, SectionId) == sections
    ensures reply.Saved? ==> SettleCreate(BeginCreateSection(sections, tempId, name, now).value, tempId, reply, SectionId) == sections + [reply.row]
  {
    CreateThenSettle(sections, Section(tempId, Trim(name), |sections|, now), reply, SectionId);
  }

  function SectionPatch(name: string): Section -> Section {
    (s: Section) => s.(name := name)
  }

  /** A failed rename with nothing in between restores the sections. */
  lemma UpdateSectionReverts(sections: seq<Section>, id: Id, name: string)
    requires IdsDistinct(sections, SectionId) && HasId(sections, id, SectionId)
    ensures var (patched, prev) := BeginUpdate(sections, id, SectionPatch(name), SectionId).value;
            && (forall i | 0 <= i < |sections| :: sections[i].id == id ==> patched[i] == sections[i].(name := name))
            && RevertUpdate(patched, id, prev, SectionId) == sections
  {
    UpdateThenRevert(sections, id, SectionPatch(name), SectionId);
  }

  /** `handleDeleteSection`, start (after the confirmation): the section
      and its FAQs disappear; kept are the section found and its FAQs. */
  function BeginDeleteSection(sections: seq<Section>, faqs: seq<Faq>, id: Id): (r: (seq<Section>, seq<Faq>, Option<Section>, seq<Faq>))
    ensures r.0 == RemoveById(sections, id, SectionId) && r.2 == FindById(sections, id, SectionId)
    ensures forall f | f in r.1 :: f in faqs && f.sectionId != id
    ensures forall f | f in faqs && f.sectionId != id :: f in r.1
    ensures r.3 == SectionOnly(faqs, id)
    ensures multiset(r.1) + multiset(r.3) == multiset(faqs)
  {
    SplitBySection(faqs, id);
    (RemoveById(sections, id, SectionId), OtherSections(faqs, id), FindById(sections, id, SectionId), SectionOnly(faqs, id))
  }

  /** The FAQs outside a section, in order. */
  function OtherSections(faqs: seq<Faq>, sectionId: Id): (r: seq<Faq>)
    ensures forall f | f in r :: f in faqs && f.sectionId != sectionId
    ensures forall f | f in faqs && f.sectionId != sectionId :: f in r
    ensures forall f :: multiset(r)[f] == if f.sectionId != sectionId then multiset(faqs)[f] else 0
  {
    if |faqs| == 0 then []
    else
      var front, last := faqs[..|faqs| - 1], faqs[|faqs| - 1];
      assert faqs == front + [last];
      if last.sectionId != sectionId then OtherSections(front, sectionId) + [last] else OtherSections(front, sectionId)
  }

  /** A section's FAQs and the others make up all FAQs. */
  lemma SplitBySection(faqs: seq<Faq>, sectionId: Id)
    ensures multiset(OtherSections(faqs, sectionId)) + multiset(SectionOnly(faqs, sectionId)) == multiset(faqs)
  {
    var both := multiset(OtherSections(faqs, sectionId)) + multiset(SectionOnly(faqs, sectionId));
    assert forall f :: both[f] == multiset(faqs)[f];
  }

  /** `handleDeleteSection`, failure: when the section had been found, it
      goes back at the end and its FAQs after the others. */
  function RevertDeleteSection(sections: seq<Section>, faqs: seq<Faq>, prevSection: Option<Section>, prevFaqs: seq<Faq>): (r: (seq<Section>, seq<Faq>))
    ensures prevSection.None? ==> r == (sections, faqs)
    ensures prevSection.Some? ==> r == (sections + [prevSection.value], faqs + prevFaqs)
  {
    if prevSection.Some? then (sections + [prevSection.value], faqs + prevFaqs) else (sections, faqs)
  }

  /** A section delete that fails with nothing in between gives back the
      same sections and the same FAQs. */
  lemma DeleteSectionReverts(sections: seq<Section>, faqs: seq<Faq>, id: Id)
    requires IdsDistinct(sections, SectionId) && HasId(sections, id, SectionId)
    ensures var (restSections, restFaqs, prevSection, prevFaqs) := BeginDeleteSection(sections, faqs, id);
            var (s, f) := RevertDeleteSection(restSections, restFaqs, prevSection, prevFaqs);
            multiset(s) == multiset(sections) && multiset(f) == multiset(faqs)
  {
    RemoveFound(sections, id, SectionId);
  }

  /** A failed delete of a section id that is not listed restores nothing:
      the sections are as before, but the FAQs filed under that id stay
      gone, because the rollback runs only when the section was found. */
  lemma DeleteUnknownSectionDropsFaqs(sections: seq<Section>, faqs: seq<Faq>, id: Id)
    requires !HasId(sections, id, SectionId)
    ensures var (restSections, restFaqs, prevSection, prevFaqs) := BeginDeleteSection(sections, faqs, id);
            var (s, f) := RevertDeleteSection(restSections, restFaqs, prevSection, prevFaqs);
            s == RemoveById(sections, id, SectionId) && f == OtherSections(faqs, id)
            && multiset(f) + multiset(SectionOnly(faqs, id)) == multiset(faqs)
  {
  }

  /** `handleCreateVariable`, start: the temporary variable is appended. */
  function BeginCreateVariable(vars: seq<Variable>, tempId: Id, key: string, value: string): (r: seq<Variable>)
    ensures r == vars + [Variable(tempId, key, value)]
  {
    vars + [Variable(tempId, key, value)]
  }

  /** A variable create settles like a FAQ create. */
  lemma CreateVariableSettles(vars: seq<Variable>, tempId: Id, key: string, value: string, reply: Reply<Variable>)
    requires !HasId(vars, tempId, VariableId)
    ensures reply.Failed? ==> SettleCreate(BeginCreateVariable(vars, tempId, key, value), tempId, reply, VariableId) == vars
    ensures reply.Saved? ==> SettleCreate(BeginCreateVariable(vars, tempId, key, value), tempId, reply, VariableId) == vars + [reply.row]
  {
    CreateThenSettle(vars, Variable(tempId, key, value), reply, VariableId);
  }

  function VariablePatch(key: string, value: string): Variable -> Variable {
    (v: Variable) => v.(key := key, value := value)
  }

  /** A failed variable update with nothing in between restores the list. */
  lemma UpdateVariableReverts(vars: seq<Variable>, id: Id, key: string, value: string)
    requires IdsDistinct(vars, VariableId) && HasId(vars, id, VariableId)
    ensures var (patched, prev) := BeginUpdate(vars, id, VariablePatch(key, value), VariableId).value;
            && (forall i | 0 <= i < |vars| :: vars[i].id == id ==> patched[i] == vars[i].(key := key, value := value))
            && RevertUpdate(patched, id, prev, VariableId) == vars
  {
    UpdateThenRevert(vars, id, VariablePatch(key, value), VariableId);
  }

  /** A failed variable delete with nothing in between gives back the same
      variables. */
  lemma DeleteVariableReverts(vars: seq<Variable>, id: Id)
    requires IdsDistinct(vars, VariableId)
    ensures var (rest, prev) := BeginDelete(vars, id, VariableId);
            multiset(RevertDelete(rest, prev)) == multiset(vars)
  {
    DeleteThenRevert(vars, id, VariableId);
  }
}

=== FILE: optimistic_lists.dfy ===
/**
  Lists of records keyed by an id, as the optimistic handlers of the legacy
  editor page change them: `find` by id, `filter` out an id, `map` the
  entries with an id, and the server reply that settles a temporary row.
 */
module OptimisticLists {
  import opened Outcomes
  import opened IdLists
  import opened Subsequences

  /** No two entries share an id. */
  predicate IdsDistinct<T>(s: seq<T>, idOf: T -> Id) {
    forall i, j | 0 <= i < j < |s| :: idOf(s[i]) != idOf(s[j])
  }

  predicate HasId<T>(s: seq<T>, id: Id, idOf: T -> Id) {
    exists i | 0 <= i < |s| :: idOf(s[i]) == id
  }

  /** `s.find(x => x.id === id)`: the first entry with that id. */
  function FindById<T(==)>(s: seq<T>, id: Id, idOf: T -> Id): (r: Option<T>)
    ensures r.None? <==> !HasId(s, id, idOf)
    ensures r.Some? ==> exists i | 0 <= i < |s| ::
              s[i] == r.value && idOf(s[i]) == id && forall j | 0 <= j < i :: idOf(s[j]) != id
  {
    if |s| == 0 then None
    else if idOf(s[0]) == id then
      assert s[0] == s[0];
      Some(s[0])
    else
      var r := FindById(s[1..], id, idOf);
      if r.Some? then
        var k :| 0 <= k < |s[1..]| && s[1..][k] == r.value && idOf(s[1..][k]) == id
                 && forall j | 0 <= j < k :: idOf(s[1..][j]) != id;
        assert s[k + 1] == r.value;
        assert forall j | 0 <= j < k + 1 :: idOf(s[j]) != id by {
          forall j | 0 <= j < k + 1 ensures idOf(s[j]) != id {
            if j > 0 { assert s[j] == s[1..][j - 1]; }
          }
        }
        r
      else
        assert !HasId(s, id, idOf) by {
          forall i | 0 <= i < |s| ensures idOf(s[i]) != id {
            if i > 0 { assert s[i] == s[1..][i - 1]; }
          }
        }
        r
  }

  /** The entries whose id is not `id`, in list order, each as often as it
      occurs in `s`. */
  function RemoveById<T(==)>(s: seq<T>, id: Id, idOf: T -> Id): (r: seq<T>)
    ensures forall x | x in r :: x in s && idOf(x) != id
    ensures forall x | x in s && idOf(x) != id :: x in r
    ensures !HasId(r, id, idOf)
    ensures |r| <= |s|
    ensures IsSubseq(r, s)
    ensures forall x | x in s :: multiset(r)[x] == if idOf(x) != id then multiset(s)[x] else 0
  {
    if |s| == 0 then []
    else
      var front, last := s[..|s| - 1], s[|s| - 1];
      assert s == front + [last];
      var prev := RemoveById(front, id, idOf);
      if idOf(last) == id then SubseqSkip(prev, front, last); prev
      else SubseqTake(prev, front, last); prev + [last]
  }

  /** Removing an id no entry has changes nothing. */
  lemma {:induction false} RemoveAbsent<T>(s: seq<T>, id: Id, idOf: T -> Id)
    requires !HasId(s, id, idOf)
    ensures RemoveById(s, id, idOf) == s
  {
    if |s| > 0 {
      var front := s[..|s| - 1];
      assert s == front + [s[|s| - 1]];
      assert !HasId(front, id, idOf) by {
        forall i | 0 <= i < |front| ensures idOf(front[i]) != id {
          assert front[i] == s[i];
        }
      }
      RemoveAbsent(front, id, idOf);
      assert idOf(s[|s| - 1]) != id;
      assert RemoveById(s, id, idOf) == RemoveById(front, id, idOf) + [s[|s| - 1]];
    }
  }

  /** An entry at the end that lacks the id does not change what `find`
      returns. */
  lemma {:induction false} FindSkipsLast<T>(s: seq<T>, id: Id, idOf: T -> Id)
    requires |s| > 0 && idOf(s[|s| - 1]) != id
    ensures FindById(s, id, idOf) == FindById(s[..|s| - 1], id, idOf)
  {
    if |s| > 1 && idOf(s[0]) != id {
      assert s[1..][..|s| - 2] == s[..|s| - 1][1..];
      FindSkipsLast(s[1..], id, idOf);
    }
  }

  /** With distinct ids, an entry at the end that has the id is the one
      `find` returns, and no earlier entry has it. */
  lemma FindAtLast<T>(s: seq<T>, id: Id, idOf: T -> Id)
    requires IdsDistinct(s, idOf) && |s| > 0 && idOf(s[|s| - 1]) == id
    ensures FindById(s, id, idOf) == Some(s[|s| - 1])
    ensures !HasId(s[..|s| - 1], id, idOf)
  {
    assert HasId(s, id, idOf);
    var front := s[..|s| - 1];
    forall i | 0 <= i < |front| ensures idOf(front[i]) != id {
      assert front[i] == s[i];
    }
  }

  lemma IdsDistinctFront<T>(s: seq<T>, idOf: T -> Id)
    requires IdsDistinct(s, idOf) && |s| > 0
    ensures IdsDistinct(s[..|s| - 1], idOf)
  {
    var front := s[..|s| - 1];
    forall i, j | 0 <= i < j < |front| ensures idOf(front[i]) != idOf(front[j]) {
      assert front[i] == s[i] && front[j] == s[j];
    }
  }

  /** Where the entries are distinct by id, removing one id drops exactly
      the one entry found for it. */
  lemma {:induction false} RemoveFound<T>(s: seq<T>, id: Id, idOf: T -> Id)
    requires IdsDistinct(s, idOf) && FindById(s, id, idOf).Some?
    ensures multiset(RemoveById(s, id, idOf)) + multiset{FindById(s, id, idOf).value} == multiset(s)
  {
    var front, last := s[..|s| - 1], s[|s| - 1];
    assert s == front + [last];
    IdsDistinctFront(s, idOf);
    if idOf(last) == id {
      FindAtLast(s, id, idOf);
      RemoveAbsent(front, id, idOf);
    } else {
      FindSkipsLast(s, id, idOf);
      RemoveFound(front, id, idOf);
    }
  }

  /** Replaces every entry with id `id` by `f` of it (`map` with a
      conditional). */
  function MapById<T(==)>(s: seq<T>, id: Id, f: T -> T, idOf: T -> Id): (r: seq<T>)
    ensures |r| == |s|
    ensures forall i | 0 <= i < |s| :: idOf(s[i]) != id ==> r[i] == s[i]
    ensures forall i | 0 <= i < |s| :: idOf(s[i]) == id ==> r[i] == f(s[i])
  {
    seq(|s|, i requires 0 <= i < |s| => if idOf(s[i]) == id then f(s[i]) else s[i])
  }

  /** The constant function: what `map` puts in place of every hit when it
      writes back a saved record. */
  function Always<T>(x: T): T -> T {
    _ => x
  }

  /** The reply of the server to a create. */
  datatype Reply<T> = Saved(row: T) | Failed

  /** The settling step of an optimistic create: the temporary entry is
      replaced by the saved row, or removed when the call failed. */
  function SettleCreate<T(==)>(s: seq<T>, tempId: Id, reply: Reply<T>, idOf: T -> Id): (r: seq<T>)
    ensures reply.Failed? ==> r == RemoveById(s, tempId, idOf)
    ensures reply.Saved? ==> |r| == |s| && forall i | 0 <= i < |s| ::
              r[i] == if idOf(s[i]) == tempId then reply.row else s[i]
  {
    match reply
    case Saved(row) => MapById(s, tempId, Always(row), idOf)
    case Failed => RemoveById(s, tempId, idOf)
  }

  /** With a fresh temporary id and nothing in between: a failed create
      leaves the list as it was, a saved one appends the saved row. */
  lemma CreateThenSettle<T>(s: seq<T>, temp: T, reply: Reply<T>, idOf: T -> Id)
    requires !HasId(s, idOf(temp), idOf)
    ensures reply.Failed? ==> SettleCreate(s + [temp], idOf(temp), reply, idOf) == s
    ensures reply.Saved? ==> SettleCreate(s + [temp], idOf(temp), reply, idOf) == s + [reply.row]
  {
    var t := s + [temp];
    assert t[..|t| - 1] == s;
    if reply.Failed? {
      RemoveAbsent(s, idOf(temp), idOf);
    } else {
      var r := SettleCreate(t, idOf(temp), reply, idOf);
      forall i | 0 <= i < |t| ensures r[i] == (s + [reply.row])[i] {
        if i < |s| {
          assert t[i] == s[i];
        }
      }
    }
  }

  /** The optimistic half of an update: nothing (and no server call) for an
      unknown id; otherwise the patched list and the entry to restore. */
  function BeginUpdate<T(==)>(s: seq<T>, id: Id, patch: T -> T, idOf: T -> Id): (r: Option<(seq<T>, T)>)
    ensures r.None? <==> !HasId(s, id, idOf)
    ensures r.Some? ==> r.value.0 == MapById(s, id, patch, idOf) && Some(r.value.1) == FindById(s, id, idOf)
  {
    match FindById(s, id, idOf)
    case None => None
    case Some(prev) => Some((MapById(s, id, patch, idOf), prev))
  }

  /** The failure half of an update: the entry is written back. */
  function RevertUpdate<T(==)>(s: seq<T>, id: Id, prev: T, idOf: T -> Id): (r: seq<T>)
    ensures |r| == |s|
    ensures forall i | 0 <= i < |s| :: r[i] == if idOf(s[i]) == id then prev else s[i]
  {
    MapById(s, id, Always(prev), idOf)
  }

  /** An update that fails with nothing in between restores the list, when
      ids are distinct and the patch keeps the id. */
  lemma UpdateThenRevert<T>(s: seq<T>, id: Id, patch: T -> T, idOf: T -> Id)
    requires IdsDistinct(s, idOf)
    requires forall i | 0 <= i < |s| :: idOf(patch(s[i])) == idOf(s[i])
    requires BeginUpdate(s, id, patch, idOf).Some?
    ensures var (patched, prev) := BeginUpdate(s, id, patch, idOf).value;
            RevertUpdate(patched, id, prev, idOf) == s
  {
    var (patched, prev) := BeginUpdate(s, id, patch, idOf).value;
    var k :| 0 <= k < |s| && s[k] == prev && idOf(s[k]) == id;
    var r := RevertUpdate(patched, id, prev, idOf);
    forall i | 0 <= i < |s| ensures r[i] == s[i] {
      if idOf(s[i]) == id {
        assert i == k;
      }
    }
  }

  /** The optimistic half of a delete: the list without the id, and the
      entry to put back. */
  function BeginDelete<T(==)>(s: seq<T>, id: Id, idOf: T -> Id): (r: (seq<T>, Option<T>))
    ensures r.0 == RemoveById(s, id, idOf) && r.1 == FindById(s, id, idOf)
  {
    (RemoveById(s, id, idOf), FindById(s, id, idOf))
  }

  /** The failure half of a delete: the saved entry goes back at the end. */
  function RevertDelete<T(==)>(s: seq<T>, prev: Option<T>): (r: seq<T>)
    ensures prev.None? ==> r == s
    ensures prev.Some? ==> r == s + [prev.value]
  {
    if prev.Some? then s + [prev.value] else s
  }

  /** A delete that fails with nothing in between keeps the same entries,
      the deleted one moved to the end. */
  lemma DeleteThenRevert<T>(s: seq<T>, id: Id, idOf: T -> Id)
    requires IdsDistinct(s, idOf)
    ensures var (rest, prev) := BeginDelete(s, id, idOf);
            multiset(RevertDelete(rest, prev)) == multiset(s)
  {
    var (rest, prev) := BeginDelete(s, id, idOf);
    if prev.Some? {
      RemoveFound(s, id, idOf);
    } else {
      RemoveAbsent(s, id, idOf);
    }
  }
}

=== FILE: outcomes.dfy ===
/**
  Optional values and success/failure results, used wherever the modelled
  code returns `undefined`/`null` or throws.
 */
module Outcomes {

  /** A value that may be absent (`undefined` or `null` in the source). */
  datatype Option<+T> = None | Some(value: T) {

    /** The wrapped value, or `default` when absent (the `??` operator). */
    function GetOr(default: T): T {
      match this
      case Some(v) => v
      case None => default
    }
  }

  /** The outcome of an operation that may throw. */
  datatype Result<+T, +E> = Ok(value: T) | Err(error: E)
}

=== FILE: rules_history.dfy ===
/**
  The preview of an old custom-rules version in the history dialog
  (src/components/custom-rules-history-modal.tsx).
 */
module RulesHistory {
  import opened JsText

  /** The preview length the dialog uses when none is given. */
  const DefaultMaxLength: nat := 100

  /** `truncateContent`: short content as it is; longer content cut to its
      first `maxLength` characters, trimmed, with an ellipsis. */
  function Truncate(content: string, maxLength: nat): (r: string)
    ensures |content| <= maxLength ==> r == content
    ensures |content| > maxLength ==> r == Trim(content[..maxLength]) + "..."
    ensures |r| <= maxLength + 3
  {
    if |content| <= maxLength then content
    else Trim(content[..maxLength]) + "..."
  }

  /** The preview with the default length. */
  function Preview(content: string): (r: string)
    ensures |r| <= DefaultMaxLength + 3
    ensures |content| <= DefaultMaxLength ==> r == content
  {
    Truncate(content, DefaultMaxLength)
  }

  /** A cut preview shows one contiguous piece of the kept prefix, followed
      by the ellipsis, and the piece starts and ends with visible text. */
  lemma TruncatedIsPieceOfPrefix(content: string, maxLength: nat)
    requires |content| > maxLength
    ensures exists a, b | 0 <= a <= b <= maxLength :: Truncate(content, maxLength) == content[a..b] + "..."
    ensures IsTrimmed(Truncate(content, maxLength)[..|Truncate(content, maxLength)| - 3])
  {
    var prefix := content[..maxLength];
    var t := Trim(prefix);
    var a, b := TrimIsSlice(prefix);
    PieceOfPrefix(content, maxLength, a, b);
    var r := Truncate(content, maxLength);
    assert r == t + "...";
    DropEllipsis(t);
  }

  lemma PieceOfPrefix(content: string, maxLength: nat, a: nat, b: nat)
    requires a <= b <= maxLength <= |content|
    ensures content[..maxLength][a..b] == content[a..b]
  {
  }

  lemma DropEllipsis(t: string)
    ensures (t + "...")[..|t|] == t
  {
  }
}

=== FILE: search_nav.dfy ===
/**
  In-page search navigation (src/hooks/use-search-navigation.ts): counting
  the matches of a query in a text, the flat list of match locations in page
  order, the DOM id of each location, and next/previous navigation.
 */
module SearchNav {
  import opened Outcomes
  import opened JsText
  import opened IdLists

  datatype Faq = Faq(id: Id, sectionId: Id, question: string, answer: string, notes: string, order: int)
  datatype Section = Section(id: Id, name: string)

  datatype Field = QuestionField | AnswerField | NotesField
  datatype TitleKind = CustomRulesTitle | VariablesTitle

  /** Where one match sits on the page. */
  datatype MatchLocation =
    | FaqMatch(faqId: Id, field: Field, matchIndex: nat)
    | TitleMatch(kind: TitleKind, matchIndex: nat)
    | SectionNameMatch(sectionId: Id, matchIndex: nat)

  // ---------------------------------------------------------------------
  // Counting
  // ---------------------------------------------------------------------

  /** The number of matches the page reports for `query` in `text`: every
      position where the lower-cased query starts in the lower-cased text,
      overlapping ones included; none for a blank query. */
  function CountMatches(text: string, query: string): nat {
    if IsBlank(query) then 0 else CountFrom(Lower(text), Lower(query), 0)
  }

  /** The count is the number of distinct starting positions of the
      query, ignoring ASCII case. */
  lemma CountMatchesIsOccurrences(text: string, query: string)
    ensures IsBlank(query) ==> CountMatches(text, query) == 0
    ensures !IsBlank(query) ==> CountMatches(text, query) == |Occurrences(Lower(text), Lower(query), 0)|
  {
    if !IsBlank(query) {
      CountFromIsOccurrences(Lower(text), Lower(query), 0);
    }
  }

  /** `countMatchesInText`: repeated `indexOf`, resuming one position after
      each hit. */
  method CountMatchesInText(text: string, query: string) returns (count: nat)
    ensures IsBlank(query) ==> count == 0
    ensures count == CountMatches(text, query)
  {
    if IsBlank(query) {
      return 0;
    }
    var lowerText := Lower(text);
    var lowerQuery := Lower(query);
    count := 0;
    var index := IndexOf(lowerText, lowerQuery, 0);
    CountFromNextOccurrence(lowerText, lowerQuery, 0);
    while index != -1
      invariant index == -1 || (0 <= index && MatchesAt(lowerText, lowerQuery, index))
      invariant count + (if index == -1 then 0 else CountFrom(lowerText, lowerQuery, index))
                == CountFrom(lowerText, lowerQuery, 0)
      decreases if index == -1 then 0 else |lowerText| + 1 - index
    {
      count := count + 1;
      CountFromNextOccurrence(lowerText, lowerQuery, index + 1);
      index := IndexOf(lowerText, lowerQuery, index + 1);
    }
  }

  // ---------------------------------------------------------------------
  // Match ids
  // ---------------------------------------------------------------------

  function FieldName(f: Field): string {
    match f
    case QuestionField => "question"
    case AnswerField => "answer"
    case NotesField => "notes"
  }

  function TitleName(k: TitleKind): string {
    match k
    case CustomRulesTitle => "custom-rules"
    case VariablesTitle => "variables"
  }

  /** The part of a match id that names the text the match is in. */
  function MatchPrefix(m: MatchLocation): string {
    match m
    case FaqMatch(faqId, field, _) => "match-" + faqId + "-" + FieldName(field) + "-"
    case TitleMatch(kind, _) => "match-title-" + TitleName(kind) + "-"
    case SectionNameMatch(sectionId, _) => "match-section-name-" + sectionId + "-"
  }

  /** `getMatchId`: the id of the highlighted element for a match. */
  function MatchId(m: MatchLocation): (r: string)
    ensures MatchPrefix(m) <= r
    ensures r[|MatchPrefix(m)|..] == NatToString(m.matchIndex)
  {
    MatchPrefix(m) + NatToString(m.matchIndex)
  }

  /** Two matches in the same text get different ids. */
  lemma MatchIdsDistinct(m1: MatchLocation, m2: MatchLocation)
    requires MatchPrefix(m1) == MatchPrefix(m2) && m1.matchIndex != m2.matchIndex
    ensures MatchId(m1) != MatchId(m2)
  {
    if MatchId(m1) == MatchId(m2) {
      var n := |MatchPrefix(m1)|;
      assert NatToString(m1.matchIndex) == MatchId(m1)[n..] == MatchId(m2)[n..] == NatToString(m2.matchIndex);
      NatToStringInjective(m1.matchIndex, m2.matchIndex);
    }
  }

  // ---------------------------------------------------------------------
  // The match list
  // ---------------------------------------------------------------------

  /** `n` locations in the same text as `at`, numbered 0 to n - 1. */
  function Run(n: nat, at: MatchLocation): (r: seq<MatchLocation>)
    ensures |r| == n
    ensures forall i | 0 <= i < n :: r[i] == at.(matchIndex := i)
  {
    if n == 0 then [] else Run(n - 1, at) + [at.(matchIndex := n - 1)]
  }

  function FieldText(faq: Faq, f: Field): string {
    match f
    case QuestionField => faq.question
    case AnswerField => faq.answer
    case NotesField => faq.notes
  }

  function TitleText(k: TitleKind): string {
    match k
    case CustomRulesTitle => "Custom Rules"
    case VariablesTitle => "Variables"
  }

  function FieldRun(faq: Faq, f: Field, query: string): seq<MatchLocation> {
    Run(CountMatches(FieldText(faq, f), query), FaqMatch(faq.id, f, 0))
  }

  function FaqRun(faq: Faq, query: string): seq<MatchLocation> {
    FieldRun(faq, QuestionField, query) + FieldRun(faq, AnswerField, query) + FieldRun(faq, NotesField, query)
  }

  function FaqRuns(faqs: seq<Faq>, query: string): seq<MatchLocation> {
    if |faqs| == 0 then []
    else FaqRuns(faqs[..|faqs| - 1], query) + FaqRun(faqs[|faqs| - 1], query)
  }

  function SectionRun(s: Section, query: string): seq<MatchLocation> {
    Run(CountMatches(s.name, query), SectionNameMatch(s.id, 0))
  }

  function SectionRuns(sections: seq<Section>, query: string): seq<MatchLocation> {
    if |sections| == 0 then []
    else SectionRuns(sections[..|sections| - 1], query) + SectionRun(sections[|sections| - 1], query)
  }

  function TitleRun(k: TitleKind, query: string): seq<MatchLocation> {
    Run(CountMatches(TitleText(k), query), TitleMatch(k, 0))
  }

  /** The page order of matches: the two fixed titles, the section names in
      order, then each FAQ's question, answer and notes. */
  function MatchList(faqs: seq<Faq>, sections: seq<Section>, query: string): seq<MatchLocation> {
    if IsBlank(query) then []
    else
      TitleRun(CustomRulesTitle, query) + TitleRun(VariablesTitle, query)
      + SectionRuns(sections, query) + FaqRuns(faqs, query)
  }

  /** Pushes the locations numbered 0 to n - 1 in the text of `at`. */
  method PushRun(all: seq<MatchLocation>, n: nat, at: MatchLocation) returns (r: seq<MatchLocation>)
    ensures r == all + Run(n, at)
  {
    r := all;
    for i := 0 to n
      invariant r == all + Run(i, at)
    {
      r := r + [at.(matchIndex := i)];
    }
  }

  method PushFaq(all: seq<MatchLocation>, faq: Faq, query: string) returns (r: seq<MatchLocation>)
    ensures r == all + FaqRun(faq, query)
  {
    ghost var q, a, n := FieldRun(faq, QuestionField, query), FieldRun(faq, AnswerField, query), FieldRun(faq, NotesField, query);
    var questionCount := CountMatchesInText(faq.question, query);
    r := PushRun(all, questionCount, FaqMatch(faq.id, QuestionField, 0));
    assert r == all + q;
    var answerCount := CountMatchesInText(faq.answer, query);
    r := PushRun(r, answerCount, FaqMatch(faq.id, AnswerField, 0));
    assert r == (all + q) + a;
    var notesCount := CountMatchesInText(faq.notes, query);
    r := PushRun(r, notesCount, FaqMatch(faq.id, NotesField, 0));
    assert r == ((all + q) + a) + n;
    AppendAssoc(all, q, a);
    AppendAssoc(all, q + a, n);
  }

  lemma AppendAssoc(a: seq<MatchLocation>, b: seq<MatchLocation>, c: seq<MatchLocation>)
    ensures a + (b + c) == (a + b) + c
  {
  }

  lemma SectionRunsSnoc(sections: seq<Section>, k: nat, query: string)
    requires k < |sections|
    ensures SectionRuns(sections[..k + 1], query) == SectionRuns(sections[..k], query) + SectionRun(sections[k], query)
  {
    assert sections[..k + 1][..k] == sections[..k];
  }

  lemma FaqRunsSnoc(faqs: seq<Faq>, k: nat, query: string)
    requires k < |faqs|
    ensures FaqRuns(faqs[..k + 1], query) == FaqRuns(faqs[..k], query) + FaqRun(faqs[k], query)
  {
    assert faqs[..k + 1][..k] == faqs[..k];
  }

  method PushSections(all: seq<MatchLocation>, sections: seq<Section>, query: string) returns (r: seq<MatchLocation>)
    ensures r == all + SectionRuns(sections, query)
  {
    r := all;
    for k := 0 to |sections|
      invariant r == all + SectionRuns(sections[..k], query)
    {
      assert sections[..k + 1][..k] == sections[..k];
      var section := sections[k];
      var sectionNameCount := CountMatchesInText(section.name, query);
      ghost var before := r;
      r := PushRun(r, sectionNameCount, SectionNameMatch(section.id, 0));
      SectionRunsSnoc(sections, k, query);
      AppendAssoc(all, SectionRuns(sections[..k], query), SectionRun(section, query));
    }
    assert sections[..|sections|] == sections;
  }

  method PushFaqs(all: seq<MatchLocation>, faqs: seq<Faq>, query: string) returns (r: seq<MatchLocation>)
    ensures r == all + FaqRuns(faqs, query)
  {
    r := all;
    for k := 0 to |faqs|
      invariant r == all + FaqRuns(faqs[..k], query)
    {
      assert faqs[..k + 1][..k] == faqs[..k];
      r := PushFaq(r, faqs[k], query);
      FaqRunsSnoc(faqs, k, query);
      AppendAssoc(all, FaqRuns(faqs[..k], query), FaqRun(faqs[k], query));
    }
    assert faqs[..|faqs|] == faqs;
  }

  /** The `matches` memo: the flat list of every match on the page. */
  method BuildMatches(faqs: seq<Faq>, sections: seq<Section>, query: string) returns (all: seq<MatchLocation>)
    ensures all == MatchList(faqs, sections, query)
  {
    if IsBlank(query) {
      return [];
    }
    var customRulesCount := CountMatchesInText("Custom Rules", query);
    all := PushRun([], customRulesCount, TitleMatch(CustomRulesTitle, 0));
    assert all == TitleRun(CustomRulesTitle, query);
    var variablesCount := CountMatchesInText("Variables", query);
    all := PushRun(all, variablesCount, TitleMatch(VariablesTitle, 0));
    ghost var titles := all;
    all := PushSections(all, sections, query);
    ghost var heads := all;
    all := PushFaqs(all, faqs, query);
  }

  /** A match location points at an occurrence that exists: its text is on
      the page and has more matches than the location's index. */
  predicate Located(m: MatchLocation, faqs: seq<Faq>, sections: seq<Section>, query: string) {
    match m
    case TitleMatch(k, i) => i < CountMatches(TitleText(k), query)
    case SectionNameMatch(id, i) => exists s | s in sections :: s.id == id && i < CountMatches(s.name, query)
    case FaqMatch(id, f, i) => exists faq | faq in faqs :: faq.id == id && i < CountMatches(FieldText(faq, f), query)
  }

  lemma SectionRunLocated(section: Section, query: string, all: seq<Section>)
    requires section in all
    ensures forall m | m in SectionRun(section, query) :: Located(m, [], all, query)
  {
    forall m | m in SectionRun(section, query) ensures Located(m, [], all, query) {
      var run := SectionRun(section, query);
      var i :| 0 <= i < |run| && run[i] == m;
      assert m == SectionNameMatch(section.id, i);
    }
  }

  lemma {:induction false} SectionRunsLocated(sections: seq<Section>, query: string, all: seq<Section>)
    requires forall s | s in sections :: s in all
    ensures forall m | m in SectionRuns(sections, query) :: Located(m, [], all, query)
  {
    if |sections| > 0 {
      var front, last := sections[..|sections| - 1], sections[|sections| - 1];
      assert last in sections;
      assert forall s | s in front :: s in sections;
      SectionRunsLocated(front, query, all);
      SectionRunLocated(last, query, all);
      var fr, lr := SectionRuns(front, query), SectionRun(last, query);
      assert SectionRuns(sections, query) == fr + lr;
      forall m: MatchLocation | m in fr + lr ensures Located(m, [], all, query) {
        if m !in fr { assert m in lr; }
      }
    }
  }

  lemma FaqRunLocated(faq: Faq, query: string, all: seq<Faq>)
    requires faq in all
    ensures forall m | m in FaqRun(faq, query) :: Located(m, all, [], query)
  {
    forall f: Field, m | m in FieldRun(faq, f, query) ensures Located(m, all, [], query) {
      var run := FieldRun(faq, f, query);
      var i :| 0 <= i < |run| && run[i] == m;
      assert m == FaqMatch(faq.id, f, i);
    }
  }

  lemma {:induction false} FaqRunsLocated(faqs: seq<Faq>, query: string, all: seq<Faq>)
    requires forall f | f in faqs :: f in all
    ensures forall m | m in FaqRuns(faqs, query) :: Located(m, all, [], query)
  {
    if |faqs| > 0 {
      var front, last := faqs[..|faqs| - 1], faqs[|faqs| - 1];
      assert last in faqs;
      FaqRunsLocated(front, query, all);
      FaqRunLocated(last, query, all);
    }
  }

  /** Whatever else is on the page, a location stays located. */
  lemma LocatedWiden(m: MatchLocation, faqs: seq<Faq>, sections: seq<Section>, query: string)
    ensures Located(m, faqs, [], query) ==> Located(m, faqs, sections, query)
    ensures Located(m, [], sections, query) ==> Located(m, faqs, sections, query)
  {
  }

  /** Every entry of the match list names a text on the page and an
      occurrence index that text has. */
  lemma TitleRunLocated(k: TitleKind, faqs: seq<Faq>, sections: seq<Section>, query: string)
    ensures forall m | m in TitleRun(k, query) :: Located(m, faqs, sections, query)
  {
    forall m | m in TitleRun(k, query) ensures Located(m, faqs, sections, query) {
      var run := TitleRun(k, query);
      var i :| 0 <= i < |run| && run[i] == m;
      assert m == TitleMatch(k, i);
    }
  }

  /** Every entry of the match list names a text on the page and an
      occurrence index that text has. */
  lemma MatchListLocated(faqs: seq<Faq>, sections: seq<Section>, query: string)
    ensures forall m | m in MatchList(faqs, sections, query) :: Located(m, faqs, sections, query)
  {
    if !IsBlank(query) {
      var t1, t2 := TitleRun(CustomRulesTitle, query), TitleRun(VariablesTitle, query);
      var sr, fr := SectionRuns(sections, query), FaqRuns(faqs, query);
      assert MatchList(faqs, sections, query) == t1 + t2 + sr + fr;
      TitleRunLocated(CustomRulesTitle, faqs, sections, query);
      TitleRunLocated(VariablesTitle, faqs, sections, query);
      SectionRunsLocated(sections, query, sections);
      FaqRunsLocated(faqs, query, faqs);
      forall m: MatchLocation | m in t1 + t2 + sr + fr ensures Located(m, faqs, sections, query) {
        LocatedWiden(m, faqs, sections, query);
        if m !in t1 && m !in t2 && m !in sr { assert m in fr; }
      }
    }
  }

  /** Each occurrence in a section name is in the section runs. */
  lemma {:induction false} SectionRunsComplete(sections: seq<Section>, query: string, s: Section, i: nat)
    requires s in sections && i < CountMatches(s.name, query)
    ensures SectionNameMatch(s.id, i) in SectionRuns(sections, query)
  {
    var front, last := sections[..|sections| - 1], sections[|sections| - 1];
    var fr, lr := SectionRuns(front, query), SectionRun(last, query);
    assert SectionRuns(sections, query) == fr + lr;
    if s == last {
      assert lr[i] == SectionNameMatch(s.id, i);
    } else {
      var k :| 0 <= k < |sections| && sections[k] == s;
      assert front[k] == s;
      SectionRunsComplete(front, query, s, i);
    }
  }

  /** Each occurrence in a field of a FAQ is in the FAQ runs. */
  lemma {:induction false} FaqRunsComplete(faqs: seq<Faq>, query: string, faq: Faq, f: Field, i: nat)
    requires faq in faqs && i < CountMatches(FieldText(faq, f), query)
    ensures FaqMatch(faq.id, f, i) in FaqRuns(faqs, query)
  {
    var front, last := faqs[..|faqs| - 1], faqs[|faqs| - 1];
    var fr, lr := FaqRuns(front, query), FaqRun(last, query);
    assert FaqRuns(faqs, query) == fr + lr;
    if faq == last {
      assert FieldRun(faq, f, query)[i] == FaqMatch(faq.id, f, i);
    } else {
      var k :| 0 <= k < |faqs| && faqs[k] == faq;
      assert front[k] == faq;
      FaqRunsComplete(front, query, faq, f, i);
    }
  }

  /** The converse of `MatchListLocated`: every occurrence on the page, in
      a title, a section name or a field of a FAQ, is in the match list. */
  lemma MatchListComplete(faqs: seq<Faq>, sections: seq<Section>, query: string)
    ensures forall m | Located(m, faqs, sections, query) :: m in MatchList(faqs, sections, query)
  {
    forall m | Located(m, faqs, sections, query) ensures m in MatchList(faqs, sections, query) {
      LocatedIsListed(m, faqs, sections, query);
    }
  }

  lemma LocatedIsListed(m: MatchLocation, faqs: seq<Faq>, sections: seq<Section>, query: string)
    requires Located(m, faqs, sections, query)
    ensures m in MatchList(faqs, sections, query)
  {
    match m
    case TitleMatch(k, i) => TitleListed(k, i, faqs, sections, query);
    case SectionNameMatch(id, i) => SectionNameListed(id, i, faqs, sections, query);
    case FaqMatch(id, f, i) => FaqFieldListed(id, f, i, faqs, sections, query);
  }

  lemma TitleListed(k: TitleKind, i: nat, faqs: seq<Faq>, sections: seq<Section>, query: string)
    requires i < CountMatches(TitleText(k), query)
    ensures TitleMatch(k, i) in MatchList(faqs, sections, query)
  {
    assert !IsBlank(query);
    assert TitleRun(k, query)[i] == TitleMatch(k, i);
    ListedIn(TitleMatch(k, i), TitleRun(k, query), faqs, sections, query);
  }

  lemma SectionNameListed(id: Id, i: nat, faqs: seq<Faq>, sections: seq<Section>, query: string)
    requires exists s | s in sections :: s.id == id && i < CountMatches(s.name, query)
    ensures SectionNameMatch(id, i) in MatchList(faqs, sections, query)
  {
    var s :| s in sections && s.id == id && i < CountMatches(s.name, query);
    assert !IsBlank(query);
    SectionRunsComplete(sections, query, s, i);
    ListedIn(SectionNameMatch(id, i), SectionRuns(sections, query), faqs, sections, query);
  }

  lemma FaqFieldListed(id: Id, f: Field, i: nat, faqs: seq<Faq>, sections: seq<Section>, query: string)
    requires exists faq | faq in faqs :: faq.id == id && i < CountMatches(FieldText(faq, f), query)
    ensures FaqMatch(id, f, i) in MatchList(faqs, sections, query)
  {
    var faq :| faq in faqs && faq.id == id && i < CountMatches(FieldText(faq, f), query);
    assert !IsBlank(query);
    FaqRunsComplete(faqs, query, faq, f, i);
    ListedIn(FaqMatch(id, f, i), FaqRuns(faqs, query), faqs, sections, query);
  }

  /** For a query that is not blank, a location in one of the four parts
      of the list is in the list. */
  lemma ListedIn(m: MatchLocation, part: seq<MatchLocation>, faqs: seq<Faq>, sections: seq<Section>, query: string)
    requires m in part && !IsBlank(query)
    requires part == TitleRun(CustomRulesTitle, query) || part == TitleRun(VariablesTitle, query)
             || part == SectionRuns(sections, query) || part == FaqRuns(faqs, query)
    ensures m in MatchList(faqs, sections, query)
  {
    var t1, t2 := TitleRun(CustomRulesTitle, query), TitleRun(VariablesTitle, query);
    var sr, fr := SectionRuns(sections, query), FaqRuns(faqs, query);
    assert MatchList(faqs, sections, query) == t1 + t2 + sr + fr;
  }

  // ---------------------------------------------------------------------
  // Navigation
  // ---------------------------------------------------------------------

  /** `goToNext`: one forward, wrapping; nothing without matches. */
  function Next(current: nat, total: nat): (r: nat)
    ensures total == 0 ==> r == current
    ensures total > 0 ==> r < total
  {
    if total == 0 then current else (current + 1) % total
  }

  /** `goToPrev`: one back, wrapping; nothing without matches. The operand
      `prev - 1 + total` is never negative, so the source's truncating `%`
      agrees with Dafny's. */
  function Prev(current: nat, total: nat): (r: nat)
    ensures total == 0 ==> r == current
    ensures total > 0 ==> r < total
  {
    if total == 0 then current else (current - 1 + total) % total
  }

  lemma MulBounds(n: int, k: int)
    requires n > 0 && -n < n * k < n
    ensures k == 0
  {
  }

  /** Division with remainder has one answer. */
  lemma ModUnique(a: int, n: int, q: int, r: int)
    requires n > 0 && a == q * n + r && 0 <= r < n
    ensures a % n == r
  {
    var q2, r2 := a / n, a % n;
    assert a == q2 * n + r2;
    assert n * (q - q2) == r2 - r;
    MulBounds(n, q - q2);
  }

  lemma ModStep(a: nat, n: nat)
    requires n > 0
    ensures (a % n + 1) % n == (a + 1) % n
  {
    var q, r := a / n, a % n;
    if r + 1 < n {
      ModUnique(r + 1, n, 0, r + 1);
      ModUnique(a + 1, n, q, r + 1);
    } else {
      ModUnique(r + 1, n, 1, 0);
      ModUnique(a + 1, n, q + 1, 0);
    }
  }

  /** Next then previous, or previous then next, returns to the same match. */
  lemma NextPrevInverse(current: nat, total: nat)
    requires current < total
    ensures Prev(Next(current, total), total) == current
    ensures Next(Prev(current, total), total) == current
  {
    if current + 1 < total {
      ModUnique(current + 1, total, 0, current + 1);
      ModUnique(current + total, total, 1, current);
    } else {
      ModUnique(total, total, 1, 0);
      ModUnique(total - 1, total, 0, total - 1);
    }
    if current > 0 {
      ModUnique(current - 1 + total, total, 1, current - 1);
      ModUnique(current, total, 0, current);
    } else {
      ModUnique(total - 1, total, 0, total - 1);
      ModUnique(total, total, 1, 0);
    }
  }

  /** Stepping forward `steps` times from a valid index lands `steps` further
      on, modulo the number of matches. */
  lemma {:induction false} NextCycles(current: nat, total: nat, steps: nat)
    requires current < total
    ensures Iterate(current, total, steps) == (current + steps) % total
  {
    if steps == 0 {
      ModUnique(current, total, 0, current);
    } else {
      var a: nat := current + steps - 1;
      NextCycles(current, total, steps - 1);
      var before := Iterate(current, total, steps - 1);
      assert before == a % total;
      assert Iterate(current, total, steps) == Next(before, total) == (before + 1) % total;
      ModStep(a, total);
      assert a + 1 == current + steps;
    }
  }

  function Iterate(current: nat, total: nat, steps: nat): nat {
    if steps == 0 then current else Next(Iterate(current, total, steps - 1), total)
  }

  /** The 1-based position shown next to the search box, 0 without matches. */
  function DisplayedIndex(current: nat, total: nat): (r: nat)
    ensures total == 0 <==> r == 0
    ensures current < total ==> 1 <= r <= total
  {
    if total > 0 then current + 1 else 0
  }

  /** `currentMatch` (`matches[currentIndex] ?? null`) and its element id. */
  function CurrentMatchId(matches: seq<MatchLocation>, current: nat): (r: Option<string>)
    ensures r.Some? <==> current < |matches|
    ensures current < |matches| ==> r == Some(MatchId(matches[current]))
  {
    if current < |matches| then Some(MatchId(matches[current])) else None
  }
}

=== FILE: server_actions.dfy ===
/**
  The multi-tenant server actions that order sections, phase groups and
  FAQs, apply a batch of FAQ edits, and keep the custom-rules history.
  The database is a set of in-memory tables: each table is a sequence of
  rows, and a `select` returns rows in sequence order. Every action runs for
  one organisation `org` that the admin gate has already resolved; ids the
  database generates (`defaultRandom()`) are parameters.
 */
module ServerActions {
  import opened Outcomes
  import opened IdLists
  import opened Subsequences

  datatype SectionRow = SectionRow(
    id: Id,
    orgId: Id,
    name: string,
    order: int,
    phaseGroupId: Option<Id>,
    phaseOrder: Option<int>)

  datatype GroupRow = GroupRow(id: Id, orgId: Id, name: string, order: int)

  datatype FaqRow = FaqRow(
    id: Id,
    orgId: Id,
    sectionId: Id,
    question: string,
    answer: string,
    notes: string,
    order: int)

  datatype RulesRow = RulesRow(id: Id, orgId: Id, content: string)

  datatype HistoryRow = HistoryRow(id: Id, orgId: Id, content: string, createdBy: Id)

  /** The tables the modelled actions touch. `historyTableExists` is false
      while the history migration has not run (Postgres error 42P01). */
  datatype Db = Db(
    sections: seq<SectionRow>,
    groups: seq<GroupRow>,
    faqs: seq<FaqRow>,
    rules: seq<RulesRow>,
    history: seq<HistoryRow>,
    historyTableExists: bool)

  /** The errors the actions throw. `UpsertRejected` stands for the
      database refusing the batch insert (a repeated id in one
      `INSERT .. ON CONFLICT DO UPDATE`, or a section id no section has). */
  datatype Error =
    | InvalidPhaseGroup
    | InvalidSection
    | UpsertRejected
    | HistoryNotFound
    | HistoryUnavailable

  // ---------------------------------------------------------------------
  // Table reads

  predicate SectionInOrg(rows: seq<SectionRow>, org: Id, id: Id) {
    exists row | row in rows :: row.orgId == org && row.id == id
  }

  predicate GroupInOrg(rows: seq<GroupRow>, org: Id, id: Id) {
    exists row | row in rows :: row.orgId == org && row.id == id
  }

  /** Primary keys are unique. */
  predicate UniqueSectionIds(rows: seq<SectionRow>) {
    forall i, j | 0 <= i < j < |rows| :: rows[i].id != rows[j].id
  }

  predicate UniqueGroupIds(rows: seq<GroupRow>) {
    forall i, j | 0 <= i < j < |rows| :: rows[i].id != rows[j].id
  }

  /** The ids of the organisation's sections, in table order. */
  function OrgSectionIds(rows: seq<SectionRow>, org: Id): (r: seq<Id>)
    ensures forall x :: x in r <==> SectionInOrg(rows, org, x)
    ensures |r| <= |rows|
  {
    if |rows| == 0 then []
    else
      var front, last := rows[..|rows| - 1], rows[|rows| - 1];
      assert rows == front + [last];
      if last.orgId == org then OrgSectionIds(front, org) + [last.id] else OrgSectionIds(front, org)
  }

  lemma {:induction false} OrgSectionIdsDistinct(rows: seq<SectionRow>, org: Id)
    requires UniqueSectionIds(rows)
    ensures Distinct(OrgSectionIds(rows, org))
  {
    if |rows| > 0 {
      var front, last := rows[..|rows| - 1], rows[|rows| - 1];
      assert rows == front + [last];
      OrgSectionIdsDistinct(front, org);
      forall x | x in OrgSectionIds(front, org) ensures x != last.id {
        var row :| row in front && row.orgId == org && row.id == x;
        var k :| 0 <= k < |front| && front[k] == row;
        assert rows[k] == row;
      }
      if last.orgId == org {
        DistinctSnoc(OrgSectionIds(front, org), last.id);
      }
    }
  }

  /** The ids of the organisation's phase groups, in table order. */
  function OrgGroupIds(rows: seq<GroupRow>, org: Id): (r: seq<Id>)
    ensures forall x :: x in r <==> GroupInOrg(rows, org, x)
    ensures |r| <= |rows|
  {
    if |rows| == 0 then []
    else
      var front, last := rows[..|rows| - 1], rows[|rows| - 1];
      assert rows == front + [last];
      if last.orgId == org then OrgGroupIds(front, org) + [last.id] else OrgGroupIds(front, org)
  }

  lemma {:induction false} OrgGroupIdsDistinct(rows: seq<GroupRow>, org: Id)
    requires UniqueGroupIds(rows)
    ensures Distinct(OrgGroupIds(rows, org))
  {
    if |rows| > 0 {
      var front, last := rows[..|rows| - 1], rows[|rows| - 1];
      assert rows == front + [last];
      OrgGroupIdsDistinct(front, org);
      forall x | x in OrgGroupIds(front, org) ensures x != last.id {
        var row :| row in front && row.orgId == org && row.id == x;
        var k :| 0 <= k < |front| && front[k] == row;
        assert rows[k] == row;
      }
      if last.orgId == org {
        DistinctSnoc(OrgGroupIds(front, org), last.id);
      }
    }
  }

  // ---------------------------------------------------------------------
  // Reorder normalisation (reorderSections, reorderPhaseGroups)

  /** The listed ids that exist, in the given order, followed by the
      existing ids that were not listed, in table order. */
  function Normalise(ordered: seq<Id>, existing: seq<Id>): (r: seq<Id>)
    ensures forall x :: x in r <==> x in existing
    ensures |KeepIn(ordered, existing)| <= |r|
    ensures r[..|KeepIn(ordered, existing)|] == KeepIn(ordered, existing)
    ensures forall i | |KeepIn(ordered, existing)| <= i < |r| :: r[i] !in ordered
  {
    var listed := KeepIn(ordered, existing);
    var r := listed + KeepOut(existing, listed);
    assert r[..|listed|] == listed;
    r
  }

  /** Given a duplicate-free request, the final list is a permutation of the
      existing ids. */
  lemma NormaliseIsPermutation(ordered: seq<Id>, existing: seq<Id>)
    requires Distinct(ordered) && Distinct(existing)
    ensures Distinct(Normalise(ordered, existing))
    ensures |Normalise(ordered, existing)| == |existing|
  {
    var listed := KeepIn(ordered, existing);
    var rest := KeepOut(existing, listed);
    KeepInDistinct(ordered, existing);
    KeepOutDistinct(existing, listed);
    DistinctConcat(listed, rest);
    var r := Normalise(ordered, existing);
    assert r == listed + rest;
    DistinctCard(r);
    DistinctCard(existing);
    assert (set x | x in r) == (set x | x in existing);
  }

  /** The `CASE id WHEN .. THEN index` update of the reorder actions: an
      org row whose id is listed takes the first position of that id; every
      other row stays as it is. */
  function Renumber<R>(rows: seq<R>, org: Id, final: seq<Id>,
                       orgOf: R -> Id, idOf: R -> Id, withOrder: (R, nat) -> R): (r: seq<R>)
    ensures |r| == |rows|
    ensures forall i | 0 <= i < |rows| && (orgOf(rows[i]) != org || idOf(rows[i]) !in final) :: r[i] == rows[i]
    ensures forall i | 0 <= i < |rows| && orgOf(rows[i]) == org && idOf(rows[i]) in final ::
              r[i] == withOrder(rows[i], FirstIndex(final, idOf(rows[i])))
  {
    seq(|rows|, i requires 0 <= i < |rows| =>
      if orgOf(rows[i]) == org && idOf(rows[i]) in final then withOrder(rows[i], FirstIndex(final, idOf(rows[i]))) else rows[i])
  }

  function RenumberSections(rows: seq<SectionRow>, org: Id, final: seq<Id>): seq<SectionRow> {
    Renumber(rows, org, final, (s: SectionRow) => s.orgId, (s: SectionRow) => s.id, (s: SectionRow, k: nat) => s.(order := k))
  }

  function RenumberGroups(rows: seq<GroupRow>, org: Id, final: seq<Id>): seq<GroupRow> {
    Renumber(rows, org, final, (g: GroupRow) => g.orgId, (g: GroupRow) => g.id, (g: GroupRow, k: nat) => g.(order := k))
  }

  /** Renumbers the organisation's sections: the listed ones first, in list
      order, then the rest; an empty list changes nothing. */
  function ReorderSections(db: Db, org: Id, orderedIds: seq<Id>): (r: Db)
    ensures |orderedIds| == 0 ==> r == db
    ensures r == db.(sections := r.sections) && |r.sections| == |db.sections|
    ensures forall i | 0 <= i < |db.sections| && db.sections[i].orgId != org :: r.sections[i] == db.sections[i]
    ensures |orderedIds| > 0 ==> forall i | 0 <= i < |db.sections| && db.sections[i].orgId == org ::
      var final := Normalise(orderedIds, OrgSectionIds(db.sections, org));
      r.sections[i] == db.sections[i].(order := FirstIndex(final, db.sections[i].id))
  {
    if |orderedIds| == 0 then db
    else
      var final := Normalise(orderedIds, OrgSectionIds(db.sections, org));
      if |final| == 0 then db
      else
        var r := db.(sections := RenumberSections(db.sections, org, final));
        assert forall i | 0 <= i < |db.sections| && db.sections[i].orgId == org :: db.sections[i].id in final by {
          forall i | 0 <= i < |db.sections| && db.sections[i].orgId == org ensures db.sections[i].id in final {
            assert db.sections[i] in db.sections;
          }
        }
        r
  }

  /** After a reorder with a duplicate-free list, the org's sections are
      numbered 0 .. n-1, each number used once. */
  lemma ReorderSectionsNumbersOrg(db: Db, org: Id, orderedIds: seq<Id>)
    requires UniqueSectionIds(db.sections) && Distinct(orderedIds) && |orderedIds| > 0
    ensures var r := ReorderSections(db, org, orderedIds);
      && (forall i | 0 <= i < |r.sections| && r.sections[i].orgId == org ::
            0 <= r.sections[i].order < |OrgSectionIds(db.sections, org)|)
      && (forall i, j | 0 <= i < j < |r.sections| && r.sections[i].orgId == org && r.sections[j].orgId == org ::
            r.sections[i].order != r.sections[j].order)
  {
    var existing := OrgSectionIds(db.sections, org);
    var final := Normalise(orderedIds, existing);
    OrgSectionIdsDistinct(db.sections, org);
    NormaliseIsPermutation(orderedIds, existing);
    var r := ReorderSections(db, org, orderedIds);
    forall i | 0 <= i < |r.sections| && r.sections[i].orgId == org
      ensures r.sections[i].id in final && r.sections[i].order == FirstIndex(final, r.sections[i].id)
    {
      assert db.sections[i] in db.sections;
    }
    forall i, j | 0 <= i < j < |r.sections| && r.sections[i].orgId == org && r.sections[j].orgId == org
      ensures r.sections[i].order != r.sections[j].order
    {
      assert r.sections[i].id == db.sections[i].id && r.sections[j].id == db.sections[j].id;
    }
  }

  /** After a reorder, every listed section of the org comes before every
      section that was not listed. */
  lemma ReorderSectionsListedFirst(db: Db, org: Id, orderedIds: seq<Id>)
    requires UniqueSectionIds(db.sections) && |orderedIds| > 0
    ensures var r := ReorderSections(db, org, orderedIds);
      forall i, j | 0 <= i < |r.sections| && 0 <= j < |r.sections|
                    && r.sections[i].orgId == org && r.sections[j].orgId == org
                    && r.sections[i].id in orderedIds && r.sections[j].id !in orderedIds ::
        r.sections[i].order < r.sections[j].order
  {
    var existing := OrgSectionIds(db.sections, org);
    var final := Normalise(orderedIds, existing);
    var r := ReorderSections(db, org, orderedIds);
    forall i, j | 0 <= i < |r.sections| && 0 <= j < |r.sections|
      && r.sections[i].orgId == org && r.sections[j].orgId == org
      && r.sections[i].id in orderedIds && r.sections[j].id !in orderedIds
      ensures r.sections[i].order < r.sections[j].order
    {
      assert db.sections[i] in db.sections && db.sections[j] in db.sections;
      ListedBeforeUnlisted(orderedIds, existing, db.sections[i].id, db.sections[j].id);
    }
  }

  /** In the normalised list, an id the request names comes before one it
      does not. */
  lemma ListedBeforeUnlisted(ordered: seq<Id>, existing: seq<Id>, a: Id, b: Id)
    requires a in existing && b in existing && a in ordered && b !in ordered
    ensures FirstIndex(Normalise(ordered, existing), a) < FirstIndex(Normalise(ordered, existing), b)
  {
    var final := Normalise(ordered, existing);
    var listed := KeepIn(ordered, existing);
    assert a in listed;
    var k :| 0 <= k < |listed| && listed[k] == a;
    assert final[k] == a;
    forall m | 0 <= m < |listed| ensures final[m] != b {
      assert final[m] == listed[m] && listed[m] in listed;
    }
  }

  /** `reorderPhaseGroups`: the same normalisation over phase groups. */
  function ReorderPhaseGroups(db: Db, org: Id, orderedIds: seq<Id>): (r: Db)
    ensures |orderedIds| == 0 ==> r == db
    ensures r == db.(groups := r.groups) && |r.groups| == |db.groups|
    ensures forall i | 0 <= i < |db.groups| && db.groups[i].orgId != org :: r.groups[i] == db.groups[i]
    ensures |orderedIds| > 0 ==> forall i | 0 <= i < |db.groups| && db.groups[i].orgId == org ::
      var final := Normalise(orderedIds, OrgGroupIds(db.groups, org));
      r.groups[i] == db.groups[i].(order := FirstIndex(final, db.groups[i].id))
  {
    if |orderedIds| == 0 then db
    else
      var final := Normalise(orderedIds, OrgGroupIds(db.groups, org));
      if |final| == 0 then db
      else
        var r := db.(groups := RenumberGroups(db.groups, org, final));
        assert forall i | 0 <= i < |db.groups| && db.groups[i].orgId == org :: db.groups[i].id in final by {
          forall i | 0 <= i < |db.groups| && db.groups[i].orgId == org ensures db.groups[i].id in final {
            assert db.groups[i] in db.groups;
          }
        }
        r
  }

  lemma ReorderPhaseGroupsNumbersOrg(db: Db, org: Id, orderedIds: seq<Id>)
    requires UniqueGroupIds(db.groups) && Distinct(orderedIds) && |orderedIds| > 0
    ensures var r := ReorderPhaseGroups(db, org, orderedIds);
      && (forall i | 0 <= i < |r.groups| && r.groups[i].orgId == org ::
            0 <= r.groups[i].order < |OrgGroupIds(db.groups, org)|)
      && (forall i, j | 0 <= i < j < |r.groups| && r.groups[i].orgId == org && r.groups[j].orgId == org ::
            r.groups[i].order != r.groups[j].order)
  {
    var existing := OrgGroupIds(db.groups, org);
    var final := Normalise(orderedIds, existing);
    OrgGroupIdsDistinct(db.groups, org);
    NormaliseIsPermutation(orderedIds, existing);
    var r := ReorderPhaseGroups(db, org, orderedIds);
    forall i | 0 <= i < |r.groups| && r.groups[i].orgId == org
      ensures r.groups[i].id in final && r.groups[i].order == FirstIndex(final, r.groups[i].id)
    {
      assert db.groups[i] in db.groups;
    }
    forall i, j | 0 <= i < j < |r.groups| && r.groups[i].orgId == org && r.groups[j].orgId == org
      ensures r.groups[i].order != r.groups[j].order
    {
      assert r.groups[i].id == db.groups[i].id && r.groups[j].id == db.groups[j].id;
    }
  }

  /** A row `reorderSectionsInGroup` renumbers: a section of the org that
      is already in the group and whose id is listed. */
  predicate ListedInGroup(row: SectionRow, org: Id, groupId: Id, listed: seq<Id>) {
    row.orgId == org && row.phaseGroupId == Some(groupId) && row.id in listed
  }

  /** `reorderSectionsInGroup`: a listed section of the org already in the
      group takes the first position of its id in the list as its phase
      order. Nothing else changes; in particular there is no normalisation,
      so a section of the group left out of the list keeps its old phase
      order, and a listed section outside the group is not moved in. */
  function ReorderSectionsInGroup(db: Db, org: Id, groupId: Id, orderedSectionIds: seq<Id>): (r: Db)
    ensures |orderedSectionIds| == 0 ==> r == db
    ensures r == db.(sections := r.sections) && |r.sections| == |db.sections|
    ensures forall i | 0 <= i < |db.sections| ::
              r.sections[i] == db.sections[i].(phaseOrder := r.sections[i].phaseOrder)
    ensures forall i | 0 <= i < |db.sections| && !ListedInGroup(db.sections[i], org, groupId, orderedSectionIds) ::
              r.sections[i] == db.sections[i]
    ensures forall i | 0 <= i < |db.sections| && ListedInGroup(db.sections[i], org, groupId, orderedSectionIds) ::
              && r.sections[i].phaseOrder.Some?
              && 0 <= r.sections[i].phaseOrder.value < |orderedSectionIds|
              && orderedSectionIds[r.sections[i].phaseOrder.value] == db.sections[i].id
              && forall k | 0 <= k < r.sections[i].phaseOrder.value :: orderedSectionIds[k] != db.sections[i].id
  {
    if |orderedSectionIds| == 0 then db
    else
      db.(sections := seq(|db.sections|, i requires 0 <= i < |db.sections| =>
        var row := db.sections[i];
        if ListedInGroup(row, org, groupId, orderedSectionIds)
        then row.(phaseOrder := Some(FirstIndex(orderedSectionIds, row.id)))
        else row))
  }

  /** With unique section ids, the renumbered sections of the group get
      pairwise different phase orders; with a duplicate-free list those
      orders follow the list: a section listed earlier comes first. */
  lemma ReorderInGroupFollowsList(db: Db, org: Id, groupId: Id, orderedSectionIds: seq<Id>)
    requires UniqueSectionIds(db.sections)
    ensures var s := ReorderSectionsInGroup(db, org, groupId, orderedSectionIds).sections;
      forall i, j | 0 <= i < j < |db.sections|
                    && ListedInGroup(db.sections[i], org, groupId, orderedSectionIds)
                    && ListedInGroup(db.sections[j], org, groupId, orderedSectionIds) ::
        s[i].phaseOrder != s[j].phaseOrder
    ensures var s := ReorderSectionsInGroup(db, org, groupId, orderedSectionIds).sections;
      Distinct(orderedSectionIds) ==>
      forall i, j, a, b | 0 <= i < |db.sections| && 0 <= j < |db.sections| && 0 <= a < b < |orderedSectionIds|
                          && ListedInGroup(db.sections[i], org, groupId, orderedSectionIds)
                          && ListedInGroup(db.sections[j], org, groupId, orderedSectionIds)
                          && orderedSectionIds[a] == db.sections[i].id && orderedSectionIds[b] == db.sections[j].id ::
        s[i].phaseOrder.value < s[j].phaseOrder.value
  {
    var list := orderedSectionIds;
    var s := ReorderSectionsInGroup(db, org, groupId, list).sections;
    forall i, j | 0 <= i < j < |db.sections|
                  && ListedInGroup(db.sections[i], org, groupId, list)
                  && ListedInGroup(db.sections[j], org, groupId, list)
      ensures s[i].phaseOrder != s[j].phaseOrder
    {
      assert list[s[i].phaseOrder.value] == db.sections[i].id;
      assert list[s[j].phaseOrder.value] == db.sections[j].id;
    }
    if Distinct(list) {
      forall i, j, a, b | 0 <= i < |db.sections| && 0 <= j < |db.sections| && 0 <= a < b < |list|
                          && ListedInGroup(db.sections[i], org, groupId, list)
                          && ListedInGroup(db.sections[j], org, groupId, list)
                          && list[a] == db.sections[i].id && list[b] == db.sections[j].id
        ensures s[i].phaseOrder.value < s[j].phaseOrder.value
      {
        var p, q := s[i].phaseOrder.value, s[j].phaseOrder.value;
        assert list[p] == list[a] && list[q] == list[b];
      }
    }
  }

  // ---------------------------------------------------------------------
  // Creating rows

  /** `createSection`: the new section's order is the org's current number
      of sections. The phase columns take their (unmodelled) defaults. */
  function CreateSection(db: Db, org: Id, name: string, newId: Id): (r: (Db, SectionRow))
    ensures r.0 == db.(sections := db.sections + [r.1])
    ensures r.1.id == newId && r.1.orgId == org && r.1.name == name
    ensures r.1.order == |OrgSectionIds(db.sections, org)|
  {
    var row := SectionRow(newId, org, name, |OrgSectionIds(db.sections, org)|, None, None);
    (db.(sections := db.sections + [row]), row)
  }

  /** After a reorder, a new section's order is used by no other section of
      the org. */
  lemma CreateAfterReorderIsFresh(db: Db, org: Id, orderedIds: seq<Id>, name: string, newId: Id)
    requires UniqueSectionIds(db.sections) && Distinct(orderedIds) && |orderedIds| > 0
    ensures var db1 := ReorderSections(db, org, orderedIds);
      var created := CreateSection(db1, org, name, newId).1;
      forall row | row in db1.sections && row.orgId == org :: row.order != created.order
  {
    var db1 := ReorderSections(db, org, orderedIds);
    ReorderSectionsNumbersOrg(db, org, orderedIds);
    assert OrgSectionIds(db1.sections, org) == OrgSectionIds(db.sections, org) by {
      SameOrgIds(db.sections, db1.sections, org);
    }
    forall row | row in db1.sections && row.orgId == org
      ensures row.order < |OrgSectionIds(db.sections, org)|
    {
      var i :| 0 <= i < |db1.sections| && db1.sections[i] == row;
    }
  }

  /** Renumbering keeps ids and owners, so the org's id list is the same. */
  lemma {:induction false} SameOrgIds(a: seq<SectionRow>, b: seq<SectionRow>, org: Id)
    requires |a| == |b|
    requires forall i | 0 <= i < |a| :: a[i].id == b[i].id && a[i].orgId == b[i].orgId
    ensures OrgSectionIds(a, org) == OrgSectionIds(b, org)
  {
    if |a| > 0 {
      SameOrgIds(a[..|a| - 1], b[..|b| - 1], org);
    }
  }

  /** `createPhaseGroup`: order is the org's current number of groups. */
  function CreatePhaseGroup(db: Db, org: Id, name: string, newId: Id): (r: (Db, GroupRow))
    ensures r.0 == db.(groups := db.groups + [r.1])
    ensures r.1 == GroupRow(newId, org, name, |OrgGroupIds(db.groups, org)|)
  {
    var row := GroupRow(newId, org, name, |OrgGroupIds(db.groups, org)|);
    (db.(groups := db.groups + [row]), row)
  }

  /** After a reorder of the org's groups, a new group's order is used by
      no other group of the org. */
  lemma CreateGroupAfterReorderIsFresh(db: Db, org: Id, orderedIds: seq<Id>, name: string, newId: Id)
    requires UniqueGroupIds(db.groups) && Distinct(orderedIds) && |orderedIds| > 0
    ensures var db1 := ReorderPhaseGroups(db, org, orderedIds);
      var created := CreatePhaseGroup(db1, org, name, newId).1;
      forall row | row in db1.groups && row.orgId == org :: row.order != created.order
  {
    var db1 := ReorderPhaseGroups(db, org, orderedIds);
    ReorderPhaseGroupsNumbersOrg(db, org, orderedIds);
    assert OrgGroupIds(db1.groups, org) == OrgGroupIds(db.groups, org) by {
      SameOrgGroupIds(db.groups, db1.groups, org);
    }
    forall row | row in db1.groups && row.orgId == org
      ensures row.order < |OrgGroupIds(db.groups, org)|
    {
      var i :| 0 <= i < |db1.groups| && db1.groups[i] == row;
    }
  }

  lemma {:induction false} SameOrgGroupIds(a: seq<GroupRow>, b: seq<GroupRow>, org: Id)
    requires |a| == |b|
    requires forall i | 0 <= i < |a| :: a[i].id == b[i].id && a[i].orgId == b[i].orgId
    ensures OrgGroupIds(a, org) == OrgGroupIds(b, org)
  {
    if |a| > 0 {
      SameOrgGroupIds(a[..|a| - 1], b[..|b| - 1], org);
    }
  }

  /** The largest of `init` and the values of `xs`. */
  function MaxFrom(init: int, xs: seq<int>): (m: int)
    ensures init <= m
    ensures forall x | x in xs :: x <= m
    ensures m == init || m in xs
  {
    if |xs| == 0 then init
    else
      var front, last := xs[..|xs| - 1], xs[|xs| - 1];
      assert xs == front + [last];
      var m := MaxFrom(init, front);
      if last > m then last else m
  }

  /** `phaseOrder ?? 0` of the org's sections in a group, in table order. */
  function GroupPhaseOrders(rows: seq<SectionRow>, org: Id, groupId: Id): (r: seq<int>)
    ensures forall row | row in rows && row.orgId == org && row.phaseGroupId == Some(groupId) :: row.phaseOrder.GetOr(0) in r
    ensures forall x | x in r :: exists row | row in rows :: row.orgId == org && row.phaseGroupId == Some(groupId) && row.phaseOrder.GetOr(0) == x
  {
    if |rows| == 0 then []
    else
      var front, last := rows[..|rows| - 1], rows[|rows| - 1];
      assert rows == front + [last];
      if last.orgId == org && last.phaseGroupId == Some(groupId)
      then GroupPhaseOrders(front, org, groupId) + [last.phaseOrder.GetOr(0)]
      else GroupPhaseOrders(front, org, groupId)
  }

  /** `Math.max(-1, ...phaseOrders) + 1`: one past the largest phase order in
      the group (a missing one read as 0), and 0 for an empty group. */
  function NextPhaseOrder(rows: seq<SectionRow>, org: Id, groupId: Id): (r: int)
    ensures 0 <= r
    ensures forall row | row in rows && row.orgId == org && row.phaseGroupId == Some(groupId) :: row.phaseOrder.GetOr(0) < r
    ensures r == 0 || exists row | row in rows :: row.orgId == org && row.phaseGroupId == Some(groupId) && row.phaseOrder.GetOr(0) == r - 1
  {
    MaxFrom(-1, GroupPhaseOrders(rows, org, groupId)) + 1
  }

  /** Creates a section directly inside a phase group of the organisation,
      placed after the group's current members; a foreign or unknown group
      is an error. */
  function CreateSectionInGroup(db: Db, org: Id, groupId: Id, name: string, newId: Id): (r: Result<(Db, SectionRow), Error>)
    ensures !GroupInOrg(db.groups, org, groupId) <==> r == Err(InvalidPhaseGroup)
    ensures r.Ok? ==> r.value.0 == db.(sections := db.sections + [r.value.1])
    ensures r.Ok? ==> var row := r.value.1;
      && row.id == newId && row.orgId == org && row.name == name
      && row.order == |OrgSectionIds(db.sections, org)|
      && row.phaseGroupId == Some(groupId)
      && row.phaseOrder == Some(NextPhaseOrder(db.sections, org, groupId))
  {
    if !GroupInOrg(db.groups, org, groupId) then Err(InvalidPhaseGroup)
    else
      var row := SectionRow(newId, org, name, |OrgSectionIds(db.sections, org)|, Some(groupId),
                            Some(NextPhaseOrder(db.sections, org, groupId)));
      Ok((db.(sections := db.sections + [row]), row))
  }

  /** `addSectionToGroup`: the group is checked before the section. The
      section may already be in the group, and then counts towards the
      maximum. */
  function AddSectionToGroup(db: Db, org: Id, sectionId: Id, groupId: Id): (r: Result<Db, Error>)
    ensures !GroupInOrg(db.groups, org, groupId) <==> r == Err(InvalidPhaseGroup)
    ensures GroupInOrg(db.groups, org, groupId) && !SectionInOrg(db.sections, org, sectionId) <==> r == Err(InvalidSection)
    ensures r.Ok? ==> r.value == db.(sections := r.value.sections) && |r.value.sections| == |db.sections|
    ensures r.Ok? ==> forall i | 0 <= i < |db.sections| ::
      var row := db.sections[i];
      if row.id == sectionId && row.orgId == org
      then r.value.sections[i] == row.(phaseGroupId := Some(groupId), phaseOrder := Some(NextPhaseOrder(db.sections, org, groupId)))
      else r.value.sections[i] == row
  {
    if !GroupInOrg(db.groups, org, groupId) then Err(InvalidPhaseGroup)
    else if !SectionInOrg(db.sections, org, sectionId) then Err(InvalidSection)
    else
      var next := NextPhaseOrder(db.sections, org, groupId);
      Ok(db.(sections := seq(|db.sections|, i requires 0 <= i < |db.sections| =>
        var row := db.sections[i];
        if row.id == sectionId && row.orgId == org
        then row.(phaseGroupId := Some(groupId), phaseOrder := Some(next))
        else row)))
  }

  /** Adding a section that was in no group places it after every section
      already in the group. */
  lemma AddSectionPlacesLast(db: Db, org: Id, sectionId: Id, groupId: Id)
    requires UniqueSectionIds(db.sections)
    requires AddSectionToGroup(db, org, sectionId, groupId).Ok?
    ensures var s := AddSectionToGroup(db, org, sectionId, groupId).value.sections;
      forall i, j | 0 <= i < |s| && 0 <= j < |s| && s[i].id == sectionId && s[j].id != sectionId
                    && s[j].orgId == org && s[j].phaseGroupId == Some(groupId) ::
        s[j].phaseOrder.GetOr(0) < s[i].phaseOrder.GetOr(0)
  {
    var s := AddSectionToGroup(db, org, sectionId, groupId).value.sections;
    var next := NextPhaseOrder(db.sections, org, groupId);
    var row :| row in db.sections && row.orgId == org && row.id == sectionId;
    var k :| 0 <= k < |db.sections| && db.sections[k] == row;
    assert s[k].phaseOrder == Some(next);
    forall i, j | 0 <= i < |s| && 0 <= j < |s| && s[i].id == sectionId && s[j].id != sectionId
                  && s[j].orgId == org && s[j].phaseGroupId == Some(groupId)
      ensures s[j].phaseOrder.GetOr(0) < s[i].phaseOrder.GetOr(0)
    {
      assert db.sections[i].id == sectionId;
      assert i == k;
      assert s[j] == db.sections[j] && db.sections[j] in db.sections;
    }
  }

  /** The row `removeSectionFromGroup` updates: the section, in the org. */
  predicate IsOrgSection(row: SectionRow, org: Id, sectionId: Id) {
    row.id == sectionId && row.orgId == org
  }

  /** `removeSectionFromGroup`: the org's section leaves its group, with
      phase order 0; only the two phase columns of that one row change. */
  function RemoveSectionFromGroup(db: Db, org: Id, sectionId: Id): (r: Db)
    ensures r == db.(sections := r.sections) && |r.sections| == |db.sections|
    ensures forall i | 0 <= i < |db.sections| ::
              r.sections[i] == db.sections[i].(phaseGroupId := r.sections[i].phaseGroupId, phaseOrder := r.sections[i].phaseOrder)
    ensures forall i | 0 <= i < |db.sections| && IsOrgSection(db.sections[i], org, sectionId) ::
              r.sections[i].phaseGroupId.None? && r.sections[i].phaseOrder == Some(0)
    ensures forall i | 0 <= i < |db.sections| && !IsOrgSection(db.sections[i], org, sectionId) ::
              r.sections[i] == db.sections[i]
  {
    db.(sections := seq(|db.sections|, i requires 0 <= i < |db.sections| =>
      var row := db.sections[i];
      if IsOrgSection(row, org, sectionId) then row.(phaseGroupId := None, phaseOrder := Some(0)) else row))
  }

  /** Removing a section from its group a second time changes nothing, and
      afterwards no group of the org counts it among its sections. */
  lemma RemoveSectionFromGroupIdempotent(db: Db, org: Id, sectionId: Id, groupId: Id)
    ensures var db1 := RemoveSectionFromGroup(db, org, sectionId);
      && RemoveSectionFromGroup(db1, org, sectionId) == db1
      && forall row | row in db1.sections && row.orgId == org && row.phaseGroupId == Some(groupId) :: row.id != sectionId
  {
    var db1 := RemoveSectionFromGroup(db, org, sectionId);
    var db2 := RemoveSectionFromGroup(db1, org, sectionId);
    forall i | 0 <= i < |db1.sections| ensures db2.sections[i] == db1.sections[i] {
      if IsOrgSection(db1.sections[i], org, sectionId) {
        assert IsOrgSection(db.sections[i], org, sectionId);
      }
    }
    assert db2.sections == db1.sections;
    forall row | row in db1.sections && row.orgId == org && row.phaseGroupId == Some(groupId) ensures row.id != sectionId {
      var i :| 0 <= i < |db1.sections| && db1.sections[i] == row;
      assert db1.sections[i].id == db.sections[i].id && db1.sections[i].orgId == db.sections[i].orgId;
    }
  }

  /** Removing a section from its group and adding it back puts it last. */
  lemma RemoveThenAddIsLast(db: Db, org: Id, sectionId: Id, groupId: Id)
    requires UniqueSectionIds(db.sections) && GroupInOrg(db.groups, org, groupId) && SectionInOrg(db.sections, org, sectionId)
    ensures var db1 := RemoveSectionFromGroup(db, org, sectionId);
      && AddSectionToGroup(db1, org, sectionId, groupId).Ok?
      && var s := AddSectionToGroup(db1, org, sectionId, groupId).value.sections;
         forall i, j | 0 <= i < |s| && 0 <= j < |s| && s[i].id == sectionId && s[j].id != sectionId
                       && s[j].orgId == org && s[j].phaseGroupId == Some(groupId) ::
           s[j].phaseOrder.GetOr(0) < s[i].phaseOrder.GetOr(0)
  {
    var db1 := RemoveSectionFromGroup(db, org, sectionId);
    var row :| row in db.sections && row.orgId == org && row.id == sectionId;
    var k :| 0 <= k < |db.sections| && db.sections[k] == row;
    assert db1.sections[k] in db1.sections;
    assert UniqueSectionIds(db1.sections);
    AddSectionPlacesLast(db1, org, sectionId, groupId);
  }

  /** SQL `max(order)`: absent over no rows. */
  function SqlMax(xs: seq<int>): (r: Option<int>)
    ensures r.None? <==> |xs| == 0
    ensures r.Some? ==> r.value in xs && forall x | x in xs :: x <= r.value
  {
    if |xs| == 0 then None
    else
      var front, last := xs[..|xs| - 1], xs[|xs| - 1];
      assert xs == front + [last];
      match SqlMax(front)
      case None => Some(last)
      case Some(m) => Some(if last > m then last else m)
  }

  /** The orders of the org's FAQs in one section. */
  function SectionFaqOrders(rows: seq<FaqRow>, org: Id, sectionId: Id): (r: seq<int>)
    ensures forall row | row in rows && row.orgId == org && row.sectionId == sectionId :: row.order in r
    ensures forall x | x in r :: exists row | row in rows :: row.orgId == org && row.sectionId == sectionId && row.order == x
  {
    if |rows| == 0 then []
    else
      var front, last := rows[..|rows| - 1], rows[|rows| - 1];
      assert rows == front + [last];
      if last.orgId == org && last.sectionId == sectionId
      then SectionFaqOrders(front, org, sectionId) + [last.order]
      else SectionFaqOrders(front, org, sectionId)
  }

  /** `createFaq`: the section must belong to the org; the new FAQ goes one
      past the largest order in its section, or to 0 in an empty one. */
  function CreateFaq(db: Db, org: Id, sectionId: Id, question: string, answer: string, notes: string, newId: Id)
    : (r: Result<(Db, FaqRow), Error>)
    ensures !SectionInOrg(db.sections, org, sectionId) <==> r == Err(InvalidSection)
    ensures r.Ok? ==> r.value.0 == db.(faqs := db.faqs + [r.value.1])
    ensures r.Ok? ==> var row := r.value.1;
      && row == FaqRow(newId, org, sectionId, question, answer, notes, row.order)
      && (forall f | f in db.faqs && f.orgId == org && f.sectionId == sectionId :: f.order < row.order)
      && ((forall f | f in db.faqs :: !(f.orgId == org && f.sectionId == sectionId)) ==> row.order == 0)
      && ((exists f | f in db.faqs :: f.orgId == org && f.sectionId == sectionId) ==>
            exists f | f in db.faqs :: f.orgId == org && f.sectionId == sectionId && f.order == row.order - 1)
  {
    if !SectionInOrg(db.sections, org, sectionId) then Err(InvalidSection)
    else
      var next := SqlMax(SectionFaqOrders(db.faqs, org, sectionId)).GetOr(-1) + 1;
      var row := FaqRow(newId, org, sectionId, question, answer, notes, next);
      Ok((db.(faqs := db.faqs + [row]), row))
  }

  // ---------------------------------------------------------------------
  // applyFaqBatch

  datatype FaqInput = FaqInput(id: Id, sectionId: Id, question: string, answer: string, notes: string, order: int)

  datatype BatchCounts = BatchCounts(upserted: nat, deleted: nat)

  function InputSectionIds(ups: seq<FaqInput>): (r: seq<Id>)
    ensures |r| == |ups|
    ensures forall i | 0 <= i < |ups| :: r[i] == ups[i].sectionId
  {
    seq(|ups|, i requires 0 <= i < |ups| => ups[i].sectionId)
  }

  /** Some row proposes this section id. */
  predicate Referenced(ups: seq<FaqInput>, x: Id) {
    exists u | u in ups :: u.sectionId == x
  }

  /** `Array.from(new Set(upserts.map((u) => u.sectionId))).filter(Boolean)`:
      the distinct non-empty section ids the batch names. */
  function ReferencedSections(ups: seq<FaqInput>): (r: seq<Id>)
    ensures Distinct(r)
    ensures forall x :: x in r <==> x != "" && Referenced(ups, x)
  {
    var ids := InputSectionIds(ups);
    DedupDistinct(ids);
    KeepOutDistinct(Dedup(ids), [""]);
    InputSectionIdsMembers(ups);
    KeepOut(Dedup(ids), [""])
  }

  lemma InputSectionIdsMembers(ups: seq<FaqInput>)
    ensures forall x :: x in InputSectionIds(ups) <==> Referenced(ups, x)
  {
    var ids := InputSectionIds(ups);
    forall x | x in ids ensures Referenced(ups, x) {
      var i :| 0 <= i < |ids| && ids[i] == x;
      assert ups[i] in ups;
    }
    forall x | Referenced(ups, x) ensures x in ids {
      var u :| u in ups && u.sectionId == x;
      var i :| 0 <= i < |ups| && ups[i] == u;
      assert ids[i] == x;
    }
  }

  /** The validation query: the referenced sections found in the org. */
  function ValidSections(db: Db, org: Id, ups: seq<FaqInput>): (r: seq<Id>)
    ensures forall x :: x in r <==> x in ReferencedSections(ups) && SectionInOrg(db.sections, org, x)
  {
    KeepIn(OrgSectionIds(db.sections, org), ReferencedSections(ups))
  }

  /** `validSections.length !== sectionIds.length` rejects the batch. */
  predicate SectionCheckPasses(db: Db, org: Id, ups: seq<FaqInput>) {
    |ReferencedSections(ups)| == 0 || |ValidSections(db, org, ups)| == |ReferencedSections(ups)|
  }

  /** With unique section ids, counting the rows found is the same as
      asking that every referenced non-empty section id is a section of the
      org. */
  lemma SectionCheckIff(db: Db, org: Id, ups: seq<FaqInput>)
    requires UniqueSectionIds(db.sections)
    ensures SectionCheckPasses(db, org, ups) <==>
      forall x | x != "" && Referenced(ups, x) :: SectionInOrg(db.sections, org, x)
  {
    var refs := ReferencedSections(ups);
    var valid := ValidSections(db, org, ups);
    OrgSectionIdsDistinct(db.sections, org);
    KeepInDistinct(OrgSectionIds(db.sections, org), refs);
    DistinctCard(refs);
    DistinctCard(valid);
    var a := set x | x in valid;
    var b := set x | x in refs;
    assert a <= b;
    if |valid| == |refs| {
      SubsetSameCard(a, b);
      forall x | x != "" && Referenced(ups, x) ensures SectionInOrg(db.sections, org, x) {
        assert x in b;
      }
    }
    if forall x | x != "" && Referenced(ups, x) :: SectionInOrg(db.sections, org, x) {
      assert a == b;
    }
  }

  predicate SectionExists(rows: seq<SectionRow>, id: Id) {
    exists row | row in rows :: row.id == id
  }

  /** The insert fails: two rows of the batch share an id, or a row names a
      section that does not exist (the foreign key). */
  predicate UpsertConflict(db: Db, ups: seq<FaqInput>) {
    || HasDuplicateIds(ups)
    || (exists u | u in ups :: !SectionExists(db.sections, u.sectionId))
  }

  /** The batch row with this id, if any. */
  function FindInput(ups: seq<FaqInput>, id: Id): (r: Option<FaqInput>)
    ensures r.Some? ==> r.value in ups && r.value.id == id
    ensures r.None? <==> forall u | u in ups :: u.id != id
  {
    if |ups| == 0 then None
    else if ups[0].id == id then Some(ups[0])
    else
      assert forall u | u in ups[1..] :: u in ups;
      assert ups == [ups[0]] + ups[1..];
      FindInput(ups[1..], id)
  }

  function Apply(row: FaqRow, u: FaqInput): FaqRow {
    row.(sectionId := u.sectionId, question := u.question, answer := u.answer, notes := u.notes, order := u.order)
  }

  /** `ON CONFLICT (id) DO UPDATE`: an existing row whose id is proposed
      takes the proposed fields; it keeps its id and its organisation. */
  function Overwrite(rows: seq<FaqRow>, ups: seq<FaqInput>): (r: seq<FaqRow>)
    ensures |r| == |rows|
    ensures forall i | 0 <= i < |rows| :: r[i].id == rows[i].id && r[i].orgId == rows[i].orgId
    ensures forall i | 0 <= i < |rows| && FindInput(ups, rows[i].id).None? :: r[i] == rows[i]
    ensures forall i | 0 <= i < |rows| && FindInput(ups, rows[i].id).Some? ::
              var u := FindInput(ups, rows[i].id).value;
              && r[i].sectionId == u.sectionId && r[i].question == u.question && r[i].answer == u.answer
              && r[i].notes == u.notes && r[i].order == u.order
  {
    seq(|rows|, i requires 0 <= i < |rows| =>
      match FindInput(ups, rows[i].id) case Some(u) => Apply(rows[i], u) case None => rows[i])
  }

  predicate RowWithId(rows: seq<FaqRow>, id: Id) {
    exists row | row in rows :: row.id == id
  }

  function NewRow(org: Id, u: FaqInput): FaqRow {
    FaqRow(u.id, org, u.sectionId, u.question, u.answer, u.notes, u.order)
  }

  /** The batch rows with no existing id become new rows of the org. */
  function Inserted(rows: seq<FaqRow>, org: Id, ups: seq<FaqInput>): (r: seq<FaqRow>)
    ensures forall row | row in r :: exists u | u in ups :: !RowWithId(rows, u.id) && row == NewRow(org, u)
    ensures forall u | u in ups && !RowWithId(rows, u.id) :: NewRow(org, u) in r
  {
    if |ups| == 0 then []
    else
      var front, last := ups[..|ups| - 1], ups[|ups| - 1];
      assert ups == front + [last];
      if RowWithId(rows, last.id) then Inserted(rows, org, front)
      else Inserted(rows, org, front) + [NewRow(org, last)]
  }

  /** The rows left after deleting the organisation's rows whose id is
      listed; other organisations' rows stay, whatever their id. */
  function DeleteOrgRows(rows: seq<FaqRow>, org: Id, deletes: seq<Id>): (r: seq<FaqRow>)
    ensures forall row :: row in r <==> row in rows && !(row.orgId == org && row.id in deletes)
    ensures IsSubseq(r, rows)
    ensures forall row :: multiset(r)[row] == if row.orgId == org && row.id in deletes then 0 else multiset(rows)[row]
  {
    if |rows| == 0 then []
    else
      var front, last := rows[..|rows| - 1], rows[|rows| - 1];
      assert rows == front + [last];
      var prev := DeleteOrgRows(front, org, deletes);
      if last.orgId == org && last.id in deletes then SubseqSkip(prev, front, last); prev
      else SubseqTake(prev, front, last); prev + [last]
  }

  /** The upserted row is in the table with the proposed fields. */
  predicate Landed(rows: seq<FaqRow>, u: FaqInput) {
    exists row | row in rows ::
      row.id == u.id && row.sectionId == u.sectionId && row.question == u.question
      && row.answer == u.answer && row.notes == u.notes && row.order == u.order
  }

  predicate HasDuplicateIds(ups: seq<FaqInput>) {
    exists i, j | 0 <= i < j < |ups| :: ups[i].id == ups[j].id
  }

  /** The two writes of a batch that passed its checks: the upsert, then
      the org-scoped delete (each skipped when its list is empty). */
  function ApplyWrites(rows: seq<FaqRow>, org: Id, upserts: seq<FaqInput>, deletes: seq<Id>): (r: seq<FaqRow>)
    ensures !HasDuplicateIds(upserts) ==> forall u | u in upserts && u.id !in deletes :: Landed(r, u)
    ensures forall row | row in r :: !(row.orgId == org && row.id in deletes)
    ensures forall row | row in rows && FindInput(upserts, row.id).None? && !(row.orgId == org && row.id in deletes) :: row in r
    ensures forall row | row in r :: row in rows || FindInput(upserts, row.id).Some?
    ensures forall row | row in r && !RowWithId(rows, row.id) :: row.orgId == org
  {
    var afterUpsert := if |upserts| > 0 then Overwrite(rows, upserts) + Inserted(rows, org, upserts) else rows;
    var afterDelete := if |deletes| > 0 then DeleteOrgRows(afterUpsert, org, deletes) else afterUpsert;
    OverwriteKeepsIds(rows, upserts);
    InsertedBelongToOrg(Overwrite(rows, upserts), rows, org, upserts);
    UpsertsLand(rows, org, upserts);
    UpsertStepKeeps(rows, org, upserts);
    LandedSurvivesDelete(afterUpsert, org, upserts, deletes);
    afterDelete
  }

  /** The rows the upsert rewrites are rows the table already had. */
  lemma OverwriteKeepsIds(rows: seq<FaqRow>, ups: seq<FaqInput>)
    ensures forall row | row in Overwrite(rows, ups) :: RowWithId(rows, row.id)
  {
    var over := Overwrite(rows, ups);
    forall row | row in over ensures RowWithId(rows, row.id) {
      var k :| 0 <= k < |over| && over[k] == row;
      assert rows[k] in rows;
    }
  }

  /** A row after the upsert whose id the table did not have is one of the
      inserted rows, which belong to the caller's organisation. */
  lemma InsertedBelongToOrg(over: seq<FaqRow>, rows: seq<FaqRow>, org: Id, ups: seq<FaqInput>)
    requires forall row | row in over :: RowWithId(rows, row.id)
    ensures forall row | row in over + Inserted(rows, org, ups) && !RowWithId(rows, row.id) :: row.orgId == org
  {
    var ins := Inserted(rows, org, ups);
    forall row: FaqRow | row in over + ins && !RowWithId(rows, row.id) ensures row.orgId == org {
      if row !in over {
        assert row in ins;
        var u :| u in ups && !RowWithId(rows, u.id) && row == NewRow(org, u);
      }
    }
  }

  lemma UpsertStepKeeps(rows: seq<FaqRow>, org: Id, ups: seq<FaqInput>)
    ensures var all := Overwrite(rows, ups) + Inserted(rows, org, ups);
      && (forall row | row in rows && FindInput(ups, row.id).None? :: row in all)
      && (forall row | row in all :: row in rows || FindInput(ups, row.id).Some?)
  {
    var over := Overwrite(rows, ups);
    var all := over + Inserted(rows, org, ups);
    forall row | row in rows && FindInput(ups, row.id).None? ensures row in all {
      var k :| 0 <= k < |rows| && rows[k] == row;
      assert over[k] == row;
    }
    forall row | row in all ensures row in rows || FindInput(ups, row.id).Some? {
      if row in over {
        var k :| 0 <= k < |over| && over[k] == row;
        assert row.id == rows[k].id;
      } else {
        var u :| u in ups && !RowWithId(rows, u.id) && row == NewRow(org, u);
      }
    }
  }

  lemma LandedSurvivesDelete(rows: seq<FaqRow>, org: Id, ups: seq<FaqInput>, deletes: seq<Id>)
    ensures forall u | u in ups && u.id !in deletes && Landed(rows, u) :: Landed(DeleteOrgRows(rows, org, deletes), u)
  {
    forall u | u in ups && u.id !in deletes && Landed(rows, u)
      ensures Landed(DeleteOrgRows(rows, org, deletes), u)
    {
      var row :| row in rows && row.id == u.id && row.sectionId == u.sectionId && row.question == u.question
        && row.answer == u.answer && row.notes == u.notes && row.order == u.order;
      assert row in DeleteOrgRows(rows, org, deletes);
    }
  }

  /** Applies a batch of FAQ upserts and deletes for one organisation, with
      the section check and the conflict rule as the server action has them. */
  function ApplyFaqBatch(db: Db, org: Id, upserts: seq<FaqInput>, deletes: seq<Id>): (r: Result<(Db, BatchCounts), Error>)
    ensures |upserts| == 0 && |deletes| == 0 ==> r == Ok((db, BatchCounts(0, 0)))
    ensures |upserts| == 0 ==> r.Ok?
    ensures |upserts| > 0 ==> (r == Err(InvalidSection) <==> !SectionCheckPasses(db, org, upserts))
    ensures |upserts| > 0 ==> (r == Err(UpsertRejected) <==> SectionCheckPasses(db, org, upserts) && UpsertConflict(db, upserts))
    ensures |upserts| > 0 ==> (r.Ok? <==> SectionCheckPasses(db, org, upserts) && !UpsertConflict(db, upserts))
    ensures r.Ok? ==> forall row | row in r.value.0.faqs && !RowWithId(db.faqs, row.id) :: row.orgId == org
    ensures UniqueSectionIds(db.sections) && |upserts| > 0
            && (exists x | x != "" && Referenced(upserts, x) :: !SectionInOrg(db.sections, org, x))
            ==> r == Err(InvalidSection)
    ensures r.Ok? ==> r.value.0 == db.(faqs := r.value.0.faqs) && r.value.1 == BatchCounts(|upserts|, |deletes|)
    ensures r.Ok? ==> forall u | u in upserts && u.id !in deletes :: Landed(r.value.0.faqs, u)
    ensures r.Ok? ==> forall row | row in r.value.0.faqs :: !(row.orgId == org && row.id in deletes)
    ensures r.Ok? ==> forall row | row in db.faqs && FindInput(upserts, row.id).None? && !(row.orgId == org && row.id in deletes) ::
      row in r.value.0.faqs
    ensures r.Ok? ==> forall row | row in r.value.0.faqs :: row in db.faqs || FindInput(upserts, row.id).Some?
  {
    SectionCheckIffWhenUnique(db, org, upserts);
    if |upserts| == 0 && |deletes| == 0 then Ok((db, BatchCounts(0, 0)))
    else if |upserts| > 0 && !SectionCheckPasses(db, org, upserts) then Err(InvalidSection)
    else if |upserts| > 0 && UpsertConflict(db, upserts) then Err(UpsertRejected)
    else Ok((db.(faqs := ApplyWrites(db.faqs, org, upserts, deletes)), BatchCounts(|upserts|, |deletes|)))
  }

  lemma SectionCheckIffWhenUnique(db: Db, org: Id, ups: seq<FaqInput>)
    ensures UniqueSectionIds(db.sections) ==>
      (SectionCheckPasses(db, org, ups) <==> forall x | x != "" && Referenced(ups, x) :: SectionInOrg(db.sections, org, x))
  {
    if UniqueSectionIds(db.sections) { SectionCheckIff(db, org, ups); }
  }

  /** After the upsert step every proposed row is present with its fields,
      and only proposed ids are new or changed. */
  lemma UpsertsLand(rows: seq<FaqRow>, org: Id, ups: seq<FaqInput>)
    ensures !HasDuplicateIds(ups) ==>
      forall u | u in ups :: Landed(Overwrite(rows, ups) + Inserted(rows, org, ups), u)
  {
    if !HasDuplicateIds(ups) {
      var all := Overwrite(rows, ups) + Inserted(rows, org, ups);
      forall u | u in ups ensures Landed(all, u) {
        assert FindInput(ups, u.id) == Some(u) by {
          var v := FindInput(ups, u.id).value;
          var i :| 0 <= i < |ups| && ups[i] == u;
          var j :| 0 <= j < |ups| && ups[j] == v;
          assert i == j || !(i < j || j < i);
        }
        if RowWithId(rows, u.id) {
          var row :| row in rows && row.id == u.id;
          var k :| 0 <= k < |rows| && rows[k] == row;
          assert all[k] == Apply(row, u);
        } else {
          assert NewRow(org, u) in all;
        }
      }
    }
  }

  /** Two organisations, A and B, each with one section; B owns FAQ "f". */
  function TwoOrgDb(): Db {
    Db([SectionRow("sA", "A", "Sec", 0, None, None), SectionRow("sB", "B", "Sec", 0, None, None)],
       [], [FaqRow("f", "B", "sB", "q", "a", "", 0)], [], [], true)
  }

  /** Org A's batch proposing B's FAQ id, placed in A's section. */
  function ForeignIdBatch(): seq<FaqInput> {
    [FaqInput("f", "sA", "Q2", "A2", "", 0)]
  }

  /** A one-row batch naming a section of the org passes both checks. */
  lemma SingleRowChecks(db: Db, org: Id, u: FaqInput, sec: SectionRow)
    requires UniqueSectionIds(db.sections) && sec in db.sections && sec.orgId == org && sec.id == u.sectionId
    ensures SectionCheckPasses(db, org, [u]) && !UpsertConflict(db, [u])
  {
    SectionCheckIff(db, org, [u]);
    forall x | x != "" && Referenced([u], x) ensures SectionInOrg(db.sections, org, x) {
      var v :| v in [u] && v.sectionId == x;
      assert v == u;
    }
    forall v | v in [u] ensures SectionExists(db.sections, v.sectionId) {
      assert v == u;
    }
  }

  lemma ForeignIdBatchPassesChecks()
    ensures SectionCheckPasses(TwoOrgDb(), "A", ForeignIdBatch())
    ensures !UpsertConflict(TwoOrgDb(), ForeignIdBatch())
  {
    var db := TwoOrgDb();
    assert UniqueSectionIds(db.sections);
    SingleRowChecks(db, "A", FaqInput("f", "sA", "Q2", "A2", "", 0), db.sections[0]);
  }

  /** A one-row batch against a one-row table whose row has the proposed
      id: the row takes the proposed fields, whatever its organisation. */
  lemma SingleUpsertRewrites(db: Db, org: Id, row: FaqRow, u: FaqInput)
    requires db.faqs == [row] && row.id == u.id
    requires SectionCheckPasses(db, org, [u]) && !UpsertConflict(db, [u])
    ensures ApplyFaqBatch(db, org, [u], []) == Ok((db.(faqs := [Apply(row, u)]), BatchCounts(1, 0)))
  {
    assert RowWithId([row], u.id) by { assert [row][0] == row; }
    assert Inserted([row], org, [u]) == [] by { assert [u][..0] == []; }
    assert FindInput([u], row.id) == Some(u);
    assert Overwrite([row], [u]) == [Apply(row, u)];
    assert ApplyWrites([row], org, [u], []) == Overwrite([row], [u]) + Inserted([row], org, [u]);
    assert ApplyWrites([row], org, [u], []) == [Apply(row, u)];
    assert ApplyFaqBatch(db, org, [u], []) == Ok((db.(faqs := ApplyWrites(db.faqs, org, [u], [])), BatchCounts(1, 0)));
  }

  /** The same batch through the corrected upsert leaves a row of another
      organisation as it was. */
  lemma SingleUpsertScoped(db: Db, org: Id, row: FaqRow, u: FaqInput)
    requires db.faqs == [row] && row.id == u.id && row.orgId != org
    requires SectionCheckPasses(db, org, [u]) && !UpsertConflict(db, [u])
    ensures ApplyFaqBatchOrgScoped(db, org, [u], []) == Ok((db, BatchCounts(1, 0)))
  {
    assert RowWithId([row], u.id) by { assert [row][0] == row; }
    assert Inserted([row], org, [u]) == [] by { assert [u][..0] == []; }
    assert FindInput([u], row.id) == Some(u);
    assert OverwriteOwn([row], org, [u]) == [row];
    assert OverwriteOwn([row], org, [u]) + Inserted([row], org, [u]) == [row];
    assert db.(faqs := [row]) == db;
  }

  /** The upsert is not scoped to the org: a batch that proposes the id of
      another organisation's FAQ rewrites that FAQ, which keeps its owner
      but now carries the caller's content and section. */
  lemma CrossOrgOverwrite()
    ensures var r := ApplyFaqBatch(TwoOrgDb(), "A", ForeignIdBatch(), []);
      r.Ok? && r.value.0.faqs == [FaqRow("f", "B", "sA", "Q2", "A2", "", 0)]
  {
    ForeignIdBatchPassesChecks();
    SingleUpsertRewrites(TwoOrgDb(), "A", FaqRow("f", "B", "sB", "q", "a", "", 0), FaqInput("f", "sA", "Q2", "A2", "", 0));
  }

  /** The corrected batch applied to the same input leaves B's FAQ as it
      was. */
  lemma CrossOrgOverwriteCorrected()
    ensures var r := ApplyFaqBatchOrgScoped(TwoOrgDb(), "A", ForeignIdBatch(), []);
      r.Ok? && r.value.0.faqs == TwoOrgDb().faqs
  {
    ForeignIdBatchPassesChecks();
    SingleUpsertScoped(TwoOrgDb(), "A", FaqRow("f", "B", "sB", "q", "a", "", 0), FaqInput("f", "sA", "Q2", "A2", "", 0));
  }

  /** The upsert scoped to the caller's organisation, as every other
      mutation is: a proposed id that belongs to another organisation's FAQ
      is left alone (`setWhere` on the conflict clause). */
  function OverwriteOwn(rows: seq<FaqRow>, org: Id, ups: seq<FaqInput>): (r: seq<FaqRow>)
    ensures |r| == |rows|
    ensures forall i | 0 <= i < |rows| ::
      r[i] == match FindInput(ups, rows[i].id)
              case Some(u) => if rows[i].orgId == org then Apply(rows[i], u) else rows[i]
              case None => rows[i]
  {
    seq(|rows|, i requires 0 <= i < |rows| =>
      match FindInput(ups, rows[i].id)
      case Some(u) => if rows[i].orgId == org then Apply(rows[i], u) else rows[i]
      case None => rows[i])
  }

  /** `applyFaqBatch` with the org-scoped upsert: rows of every other
      organisation come out exactly as they went in. */
  function ApplyFaqBatchOrgScoped(db: Db, org: Id, upserts: seq<FaqInput>, deletes: seq<Id>): (r: Result<(Db, BatchCounts), Error>)
    ensures |upserts| == 0 && |deletes| == 0 ==> r == Ok((db, BatchCounts(0, 0)))
    ensures |upserts| == 0 ==> r.Ok?
    ensures |upserts| > 0 ==> (r == Err(InvalidSection) <==> !SectionCheckPasses(db, org, upserts))
    ensures |upserts| > 0 ==> (r == Err(UpsertRejected) <==> SectionCheckPasses(db, org, upserts) && UpsertConflict(db, upserts))
    ensures |upserts| > 0 ==> (r.Ok? <==> SectionCheckPasses(db, org, upserts) && !UpsertConflict(db, upserts))
    ensures r.Ok? ==> forall row | row in r.value.0.faqs && !RowWithId(db.faqs, row.id) :: row.orgId == org
    ensures r.Ok? ==> r.value.0 == db.(faqs := r.value.0.faqs) && r.value.1 == BatchCounts(|upserts|, |deletes|)
    ensures r.Ok? ==> forall row | row in db.faqs && row.orgId != org :: row in r.value.0.faqs
    ensures r.Ok? ==> forall row | row in r.value.0.faqs && row.orgId != org :: row in db.faqs
    ensures r.Ok? ==> forall row | row in r.value.0.faqs :: !(row.orgId == org && row.id in deletes)
  {
    if |upserts| == 0 && |deletes| == 0 then Ok((db, BatchCounts(0, 0)))
    else if |upserts| > 0 && !SectionCheckPasses(db, org, upserts) then Err(InvalidSection)
    else if |upserts| > 0 && UpsertConflict(db, upserts) then Err(UpsertRejected)
    else
      var afterUpsert := if |upserts| > 0 then OverwriteOwn(db.faqs, org, upserts) + Inserted(db.faqs, org, upserts) else db.faqs;
      var afterDelete := if |deletes| > 0 then DeleteOrgRows(afterUpsert, org, deletes) else afterUpsert;
      OwnUpsertKeepsOthers(db.faqs, org, upserts);
      OverwriteOwnKeepsIds(db.faqs, org, upserts);
      InsertedBelongToOrg(OverwriteOwn(db.faqs, org, upserts), db.faqs, org, upserts);
      Ok((db.(faqs := afterDelete), BatchCounts(|upserts|, |deletes|)))
  }

  lemma OverwriteOwnKeepsIds(rows: seq<FaqRow>, org: Id, ups: seq<FaqInput>)
    ensures forall row | row in OverwriteOwn(rows, org, ups) :: RowWithId(rows, row.id)
  {
    var own := OverwriteOwn(rows, org, ups);
    forall row | row in own ensures RowWithId(rows, row.id) {
      var k :| 0 <= k < |own| && own[k] == row;
      assert rows[k] in rows && own[k].id == rows[k].id;
    }
  }

  lemma OwnUpsertKeepsOthers(rows: seq<FaqRow>, org: Id, ups: seq<FaqInput>)
    ensures var all := OverwriteOwn(rows, org, ups) + Inserted(rows, org, ups);
      && (forall row | row in rows && row.orgId != org :: row in all)
      && (forall row | row in all && row.orgId != org :: row in rows)
  {
    var own := OverwriteOwn(rows, org, ups);
    var all := own + Inserted(rows, org, ups);
    forall row | row in rows && row.orgId != org ensures row in all {
      var k :| 0 <= k < |rows| && rows[k] == row;
      assert own[k] == row;
    }
    forall row | row in all && row.orgId != org ensures row in rows {
      if row in own {
        var k :| 0 <= k < |own| && own[k] == row;
        assert own[k] == rows[k];
      }
    }
  }

  // ---------------------------------------------------------------------
  // Custom rules and their history

  /** `getCustomRules`: the first row of the org (`limit 1`). */
  function GetCustomRules(rows: seq<RulesRow>, org: Id): (r: Option<RulesRow>)
    ensures r.Some? ==> r.value in rows && r.value.orgId == org
    ensures r.None? <==> forall row | row in rows :: row.orgId != org
  {
    if |rows| == 0 then None
    else if rows[0].orgId == org then Some(rows[0])
    else
      assert rows == [rows[0]] + rows[1..];
      GetCustomRules(rows[1..], org)
  }

  function SetContent(rows: seq<RulesRow>, org: Id, id: Id, content: string): (r: seq<RulesRow>)
    ensures |r| == |rows|
    ensures forall i | 0 <= i < |rows| ::
      r[i] == if rows[i].id == id && rows[i].orgId == org then rows[i].(content := content) else rows[i]
  {
    seq(|rows|, i requires 0 <= i < |rows| =>
      if rows[i].id == id && rows[i].orgId == org then rows[i].(content := content) else rows[i])
  }

  /** The history row `saveCustomRules` writes first, if any: only when the
      org already has non-empty rules, and silently none while the history
      table does not exist. */
  function HistoryEntry(db: Db, org: Id, userId: Id, newHistoryId: Id): Option<HistoryRow> {
    match GetCustomRules(db.rules, org)
    case Some(existing) =>
      if existing.content != "" && db.historyTableExists
      then Some(HistoryRow(newHistoryId, org, existing.content, userId))
      else None
    case None => None
  }

  /** `saveCustomRules`: record the previous content, then update the org's
      row or insert the first one. Reading the rules back gives the saved
      content. */
  function SaveCustomRules(db: Db, org: Id, userId: Id, content: string, newRulesId: Id, newHistoryId: Id)
    : (r: (Db, RulesRow))
    ensures r.1.content == content && r.1.orgId == org
    ensures GetCustomRules(r.0.rules, org) == Some(r.1)
    ensures var previous := GetCustomRules(db.rules, org);
      if previous.Some? && previous.value.content != "" && db.historyTableExists
      then r.0.history == db.history + [HistoryRow(newHistoryId, org, previous.value.content, userId)]
      else r.0.history == db.history
    ensures r.0 == db.(rules := r.0.rules, history := r.0.history)
    ensures forall o | o != org :: GetCustomRules(r.0.rules, o) == GetCustomRules(db.rules, o)
  {
    var history := match HistoryEntry(db, org, userId, newHistoryId)
      case Some(h) => db.history + [h]
      case None => db.history;
    match GetCustomRules(db.rules, org)
    case Some(existing) =>
      var rows := SetContent(db.rules, org, existing.id, content);
      RulesUpdateReadsBack(db.rules, org, existing, content);
      (db.(rules := rows, history := history), existing.(content := content))
    case None =>
      var row := RulesRow(newRulesId, org, content);
      RulesInsertReadsBack(db.rules, org, row);
      (db.(rules := db.rules + [row], history := history), row)
  }

  lemma {:induction false} RulesUpdateReadsBack(rows: seq<RulesRow>, org: Id, existing: RulesRow, content: string)
    requires GetCustomRules(rows, org) == Some(existing)
    ensures GetCustomRules(SetContent(rows, org, existing.id, content), org) == Some(existing.(content := content))
    ensures forall o | o != org :: GetCustomRules(SetContent(rows, org, existing.id, content), o) == GetCustomRules(rows, o)
  {
    var r := SetContent(rows, org, existing.id, content);
    if rows[0].orgId != org {
      RulesUpdateReadsBack(rows[1..], org, existing, content);
      assert r[1..] == SetContent(rows[1..], org, existing.id, content);
    } else {
      forall o | o != org ensures GetCustomRules(r, o) == GetCustomRules(rows, o) {
        SetContentOtherOrg(rows, org, existing.id, content, o);
      }
    }
  }

  lemma {:induction false} SetContentOtherOrg(rows: seq<RulesRow>, org: Id, id: Id, content: string, o: Id)
    requires o != org
    ensures GetCustomRules(SetContent(rows, org, id, content), o) == GetCustomRules(rows, o)
  {
    if |rows| > 0 && rows[0].orgId != o {
      var r := SetContent(rows, org, id, content);
      assert r[1..] == SetContent(rows[1..], org, id, content);
      SetContentOtherOrg(rows[1..], org, id, content, o);
    }
  }

  lemma {:induction false} RulesInsertReadsBack(rows: seq<RulesRow>, org: Id, row: RulesRow)
    requires GetCustomRules(rows, org).None? && row.orgId == org
    ensures GetCustomRules(rows + [row], org) == Some(row)
    ensures forall o | o != org :: GetCustomRules(rows + [row], o) == GetCustomRules(rows, o)
  {
    if |rows| > 0 {
      assert (rows + [row])[1..] == rows[1..] + [row];
      RulesInsertReadsBack(rows[1..], org, row);
    }
  }

  /** The history row of the org with this id. */
  function FindHistory(rows: seq<HistoryRow>, org: Id, historyId: Id): (r: Option<HistoryRow>)
    ensures r.Some? ==> r.value in rows && r.value.id == historyId && r.value.orgId == org
    ensures r.None? <==> forall h | h in rows :: !(h.id == historyId && h.orgId == org)
  {
    if |rows| == 0 then None
    else if rows[0].id == historyId && rows[0].orgId == org then Some(rows[0])
    else
      assert rows == [rows[0]] + rows[1..];
      FindHistory(rows[1..], org, historyId)
  }

  /** `restoreCustomRulesVersion`: saving the recorded content again, which
      itself records the content it replaces. */
  function RestoreCustomRulesVersion(db: Db, org: Id, userId: Id, historyId: Id, newRulesId: Id, newHistoryId: Id)
    : (r: Result<(Db, RulesRow), Error>)
    ensures !db.historyTableExists <==> r == Err(HistoryUnavailable)
    ensures db.historyTableExists && (forall h | h in db.history :: !(h.id == historyId && h.orgId == org))
            <==> r == Err(HistoryNotFound)
    ensures r.Ok? ==> exists h | h in db.history :: h.id == historyId && h.orgId == org
                        && GetCustomRules(r.value.0.rules, org) == Some(r.value.1) && r.value.1.content == h.content
  {
    if !db.historyTableExists then Err(HistoryUnavailable)
    else match FindHistory(db.history, org, historyId)
      case None => Err(HistoryNotFound)
      case Some(h) => Ok(SaveCustomRules(db, org, userId, h.content, newRulesId, newHistoryId))
  }
}

=== FILE: subsequences.dfy ===
/**
  Order-preserving sub-sequences: what `Array.prototype.filter` and the
  loops that push selected elements produce. A filter's result is the
  sub-sequence of its input that keeps every selected element as often as
  it occurs, which the contracts state with `IsSubseq` and multiset
  multiplicities.
 */
module Subsequences {

  /** `r` is `s` with some elements left out and the rest in their order. */
  predicate IsSubseq<T(==)>(r: seq<T>, s: seq<T>)
    decreases |s|
  {
    if |r| == 0 then true
    else if |s| == 0 then false
    else
      (r[|r| - 1] == s[|s| - 1] && IsSubseq(r[..|r| - 1], s[..|s| - 1]))
      || IsSubseq(r, s[..|s| - 1])
  }

  /** A loop step that skips the element. */
  lemma SubseqSkip<T>(r: seq<T>, s: seq<T>, x: T)
    requires IsSubseq(r, s)
    ensures IsSubseq(r, s + [x])
  {
    if |r| > 0 {
      assert (s + [x])[..|s|] == s;
    }
  }

  /** A loop step that keeps the element. */
  lemma SubseqTake<T>(r: seq<T>, s: seq<T>, x: T)
    requires IsSubseq(r, s)
    ensures IsSubseq(r + [x], s + [x])
  {
    assert (r + [x])[..|r|] == r && (s + [x])[..|s|] == s;
  }

  /** Every sequence is a sub-sequence of itself. */
  lemma {:induction false} SubseqRefl<T>(s: seq<T>)
    ensures IsSubseq(s, s)
  {
    if |s| > 0 {
      SubseqRefl(s[..|s| - 1]);
    }
  }

  /** A sub-sequence uses each element at most as often as `s` has it. */
  lemma {:induction false} SubseqMultiset<T>(r: seq<T>, s: seq<T>)
    requires IsSubseq(r, s)
    ensures multiset(r) <= multiset(s)
    decreases |s|
  {
    if |r| > 0 {
      var r', s' := r[..|r| - 1], s[..|s| - 1];
      assert s == s' + [s[|s| - 1]];
      if r[|r| - 1] == s[|s| - 1] && IsSubseq(r', s') {
        SubseqMultiset(r', s');
        assert r == r' + [r[|r| - 1]];
      } else {
        SubseqMultiset(r, s');
      }
    }
  }

  /** `r` is what `s.filter(p)` returns: the elements of `s` that satisfy
      `p`, in their order, each as often as it occurs in `s`. */
  ghost predicate IsFilter<T(!new)>(r: seq<T>, s: seq<T>, p: T -> bool) {
    IsSubseq(r, s) && forall x :: multiset(r)[x] == (if p(x) then multiset(s)[x] else 0)
  }

  /** Peeling the last input element off a filter result. */
  lemma FilterFront<T(!new)>(r: seq<T>, s: seq<T>, p: T -> bool) returns (r': seq<T>)
    requires |s| > 0 && IsFilter(r, s, p)
    ensures IsFilter(r', s[..|s| - 1], p)
    ensures r == r' + (if p(s[|s| - 1]) then [s[|s| - 1]] else [])
  {
    var s', x := s[..|s| - 1], s[|s| - 1];
    assert s == s' + [x];
    if p(x) {
      assert multiset(r)[x] > 0;
      if !(r[|r| - 1] == x && IsSubseq(r[..|r| - 1], s')) {
        SubseqMultiset(r, s');
        assert false;
      }
      r' := r[..|r| - 1];
      assert r == r' + [x];
    } else {
      r' := r;
      if |r| > 0 {
        assert r[|r| - 1] in multiset(r);
        assert r[|r| - 1] != x;
      }
    }
  }

  /** The filter contract determines its result: two sequences that both
      satisfy it for the same input and test are equal. */
  lemma {:induction false} FilterUnique<T(!new)>(r1: seq<T>, r2: seq<T>, s: seq<T>, p: T -> bool)
    requires IsFilter(r1, s, p) && IsFilter(r2, s, p)
    ensures r1 == r2
    decreases |s|
  {
    if |s| == 0 {
      assert |r1| == 0 && |r2| == 0;
    } else {
      var a := FilterFront(r1, s, p);
      var b := FilterFront(r2, s, p);
      FilterUnique(a, b, s[..|s| - 1], p);
    }
  }
}

=== FILE: variables_form.dfy ===
/**
  The variables panel's form logic (src/components/variables-section.tsx):
  the key sanitiser applied to every keystroke of a new key, the guards of
  adding and saving, and the read-only switch.
 */
module VariablesForm {
  import opened Outcomes
  import opened JsText
  import opened IdLists

  datatype Variable = Variable(id: Id, key: string, value: string)

  /** The characters a new key may hold. */
  predicate KeyChar(c: char) {
    'A' <= c <= 'Z' || '0' <= c <= '9' || c == '_'
  }

  /** The key as stored: ASCII letters upper-cased and every character
      other than A-Z, 0-9 and `_` replaced by `_`. */
  function SanitizeKey(input: string): (r: string)
    ensures |r| == |input|
    ensures forall i | 0 <= i < |r| :: KeyChar(r[i])
    ensures forall i | 0 <= i < |r| ::
              r[i] == if KeyChar(UpperChar(input[i])) then UpperChar(input[i]) else '_'
  {
    var upper := Upper(input);
    seq(|upper|, i requires 0 <= i < |upper| => if KeyChar(upper[i]) then upper[i] else '_')
  }

  /** Sanitising a sanitised key changes nothing. */
  lemma SanitizeKeyIdempotent(input: string)
    ensures SanitizeKey(SanitizeKey(input)) == SanitizeKey(input)
  {
    var once := SanitizeKey(input);
    forall i | 0 <= i < |once| ensures UpperChar(once[i]) == once[i] {
    }
  }

  /** A key made only of key characters is left as it is. */
  lemma SanitizeKeyFixes(key: string)
    requires forall i | 0 <= i < |key| :: KeyChar(key[i])
    ensures SanitizeKey(key) == key
  {
    forall i | 0 <= i < |key| ensures UpperChar(key[i]) == key[i] {
    }
  }

  /** A sanitised key holds no whitespace, so trimming it changes nothing. */
  lemma SanitizedKeyIsTrimmed(input: string)
    ensures Trim(SanitizeKey(input)) == SanitizeKey(input)
  {
    var key := SanitizeKey(input);
    if |key| > 0 {
      assert !IsWhitespace(key[0]) && !IsWhitespace(key[|key| - 1]);
      TrimNoEdgeWhitespace(key);
    }
  }

  /** A string with no whitespace at either end is its own trim. */
  lemma TrimNoEdgeWhitespace(s: string)
    requires |s| > 0 && !IsWhitespace(s[0]) && !IsWhitespace(s[|s| - 1])
    ensures Trim(s) == s
  {
  }

  /** The form's state: the edited variable and its texts, and the add row. */
  datatype FormState = FormState(
    readOnly: bool,
    editingId: Option<Id>,
    editKey: string,
    editValue: string,
    isAdding: bool,
    newKey: string,
    newValue: string)

  /** What the form asks of the page. */
  datatype Request = NoRequest | CreateVariable(key: string, value: string) | UpdateVariable(id: Id, key: string, value: string)

  /** `editingId` used as a condition: an id that is present and not empty. */
  predicate Editing(st: FormState) {
    st.editingId.Some? && st.editingId.value != ""
  }

  /** `startEdit`: nothing in read-only mode; otherwise the variable's key and
      value are loaded for editing. */
  function StartEdit(st: FormState, v: Variable): (r: FormState)
    ensures st.readOnly ==> r == st
    ensures !st.readOnly ==> r == st.(editingId := Some(v.id), editKey := v.key, editValue := v.value)
  {
    if st.readOnly then st else st.(editingId := Some(v.id), editKey := v.key, editValue := v.value)
  }

  /** `saveEdit`: an update with the trimmed key and value, only while a
      variable is edited and its key is not blank; the edit then ends. */
  function SaveEdit(st: FormState): (r: (FormState, Request))
    ensures r.1.UpdateVariable? <==> Editing(st) && !IsBlank(st.editKey)
    ensures r.1.UpdateVariable? ==>
              && r.1 == UpdateVariable(st.editingId.value, Trim(st.editKey), Trim(st.editValue))
              && r.0 == st.(editingId := None)
    ensures !r.1.UpdateVariable? ==> r == (st, NoRequest)
  {
    if Editing(st) && Trim(st.editKey) != "" then
      (st.(editingId := None), UpdateVariable(st.editingId.value, Trim(st.editKey), Trim(st.editValue)))
    else
      (st, NoRequest)
  }

  /** `cancelEdit`: the edit ends and its texts are cleared. */
  function CancelEdit(st: FormState): (r: FormState)
    ensures r.editingId.None? && r.editKey == "" && r.editValue == ""
    ensures r.(editingId := st.editingId, editKey := st.editKey, editValue := st.editValue) == st
  {
    st.(editingId := None, editKey := "", editValue := "")
  }

  /** Typing into the new-key input stores the sanitised text. */
  function TypeNewKey(st: FormState, input: string): (r: FormState)
    ensures r.newKey == SanitizeKey(input)
    ensures r.(newKey := st.newKey) == st
  {
    st.(newKey := SanitizeKey(input))
  }

  /** `handleAdd`: nothing in read-only mode; otherwise a create with the
      trimmed key and value when the key is not blank, after which the add
      row is cleared and closed. */
  function HandleAdd(st: FormState): (r: (FormState, Request))
    ensures r.1.CreateVariable? <==> !st.readOnly && !IsBlank(st.newKey)
    ensures r.1.CreateVariable? ==>
              && r.1 == CreateVariable(Trim(st.newKey), Trim(st.newValue))
              && r.0 == st.(newKey := "", newValue := "", isAdding := false)
    ensures !r.1.CreateVariable? ==> r == (st, NoRequest)
  {
    if st.readOnly then (st, NoRequest)
    else if Trim(st.newKey) != "" then
      (st.(newKey := "", newValue := "", isAdding := false), CreateVariable(Trim(st.newKey), Trim(st.newValue)))
    else
      (st, NoRequest)
  }

  /** In read-only mode no edit starts and nothing is added, so no request
      ever leaves a form that was not editing. */
  lemma ReadOnlyRequestsNothing(st: FormState, v: Variable)
    requires st.readOnly && !Editing(st)
    ensures StartEdit(st, v) == st
    ensures HandleAdd(st) == (st, NoRequest)
    ensures SaveEdit(StartEdit(st, v)).1 == NoRequest
  {
  }

  /** A key added through the input is exactly the sanitised text typed,
      made only of key characters. */
  lemma AddedKeyIsSanitized(st: FormState, input: string)
    requires HandleAdd(TypeNewKey(st, input)).1.CreateVariable?
    ensures var key := HandleAdd(TypeNewKey(st, input)).1.key;
            && key == SanitizeKey(input)
            && forall i | 0 <= i < |key| :: KeyChar(key[i])
  {
    SanitizedKeyIsTrimmed(input);
  }
}
